=== FILE: README.md ===
# Cache Remover engine in Dafny

This project models the project-classification and cache-cleanup engine of the cache
remover utility. It models the engine in two implementations and two front-ends:

- the Go command-line engine in `main.go`;
- its configuration handling in `config.go`;
- the project list of the terminal front-end in `interactive.go`;
- the independent Python implementation `cache_remover.py`.

The filesystem is an abstract tree (`FsTree`). A node is a regular file, a symbolic link or
a directory. Directories carry the owner read/write/exec bits and list their entries in
the order their listing returns them. Go's `filepath.Walk` sorts each listing by name
before visiting it, while Python's `rglob` and `iterdir` follow the order `os.scandir`
returns. The stored order stands for whichever order the implementation at hand uses, so
a tree read for the Go side lists its entries sorted by name.

`filepath.Walk` is modelled once, generically. The walk function is a state transformer
that returns nil, `SkipDir` or another error. `SkipDir` returned for a file skips the
rest of that file's directory. Every walk of the Go code is an instance of it:

- `findProjects`;
- the three passes of `findCacheItems`;
- `getDirSize`;
- the two walks of `forceRemoveRecursive`;
- `makeWritableRecursive`;
- the `loadProjects` walk.

Go's int64 running totals wrap explicitly (`Int64.Wrap`, `Int64.Add`) wherever the code
adds without a guard. Python sums are unbounded integers.

The rule set (`Rules`) is a parameter. It replaces the `loadConfig()` calls inside
`isCacheDirectory`, `isProjectDirectory` and `detectProjectType`. The configuration
search itself is modelled in `Configs`.

The Python side follows `pathlib` as of Python 3.9–3.11. The program needs 3.9 or later:
its `tuple[int, int]` return annotations (cache_remover.py:209 and :233) fail at import
on 3.8. In those versions:

- `rglob('*')` lists a directory, then recurses into each real subdirectory, and does not
  follow symbolic links;
- `exists()`, `is_dir()` and `is_file()` follow links;
- a path inside a directory that cannot be searched raises.

The terminal front-end loads from the root ".", the only root its code passes. The
Swift/iOS indicators `*.xcodeproj` and `*.xcworkspace` are looked up as literal names,
as `os.Stat` does; they are not glob patterns.

What the operating system answers is an input to the model:

- whether `os.RemoveAll` succeeds;
- whether `os.Chmod` is allowed;
- whether `rm -rf` succeeds;
- whether `shutil.rmtree` or `unlink` raises;
- the user's answer to the interactive prompt;
- which configuration files exist and what they decode to.

`os.Remove`, `os.Stat` and the permission passes act on the tree.

The operations follow the code as written. Three places where the code does not do what
its comments and design notes suggest are kept as written:

- **Overflow in `getDirSize`.** Its overflow guard returns `SkipDir` from a file. That
  skips only the rest of that file's directory; the walk does not stop, and later
  directories are still added (`Sizes.DirSizeSkipsOnlySiblings`).
- **Nested cache directories.** The claimed-path rule does not stop a directory recorded
  later from containing one recorded earlier. `processProject` then counts the inner
  directory's bytes twice (`CacheItems.NestedCountedTwice`, `Cleanup.VenvCountedTwice`).
- **Dry runs in Python.** A Python dry run reports (0, 0) for every project. The Go dry run
  counts every item it found.

The rows under "## Findings" each pair a member that models the code as written with a
corrected definition whose intended property is proved:

- `CacheItems.CacheItemsCorrected` drops nested directory items;
- `Discovery.LoadProjectPaths` skips every hidden directory;
- `Sizes.OptimizedCacheDirSize` guards the subdirectory addition.

The operations that use them (`Cleanup.ProcessProject`, `Interactive.ItemFor`,
`Interactive.LoadProjects`) keep the code as written: they call findCacheItems and the
front-end walk without the corrections.

## Model

| member | source | states |
|---|---|---|
| FsTree.WalkAsFold | main.go:615-620 | a walk whose function always returns nil hands every entry to it exactly once, in pre-order, and reports no error |
| FsTree.WalkKeeps | main.go:328-352 | a walk over a well-formed tree keeps every invariant of the state that each call of its function keeps |
| FsTree.TreeVisitsNamed | main.go:339 | the name each call reports is the base name of its path |
| Paths.BaseOfJoin | interactive.go:300 | the base name of a joined path is the name that was joined |
| Paths.DepthOfPath | main.go:169 | the separator count after the root is the number of names below the root, one fewer when the root is "", "." or ends in a separator |
| Paths.ResolvePathOf | main.go:184 | a path the walk builds from the root and a list of names resolves back to exactly those names |
| Paths.PathOfInjective | main.go:184 | different name lists give different walk paths, so a recorded path names one directory |
| Paths.BelowIffPrefix | main.go:378 | a walk path lies strictly below a directory exactly when it starts with that directory's path followed by a separator |
| Int64.Wrap | main.go:258 | the stored int64 value lies in the int64 range and equals the mathematical result when that fits |
| Int64.Add | main.go:44-45 | `+=` on int64 stays in range; it is exact when the sum fits and falls short by 2^64 when it overflows upward |
| Int64.WrapOfSum | main.go:256-259 | an unguarded int64 running total holds the mathematical sum reduced into the int64 range |
| Rules.IsCacheDirectory | main.go:140-151 | true exactly when some rule lists the name among its cache directories |
| Rules.HasIndicator | main.go:300-304 | true exactly when some indicator of the rule is found by os.Stat in the directory |
| Rules.DetectProjectType | main.go:297-308 | none exactly when no rule has an indicator present; otherwise the first rule in rule-set order that has one |
| Rules.IsProjectDirectory | main.go:201-212 | true exactly when some rule has an indicator present, which is exactly when detectProjectType finds a type |
| Rules.IndicatorNeedsTarget | main.go:205-207 | an indicator is found only in a searchable directory, and a dangling symbolic link is not one |
| Configs.Config.constructor | config.go:10-13 | a configuration holds the project types and settings it is given |
| Configs.FirstInvalidFrom | config.go:77-84 | the validation loop stops at the first type with an empty name or no indicators; every type before it is valid |
| Configs.ValidateConfig | config.go:72-97 | returns the first problem found and leaves the configuration unchanged, or returns nil and fills in the missing settings |
| Configs.ValidationErrorCases | config.go:73-84 | validation succeeds exactly when there is a type and every type has a name and an indicator; an empty list is reported as such; otherwise the first offending type is named |
| Configs.DefaultedSettings | config.go:86-94 | after defaulting, maxDepth and workers are positive and the log level is non-empty; settings already set are kept |
| Configs.ValidateIdempotent | config.go:72-97 | a validated configuration validates again, keeps its project types and is not changed a second time |
| Configs.DefaultConfigValid | config.go:99-190 | the built-in configuration has nine types and settings (10, 4, "info"), and passes validation unchanged |
| Configs.ConfigLoader.constructor | config.go:21-29 | no configuration is memoised yet; the four search paths are in order, with $HOME inserted |
| Configs.ConfigLoader.LoadConfig | config.go:32-51 | once memoised, the memo is returned unchanged; otherwise the first path that loads or else the built-in configuration becomes the memo; no error is ever returned |
| Configs.LoadConfigFromFile | config.go:53-70 | a file yields a configuration exactly when it reads, decodes and validates, and then yields the validated record |
| Configs.FirstLoadedIsFirst | config.go:38-50 | the configuration chosen comes from the first path that loads, and no earlier path loads; when none loads it is the built-in one |
| Configs.FirstLoadedValid | config.go:32-70 | whatever loadConfig settles on passes validation with all settings filled in |
| Discovery.DiscoverIsFound | main.go:157-192 | the discovery walk records exactly the paths of the reachable project directories, in walk order |
| Discovery.FoundSound | main.go:165-189 | everything found is a project directory reached through listable, unpruned directories |
| Discovery.FoundComplete | main.go:165-189 | every project directory reached through listable, searchable, unpruned directories is found |
| Discovery.DiscoverExactly | main.go:157-192 | a path is recorded exactly when it is the path of a reachable project directory |
| Discovery.NestedProjectsFound | main.go:182-191 | classification does not prune: a project directory inside a recorded project directory is recorded too |
| Discovery.DiscoverSound | main.go:157-192 | every recorded path is a project directory that the walk can reach, and no directory from the root down to it is refused |
| Discovery.DiscoverComplete | main.go:157-192 | every project directory reachable without a refused directory on the way is recorded |
| Discovery.FindProjectsSound | main.go:153-199 | findProjects records only project directories no deeper than maxDepth, none of them named like a cache directory or inside one |
| Discovery.FindProjectsComplete | main.go:153-199 | findProjects records every project directory it can reach through directories within maxDepth that are not named like cache directories |
| Discovery.LoadProjectPathsAsWrittenSound | interactive.go:271-290 | loadProjects as written records only project directories reached through directories no deeper than 10, none named like a cache directory and none with "/." in its path |
| Discovery.LoadProjectPathsAsWrittenComplete | interactive.go:271-290 | loadProjects as written records every project directory reached through such directories |
| Discovery.LoadProjectPathsSkipHidden | interactive.go:271-290 | the corrected front-end walk records only project directories within depth 10 with no name below the root starting with '.' |
| Discovery.HiddenTopLevelEntered | interactive.go:283 | loadProjects as written, started from ".", enters a top-level ".hidden" directory and records the project inside it |
| Discovery.HiddenBelowRootRefused | interactive.go:281-285 | the corrected walk records nothing whose first name below the root starts with '.' |
| Discovery.HiddenTopLevelRefused | interactive.go:283 | the corrected walk does not record the project inside ".hidden" |
| Sizes.DirSizeInRange | main.go:403-423 | getDirSize stays within [0, 2^63-1] on every tree |
| Sizes.DirSizeExact | main.go:403-423 | when nothing overflows, getDirSize is the total size of every entry that is not a directory, below directories that can be listed and searched |
| Sizes.DirSizeSkipsOnlySiblings | main.go:415-417 | SkipDir from a file that would overflow skips only the rest of its directory: a later file elsewhere is still added |
| Sizes.LimitedSizeBounds | main.go:469-509 | getDirectorySizeWithLimit stays within [0, 2^63-1], never exceeds the unbounded depth-limited sum, and equals it when that sum fits |
| Sizes.SizeWithLimit | main.go:469-509 | getDirectorySizeWithLimit computes the depth-limited size, and 0 for depth <= 0 or a directory it cannot list |
| Sizes.DepthOneCountsImmediateFiles | main.go:487-495 | at depth 1 only the directory's own regular files count |
| Sizes.LinksNeverCount | main.go:482-485 | dropping symbolic links from a listing changes nothing |
| Sizes.OptimizedSizeWraps | main.go:451 | as written, two subdirectories whose sizes together pass 2^63-1 make getOptimizedCacheDirSize negative |
| Sizes.OptimizedCacheDirSize | main.go:427-466 | with the subdirectory addition guarded: the result is in [0, 2^63-1]; it is 0 for a missing path; it is the full walk's size when the directory cannot be listed; it is at most the size of files up to four levels down, and equal to it when that fits |
| CacheItems.EndsWithAny | main.go:385-393 | true exactly when some configured extension is a suffix of the name |
| CacheItems.FindCacheItems | main.go:310-401 | the loops over the configured names compute the items of the three passes |
| CacheItems.AddDirectorySynced | main.go:319-324 | recording a directory of positive size keeps processedPaths equal to the set of recorded directories |
| CacheItems.NestedKeepsSynced | main.go:328-352 | the nested-directory walk function keeps processedPaths equal to the recorded directories |
| CacheItems.DirectoryPassSynced | main.go:315-353 | the processedPaths bookkeeping: after the first pass every item is a directory of positive size and processedPaths is exactly the set of their paths |
| CacheItems.NestedSound | main.go:328-352 | everything the walk for one name records is a directory of that name, with getDirSize above 0, that the walk reaches without entering a processed or matching directory |
| CacheItems.NestedComplete | main.go:328-352 | every directory of that name with getDirSize above 0 that the walk reaches that way is recorded |
| CacheItems.NestedAtFacts | main.go:328-352 | a recorded directory has the configured base name and the path of its names; its size is getDirSize's; no directory from the project down to it was processed as the walk started; none above it is itself recorded |
| CacheItems.NestedNode | main.go:328-352 | the walk callback, run over a subtree, records exactly the directories NestedFound describes, in walk order, marks exactly their paths processed and never stops the walk |
| CacheItems.DirectoryRoundIsNested | main.go:317-352 | one round is the top-level check followed by the walk's directories, judged against processedPaths after that check |
| CacheItems.DirectoryPassRound | main.go:315-353 | in round i, after the top-level check, an item is recorded exactly when it is a directory named dirs[i] that the walk reaches without passing a path processed before the walk; those paths become processed, and the round's items stay in the first pass's result |
| CacheItems.ClaimedPathsSkipped | main.go:334-336 | the walk for a later name neither records nor enters a directory recorded for an earlier name |
| CacheItems.DirectoryPassOrigin | main.go:315-353 | every item of the first pass comes from some round i: the top-level joined path with getDirSize above 0, or a directory the walk of round i records |
| CacheItems.DirectoryPassKeepsOrigin | main.go:315-353 | conversely, every such directory is an item of the first pass |
| CacheItems.FilePassAdds | main.go:356-367 | the file pass keeps the earlier items and processedPaths; a configured file is recorded exactly when its joined path is not processed and os.Stat finds something there that is not a directory, and then with the size os.Stat reports |
| CacheItems.ExtensionPassExactly | main.go:370-398 | the extension pass hands every walk call to the extension test and records, in walk order, those that pass |
| CacheItems.MatchedFrom | main.go:376-394 | every item of the extension pass comes from a call about a non-directory outside every processed directory whose name ends with a configured extension |
| CacheItems.MatchedTo | main.go:376-394 | every such call is recorded |
| CacheItems.MatchedOnePerCall | main.go:385-393 | the items of a walk are those of its parts in order, at most one per call: a file is recorded once however many extensions its name ends with |
| CacheItems.ExtensionRegion | main.go:376-381 | an item added by the extension pass is a file outside every processed directory |
| CacheItems.CacheItemsLayout | main.go:310-401 | the items are the directories (positive size, exactly the processed paths, each from its round of the first pass), then the configured top-level files recorded as the file pass records them, then the extension matches (none inside a processed directory) |
| CacheItems.CacheItemsHaveOrigins | main.go:310-401 | every directory found by a round of the first pass is among the items findCacheItems returns |
| CacheItems.NestedCountedTwice | main.go:315-353 | as written, a venv holding a `__pycache__` directory yields both directories, one inside the other, so their sizes count the same byte twice |
| CacheItems.OutermostDisjoint | main.go:312 | after the correction, no kept item lies inside a kept directory item |
| CacheItems.Keep | main.go:312 | keeps, in order, exactly the items that do not lie inside any of the given directories |
| CacheItems.OutermostCovers | main.go:312 | the correction drops only items that lie inside a kept directory item |
| CacheItems.NestedCountedOnce | main.go:312 | with the correction the venv is recorded once and its `__pycache__` is not recorded |
| Cleanup.CleanupStats.constructor | main.go:32-38 | all three counters start at zero |
| Cleanup.CleanupStats.Add | main.go:41-46 | adds the items and the size to the totals with int64 wrap-around; the project count is unchanged |
| Cleanup.CleanupStats.IncrementProjects | main.go:48-52 | adds one to the project count and nothing else |
| Cleanup.SumSizes | main.go:256-259 | the running int64 total is the wrapped sum of the item sizes |
| Cleanup.RemovalRun | main.go:536-546 | the removals in turn count only items of the list, at most as many, and take away only counted items |
| Cleanup.Removed | main.go:536-546 | the items removeCacheItems counts are never more than the items it is given |
| Cleanup.RemoveCacheItems | main.go:532-550 | the loop counts the items the removals in turn report removed (at most the number of items) and sums exactly their sizes with int64 wrap-around |
| Cleanup.CountedExactlyAtTurn | main.go:536-546 | an item is appended to the counted ones exactly when os.Stat no longer finds it at its turn or its removal succeeds |
| Cleanup.BelowRemovedCounted | main.go:555-557 | an item at or below an item removed earlier is no longer found at its turn, so it is counted with its recorded size |
| Cleanup.RemovedSound | main.go:536-546 | every counted item is one of the items; one whose removal strategies all fail is counted only when it was already gone at its turn |
| Cleanup.AllRemoved | main.go:536-546 | when no removal fails, every item is counted, in order |
| Cleanup.ProcessProject | main.go:236-295 | processProject adds nothing without a detected type; otherwise it counts the project and, for findCacheItems' items as written, adds nothing when there are none or the user declines, every item in a dry run, and the items removed in a real run |
| Cleanup.VenvCountedTwice | main.go:236-295 | with directories ["__pycache__", "venv"], a project holding venv/__pycache__/a.pyc of 1 byte adds 2 items and 2 bytes, in a dry run and in a real run where removals succeed |
| Cleanup.ProcessProjects | main.go:214-234 | with at least one worker, processing the projects one after the other applies processProject's effect, on findCacheItems' items as written, to each in list order; with a worker count of zero or less no worker starts and the totals are unchanged |
| Cleanup.ProjectCounted | main.go:237-242 | a project with a detected type is counted once, whatever happens to its cache items; others are not counted |
| Cleanup.ProjectsCounted | main.go:214-242 | over a run, TotalProjects is the number of projects whose type is detected, at most the number of projects |
| Cleanup.NothingAdded | main.go:249-275 | a project with no cache items, or one the user declines, adds no items and no bytes |
| Cleanup.DryRunCountsAll | main.go:278-285 | a dry run counts every item found with the sum of their sizes |
| Cleanup.RemovalCountsRemoved | main.go:286-293 | a real run the user does not decline counts only the items removed, with the sum of exactly their sizes |
| Cleanup.FormatBytes | main.go:659-670 | formatBytes picks the value itself below 1024 and otherwise the integer part and unit of the value over 1024^(exp+1) |
| Cleanup.FormatBounds | main.go:664-669 | for an int64 of at least 1024 the divisor is at most the value and more than a 1024th of it, the integer part is between 1 and 1023, and exp <= 5, so the unit letter exists |
| Cleanup.FormatExamples | main.go:659-670 | 512 stays 512 bytes, 1024 is 1 K and 1048576 is 1 M |
| Removal.Disk.constructor | main.go:553 | the disk holds the entry being removed and whether its parent lets it be removed |
| Removal.Disk.Remove | main.go:628-634 | os.Remove deletes a file, a link or an empty directory when the path can be searched and the parent written, and changes nothing otherwise |
| Removal.Disk.MakeAccessible | main.go:600-611 | the first pass of forceRemoveRecursive gives every directory it can list write and exec permission |
| Removal.Disk.MakeWritable | main.go:586-595 | makeWritableRecursive gives every directory it can list write permission, stopping at the first refused chmod |
| Removal.Fix | main.go:600-611 | the permission pass keeps every entry's kind and every directory's read bit |
| Removal.Disk.RemoveAllWith | main.go:560 | a succeeding os.RemoveAll or rm -rf leaves nothing; a failing one leaves the entry as it was |
| Removal.ForceRemoveRecursive | main.go:598-645 | the manual removal fixes permissions, collects the walk's paths and removes them in reverse; it succeeds exactly when os.Stat no longer finds the entry |
| Removal.ForceRemoveCacheDirectory | main.go:553-583 | the four strategies are applied in order as the removal function describes |
| Removal.ForceRemovalOutcome | main.go:553-583 | success exactly when some strategy succeeds, and then the entry is gone; a failure leaves what the manual removal left, which still exists |
| Removal.AbsentIsRemoved | main.go:555-557 | an entry os.Stat does not find counts as removed and is left alone |
| Removal.FirstSuccessStops | main.go:559-562 | the first success ends the chain: what later strategies would answer makes no difference |
| Removal.NoSystemCommandElsewhere | main.go:648-652 | where the separator is not '/', the outcome of rm -rf makes no difference |
| Removal.FixUnlocks | main.go:600-611 | the permission pass opens every directory of a tree whose directories can all be listed |
| Removal.CollectAll | main.go:614-620 | the second walk of an opened tree collects every entry in walk order |
| Removal.Clears | main.go:622-637 | removing an opened tree's entries in reverse walk order removes each entry before its directory and leaves nothing |
| Removal.ManualRemovalClears | main.go:598-645 | forceRemoveRecursive removes the whole entry when every directory can be listed, no link dangles, chmod is allowed and the parent is writable |
| Interactive.ItemsForShape | interactive.go:292-310 | every built item is unselected, counts its cache items, holds the int64 total of their sizes, and carries its path and base name |
| Interactive.InsertPermutes | interactive.go:316-319 | inserting into the list adds exactly that item |
| Interactive.SortBySizeCorrect | interactive.go:316-319 | the sort returns the same items, largest total size first |
| Interactive.LoadProjects | interactive.go:267-323 | the loaded list is sorted largest first and is a permutation of the items built, from findCacheItems as written, for the directories the front-end walk as written records |
| Interactive.ToggledOnlyFirst | interactive.go:381-394 | Select flips the flag of the first project with the highlighted path only, and toggling twice restores the list |
| Interactive.SelectAllOf | interactive.go:396-401 | SelectAll selects every project with cache items, keeps the selections already made and changes nothing else |
| Interactive.DeselectAllOf | interactive.go:408-411 | DeselectAll clears every flag and changes nothing else |
| Interactive.SelectedOf | interactive.go:433-440 | Clean never collects more projects than the list holds |
| Interactive.SelectedOfExactly | interactive.go:433-440 | the projects collected for cleaning are exactly the selected ones |
| Interactive.SelectAllThenSelected | interactive.go:396-416 | after SelectAll something is selected exactly when some project has cache items or was selected; after DeselectAll nothing is |
| Interactive.SelectStep | interactive.go:433-440 | one more project seen by Clean's loop extends the selection and its int64 size and item totals |
| Interactive.Model.constructor | interactive.go:248-255 | the model starts loading, with no projects and nothing pending |
| Interactive.Model.ProjectsLoaded | interactive.go:337-347 | the loaded list is shown in the list state; the pending confirmation is untouched |
| Interactive.Model.Select | interactive.go:381-394 | in the list state with a highlighted item, the list is toggled at that path; otherwise nothing changes |
| Interactive.Model.SelectAll | interactive.go:396-406 | in the list state the list becomes SelectAll's result; otherwise nothing changes |
| Interactive.Model.DeselectAll | interactive.go:408-416 | in the list state the list becomes DeselectAll's result; otherwise nothing changes |
| Interactive.Model.Clean | interactive.go:429-455 | with something selected, the model goes to the confirm state holding the selected projects, their int64 size total and their item total; otherwise nothing changes |
| Interactive.Model.ConfirmKey | interactive.go:471-480 | in the confirm state 'y'/'Y' starts cleaning the pending projects, 'n'/'N'/esc returns to the list, and other keys change nothing |
| Interactive.ConfirmKeys | interactive.go:471-480 | only 'y'/'Y' start cleaning, only 'n'/'N'/esc go back, and every other key leaves the prompt open |
| Interactive.CleanSelectedProjects | interactive.go:572-599 | the cleanup loop's totals are the results of its projects taken in order |
| Interactive.CleaningCounts | interactive.go:575-589 | every project handed in is counted whatever its removals do, and the item and byte totals are the int64 sums of what removeCacheItems reports |
| Interactive.CleaningStep | interactive.go:585-588 | the last project's removals are added to the totals of the projects before it |
| PyCacheItems.GetDirSize | cache_remover.py:111-123 | get_dir_size sums the regular files rglob yields, up to the first entry whose check raises |
| PyCacheItems.OpenDirSize | cache_remover.py:111-123 | in a tree that can be listed and searched throughout, the sum counts every regular file below the directory once |
| PyCacheItems.DirSizeIsTreeBytes | cache_remover.py:111-123 | for such a tree get_dir_size equals the bytes of all regular files below it |
| PyCacheItems.InGlob | cache_remover.py:115 | rglob over such a tree yields every entry reached through real directories |
| PyCacheItems.Suffix | cache_remover.py:197 | a non-empty suffix starts with '.', holds no other '.', is shorter than the name and ends it |
| PyCacheItems.SuffixIs | cache_remover.py:197 | an extension with one leading '.' is the suffix of exactly the names that end with it and have something before it |
| PyCacheItems.SuffixExamples | cache_remover.py:197 | "a.tar.pyc" has suffix ".pyc"; ".pyc", "a." and "pyc" have none |
| PyCacheItems.FindCacheItems | cache_remover.py:171-206 | find_cache_items returns the directory, file and extension items in that order |
| PyCacheItems.DirectoriesPass | cache_remover.py:176-181 | the directories loop computes the directory items of the configured names in order |
| PyCacheItems.FilesPass | cache_remover.py:184-191 | the files loop computes the file items of the configured names in order |
| PyCacheItems.ExtensionsPass | cache_remover.py:194-204 | the rglob loop computes the extension items, up to the first entry whose check raises |
| PyCacheItems.DirItemsExactly | cache_remover.py:176-181 | a directory item is recorded exactly for a configured name that is a direct child directory, links followed, holding more than zero bytes |
| PyCacheItems.FileItemsExactly | cache_remover.py:184-191 | a file item is recorded exactly for a configured name that is a direct child regular file, links followed |
| PyCacheItems.ExtItemsSound | cache_remover.py:194-204 | every extension item is a regular file from rglob whose final suffix is a configured extension |
| PyCacheItems.ExtItemsComplete | cache_remover.py:196-200 | every such file reached before any raising entry is recorded |
| PyCacheItems.ExtensionFound | cache_remover.py:194-204 | in an open project the extension pass finds every regular file at any depth with a listed suffix, inside a recorded cache directory or not |
| PyRemover.PythonTypesAreGoDefaults | cache_remover.py:44-99 | PROJECT_TYPES are the first six built-in Go rules |
| PyRemover.ScanDirectory | cache_remover.py:148-165 | scan_directory appends the projects of its subtree, in order, to the enclosing list |
| PyRemover.FindProjects | cache_remover.py:144-168 | find_projects returns the projects scan_directory appends from the root at depth 0 |
| PyRemover.ScanSound | cache_remover.py:148-165 | everything appended is a project directory within max_depth, reached through searchable, listable directories without a dot-name |
| PyRemover.ScanComplete | cache_remover.py:148-165 | every such directory is appended: projects and cache-named directories do not stop the scan, and a directory that raises ends only its own subtree |
| PyRemover.ScanBounds | cache_remover.py:149-161 | nothing deeper than max_depth and no dot-name lies on the way to a project found |
| PyRemover.FoundHaveType | cache_remover.py:126-141 | every project found has a detected type: both functions test the same indicators |
| PyCleanup.Counted | cache_remover.py:214-223 | the counted items are items of the list, at most as many |
| PyCleanup.RemoveCacheItems | cache_remover.py:209-230 | the count and size are those of the items whose path still exists at their turn and whose removal does not raise |
| PyCleanup.CountedSound | cache_remover.py:214-228 | every counted path existed and was removed without raising, and no counted item lies at or below one counted before it |
| PyCleanup.CountedComplete | cache_remover.py:214-223 | an item that existed, does not raise and is covered by no earlier item is counted |
| PyCleanup.CountedSize | cache_remover.py:222-223 | the size removed is between 0 and the sum of all item sizes |
| PyCleanup.ProcessOf | cache_remover.py:233-267 | process_project raises exactly when the project cannot be searched; it returns (0, 0) without a type, in a dry run, and when the user declines |
| PyCleanup.ProcessProject | cache_remover.py:233-267 | the method computes process_project's result |
| PyCleanup.ProcessBounds | cache_remover.py:264-267 | a project reports at most as many items and bytes as find_cache_items found, and never less than zero |
| PyCleanup.PyStats.constructor | cache_remover.py:36-41 | the statistics start at zero |
| PyCleanup.Aggregate | cache_remover.py:313-317 | the loop over the results adds each project's items and bytes to the totals, nothing for a project that raised |
| PyCleanup.Run | cache_remover.py:288-317 | main reports no totals exactly when the root does not exist, or when projects were found and the worker count is zero or less (the thread pool raises ValueError); otherwise total_projects is the number of projects found and the totals are the sums over their results |
| PyCleanup.PycacheCountedOnce | cache_remover.py:194-223 | a `__pycache__` directory and the .pyc file inside it are both found, and the file is not counted since it is gone when its turn comes |
| PyTotals.TalliedAppend | cache_remover.py:313-317 | the totals of two runs of results are the sums of their totals |
| PyTotals.TalliedAnyOrder | cache_remover.py:313 | as_completed may hand the results over in any order; the totals are the same for every order |

## Left out

- Concurrency: the Go worker pool, channel and WaitGroup (main.go:214-234), the CleanupStats mutex, Python's ThreadPoolExecutor and the front-end's shared cleanup state and its polling. With at least one worker each becomes a sequential loop over the projects in list order; the worker count itself is kept only for its edge case: zero or less starts no Go worker, so nothing is processed, and makes the Python pool raise, so no totals are reported; `PyTotals.TalliedAnyOrder` shows that the order does not matter for the Python totals.
- Floating point: the `%.1f` digit of formatBytes, Python's format_bytes, MB/s in printStats and the progress fractions.
- Rendering and messages: the terminal front-end's view, key bindings, spinner, progress bar, Details view, Quit, and the Refresh key (which runs the same LoadProjects again); also the web front-end, printStats, listProjectTypes and saveDefaultConfig.
- Flag and argument parsing and the startup banner. Go's main returns early on an empty project list; processing an empty list changes nothing, so that branch is not modelled separately.
- The user's answer to the interactive prompt. It is an input (the set of confirmed project paths); reading and lower-casing the line is not modelled.
- JSON decoding and file reading in loadConfigFromFile. These are an input map from path to decoded record.
- Clock and processing time.
- What `os.RemoveAll`, `rm -rf`, `shutil.rmtree` and `unlink` do when they fail part-way. A failing call leaves the entry as it was, and a raising Python removal takes nothing away.
- File modes of regular files and links: chmod on them has no modelled effect. Only directory read, write and exec bits exist.
- Symbolic links: what a link points to is not part of the tree. A link to a directory is neither walked nor entered, so it holds no bytes. Consequently `find_projects` never descends through a link to a directory.
- Path.resolve() of the Python root, and path strings with unclean parts ("a/../b", "a//") given as the root.
- PyCacheItems.FindCacheItems: a project directory that cannot be searched is treated as one whose configured entries are absent. In Python the first exists() call would raise, but process_project's detect_project_type raises first in that case, so the difference is never observed.
- Python 3.12 and later. From 3.12, `rglob` is built on `Path.walk` and yields all subdirectories of a directory before descending into any of them, so in a tree holding a directory that can be listed but not searched, `get_dir_size` and the extension pass can stop at a different entry, and the extension items come in a different order. 3.13 changes `rglob` and `exists()` again.
- Names with more than one component: a configured directory, file or indicator such as "a/b", "." or ".." is treated as absent by `CacheItems.EntryAt` and the indicator lookup, whereas `filepath.Join` and `os.Stat` would resolve it. The built-in configuration has no such name.
- Removals in one project are not seen by another project's os.Stat: each project's removals start from the paths that exist before the run (`Mode.existed`).
- A removal whose every strategy fails is taken to leave its entry and everything below it in place; an item below it then counts only if its own removal succeeds.
- Interactive.LoadProjects: the order of projects with equal total size is not specified, because sort.Slice is not stable. The contract states a sorted permutation, not a particular order.

## Findings

| source | as written | input that shows it | evidently intended | confidence | as-written member | corrected member |
|---|---|---|---|---|---|---|
| main.go:451 | the depth-limited size of a subdirectory is added to the int64 total without the overflow guard used for files two lines later; getOptimizedCacheDirSize has no caller in main.go, so the overflow is latent | a cache directory holding subdirectory `a` with one file of 2^63-1 bytes and subdirectory `b` with one file of 1 byte: the result is -2^63 | the same guard as for files, so that the total saturates within [0, 2^63-1] | not executed | Sizes.OptimizedSizeWraps | Sizes.OptimizedCacheDirSize |
| interactive.go:283 | hidden directories are recognised by `strings.Contains(path, "/.")`, but the walk from "." passes paths without a leading "./" | root ".", a top-level directory `.hidden` holding a project `p` with `package.json`: `.hidden/p` is recorded | skip every directory below the root whose name starts with '.' | not executed | Discovery.HiddenTopLevelEntered | Discovery.HiddenTopLevelRefused |
| main.go:315-353 | a directory recorded for a later name can contain one recorded for an earlier name, so the same bytes are counted twice despite the processedPaths bookkeeping | directories ["__pycache__", "venv"] and a project `p` holding `venv/__pycache__/a.pyc` of 1 byte: items `p/venv/__pycache__` and `p/venv`, 2 bytes for 1 | no recorded item lies inside another recorded directory | not executed | CacheItems.NestedCountedTwice | CacheItems.NestedCountedOnce |

=== FILE: cacheitems.dfy ===
/** findCacheItems (main.go): the cache items of one project, collected in three passes
    that share the set processedPaths. The first pass looks for directories by name (at
    the top level, then anywhere by walking the project); the second for exact file names
    at the top level; the third walks the project for files by extension. */
module CacheItems {
  import opened Wrappers
  import opened Paths
  import opened FsTree
  import opened Rules
  import opened Sizes
  import opened Discovery
  import Int64

  datatype ItemKind = DirectoryItem | FileItem

  /** A CacheItem: a path, the size recorded for it and whether it was recorded as a
      directory or as a file. */
  datatype CacheItem = CacheItem(path: string, size: int, kind: ItemKind)

  /** The items recorded so far and processedPaths: a map from path to true in the Go
      code, which only ever holds true, so a set here. */
  datatype Collected = Collected(items: seq<CacheItem>, processed: set<string>)

  function AddDirectory(c: Collected, path: string, size: int): Collected {
    Collected(c.items + [CacheItem(path, size, DirectoryItem)], c.processed + {path})
  }

  /** os.Lstat(filepath.Join(projectPath, name)), given what os.Lstat finds at
      projectPath. A name that is not a single entry name finds nothing. */
  function EntryAt(project: Option<Node>, name: string): (r: Option<Node>)
    ensures r.Some? ==> project.Some? && project.value.Dir? && ValidName(name)
  {
    if project.Some? then LstatIn(project.value, name) else None
  }

  // ---------------------------------------------------------------------------
  // First pass: directories by name

  /** The name looked for, and how a candidate directory is sized (getDirSize). */
  datatype NameSearch = NameSearch(dir: string, sizeOf: (string, Node) -> int)

  /** getDirSize(path) for the entry found at path. */
  function GetDirSize(): (string, Node) -> int {
    (path: string, n: Node) => DirSize(path, Some(n))
  }

  /** getDirSize(path) for whatever os.Lstat finds at path: nothing has size 0. */
  function SizeAt(s: NameSearch, path: string, e: Option<Node>): int {
    if e.Some? then s.sizeOf(path, e.value) else 0
  }

  /** The walk function of the first pass: directories already processed are skipped
      with everything below them; a directory with the name looked for and a size above
      0 is recorded, marked processed and skipped; anything else is passed over. */
  function NestedStep(s: NameSearch, c: Collected, v: Visit): (Collected, Signal) {
    if !Clean(v) || !v.node.Dir? then (c, Continue)
    else if v.path in c.processed then (c, SkipDir)
    else if v.name == s.dir && s.sizeOf(v.path, v.node) > 0 then
      (AddDirectory(c, v.path, s.sizeOf(v.path, v.node)), SkipDir)
    else (c, Continue)
  }

  function NestedFn(s: NameSearch): (Collected, Visit) -> (Collected, Signal) {
    (c: Collected, v: Visit) => NestedStep(s, c, v)
  }

  /** The top-level check for one name: filepath.Join(projectPath, dir) is recorded
      when its size is above 0, whatever processedPaths holds. */
  function TopLevel(root: string, project: Option<Node>, s: NameSearch, c: Collected): Collected {
    var dirPath := Join(root, s.dir);
    var size := SizeAt(s, dirPath, EntryAt(project, s.dir));
    if size > 0 then AddDirectory(c, dirPath, size) else c
  }

  /** One entry of config.Directories: the top-level check, then the walk. */
  function DirectoryRound(root: string, project: Option<Node>, s: NameSearch, c: Collected): Collected {
    Walk(NestedFn(s), TopLevel(root, project, s, c), root, project).0
  }

  /** What findCacheItems starts with: no items, no processed paths. */
  const NoItems := Collected([], {})

  /** The first pass over the names dirs, in order. */
  function DirectoryPass(root: string, project: Option<Node>, sizeOf: (string, Node) -> int,
                         dirs: seq<string>, c: Collected): Collected
    decreases |dirs|
  {
    if dirs == [] then c
    else DirectoryPass(root, project, sizeOf, dirs[1..], DirectoryRound(root, project, NameSearch(dirs[0], sizeOf), c))
  }

  // ---------------------------------------------------------------------------
  // Second pass: exact file names

  /** One entry of config.Files: filepath.Join(projectPath, file) is recorded, with the
      size os.Stat reports, when it is not processed and os.Stat finds something that is
      not a directory. processedPaths is left as it is. */
  function FileRound(root: string, project: Option<Node>, c: Collected, file: string): Collected {
    var filePath := Join(root, file);
    if filePath in c.processed then c
    else match EntryAt(project, file)
      case None => c
      case Some(n) =>
        match StatOf(n)
        case RegularFile(size) => Collected(c.items + [CacheItem(filePath, size, FileItem)], c.processed)
        case _ => c
  }

  function FilePass(root: string, project: Option<Node>, files: seq<string>, c: Collected): Collected
    decreases |files|
  {
    if files == [] then c else FilePass(root, project, files[1..], FileRound(root, project, c, files[0]))
  }

  // ---------------------------------------------------------------------------
  // Third pass: extensions

  /** path starts with some processed path followed by a separator. */
  predicate UnderProcessed(processed: set<string>, path: string) {
    exists d :: d in processed && HasPrefix(path, d + "/")
  }

  /** Some extension is a suffix of name; the Go loop stops at the first. */
  function EndsWithAny(name: string, exts: seq<string>): (r: bool)
    ensures r <==> exists j :: 0 <= j < |exts| && HasSuffix(name, exts[j])
    decreases |exts|
  {
    if exts == [] then false
    else if HasSuffix(name, exts[0]) then true
    else
      var r := EndsWithAny(name, exts[1..]);
      assert r ==> exists j :: 0 <= j < |exts| && HasSuffix(name, exts[j]) by {
        if r {
          var j :| 0 <= j < |exts[1..]| && HasSuffix(name, exts[1..][j]);
          assert exts[j + 1] == exts[1..][j];
        }
      }
      assert (exists j :: 0 <= j < |exts| && HasSuffix(name, exts[j])) ==> r by {
        if exists j :: 0 <= j < |exts| && HasSuffix(name, exts[j]) {
          var j :| 0 <= j < |exts| && HasSuffix(name, exts[j]);
          assert exts[1..][j - 1] == exts[j];
        }
      }
      r
  }

  /** The entry of a call is recorded by the third pass. */
  predicate ExtensionMatch(processed: set<string>, exts: seq<string>, v: Visit) {
    Clean(v) && !UnderProcessed(processed, v.path) && !v.node.Dir? && EndsWithAny(v.name, exts)
  }

  /** The walk function of the third pass; it never stops the walk. */
  function ExtensionStep(processed: set<string>, exts: seq<string>, items: seq<CacheItem>, v: Visit)
    : (seq<CacheItem>, Signal)
  {
    if ExtensionMatch(processed, exts, v) then (items + [CacheItem(v.path, LstatSize(v.node), FileItem)], Continue)
    else (items, Continue)
  }

  function ExtensionFn(processed: set<string>, exts: seq<string>): (seq<CacheItem>, Visit) -> (seq<CacheItem>, Signal) {
    (items: seq<CacheItem>, v: Visit) => ExtensionStep(processed, exts, items, v)
  }

  function ExtensionPass(root: string, project: Option<Node>, c: Collected, exts: seq<string>): seq<CacheItem> {
    if |exts| > 0 then Walk(ExtensionFn(c.processed, exts), c.items, root, project).0 else c.items
  }

  // ---------------------------------------------------------------------------
  // findCacheItems

  /** The state after the first two passes. */
  function FirstPasses(root: string, config: CacheConfig, project: Option<Node>): Collected {
    var c := DirectoryPass(root, project, GetDirSize(), config.directories, NoItems);
    FilePass(root, project, config.files, c)
  }

  /** What findCacheItems(projectPath, config) returns. */
  function CacheItemsOf(root: string, config: CacheConfig, project: Option<Node>): seq<CacheItem> {
    ExtensionPass(root, project, FirstPasses(root, config, project), config.extensions)
  }

  /** findCacheItems, with its loops over config.Directories and config.Files; each
      filepath.Walk is a call of the walk model with the callback as a state function. */
  method FindCacheItems(root: string, config: CacheConfig, project: Option<Node>) returns (items: seq<CacheItem>)
    ensures items == CacheItemsOf(root, config, project)
  {
    var dirs := config.directories;
    var processed: set<string> := {};
    items := [];
    var i := 0;
    while i < |dirs|
      invariant 0 <= i <= |dirs|
      invariant DirectoryPass(root, project, GetDirSize(), dirs[i..], Collected(items, processed)) ==
                DirectoryPass(root, project, GetDirSize(), dirs, NoItems)
    {
      var dir := dirs[i];
      var dirPath := Join(root, dir);
      var size := DirSize(dirPath, EntryAt(project, dir));
      if size > 0 {
        items := items + [CacheItem(dirPath, size, DirectoryItem)];
        processed := processed + {dirPath};
      }
      var walked := Walk(NestedFn(NameSearch(dir, GetDirSize())), Collected(items, processed), root, project).0;
      items, processed := walked.items, walked.processed;
      assert dirs[i..][1..] == dirs[i + 1..];
      i := i + 1;
    }
    var files := config.files;
    var j := 0;
    while j < |files|
      invariant 0 <= j <= |files|
      invariant FilePass(root, project, files[j..], Collected(items, processed)) == FirstPasses(root, config, project)
    {
      var filePath := Join(root, files[j]);
      if filePath !in processed {
        var e := EntryAt(project, files[j]);
        if e.Some? && StatOf(e.value).RegularFile? {
          items := items + [CacheItem(filePath, StatOf(e.value).size, FileItem)];
        }
      }
      assert files[j..][1..] == files[j + 1..];
      j := j + 1;
    }
    if |config.extensions| > 0 {
      items := Walk(ExtensionFn(processed, config.extensions), items, root, project).0;
    }
  }

  // ---------------------------------------------------------------------------
  // processedPaths is the set of directories recorded

  /** The paths of the items recorded as directories. */
  function DirectoryPaths(items: seq<CacheItem>): set<string> {
    set k | 0 <= k < |items| && items[k].kind == DirectoryItem :: items[k].path
  }

  /** What the first pass keeps: every item is a directory of positive size, and the
      processed paths are exactly the recorded ones. */
  predicate Synced(c: Collected) {
    (forall k :: 0 <= k < |c.items| ==> c.items[k].kind == DirectoryItem && c.items[k].size > 0) &&
    c.processed == DirectoryPaths(c.items)
  }

  lemma DirectoryPathsSnoc(items: seq<CacheItem>, it: CacheItem)
    ensures DirectoryPaths(items + [it]) ==
            DirectoryPaths(items) + (if it.kind == DirectoryItem then {it.path} else {})
  {
    var a, b := DirectoryPaths(items + [it]), DirectoryPaths(items) + (if it.kind == DirectoryItem then {it.path} else {});
    forall x | x in a ensures x in b {
      var k :| 0 <= k < |items + [it]| && (items + [it])[k].kind == DirectoryItem && (items + [it])[k].path == x;
      if k < |items| { assert items[k] == (items + [it])[k]; }
    }
    forall x | x in b ensures x in a {
      if x in DirectoryPaths(items) {
        var k :| 0 <= k < |items| && items[k].kind == DirectoryItem && items[k].path == x;
        assert (items + [it])[k] == items[k];
      } else {
        assert (items + [it])[|items|] == it;
      }
    }
  }

  lemma AddDirectorySynced(c: Collected, path: string, size: int)
    requires Synced(c) && size > 0
    ensures Synced(AddDirectory(c, path, size))
  {
    DirectoryPathsSnoc(c.items, CacheItem(path, size, DirectoryItem));
  }

  lemma NestedKeepsSynced(s: NameSearch)
    ensures Keeps(NestedFn(s), (c: Collected) => Synced(c))
  {
    forall c: Collected, v: Visit | Synced(c) && WfVisit(v) ensures Synced(NestedFn(s)(c, v).0) {
      if Clean(v) && v.node.Dir? && v.path !in c.processed && v.name == s.dir && s.sizeOf(v.path, v.node) > 0 {
        AddDirectorySynced(c, v.path, s.sizeOf(v.path, v.node));
      }
    }
  }

  lemma {:induction false} DirectoryPassSynced(root: string, project: Option<Node>, sizeOf: (string, Node) -> int,
                                              dirs: seq<string>, c: Collected)
    requires project.Some? ==> Wf(project.value)
    requires Synced(c)
    ensures Synced(DirectoryPass(root, project, sizeOf, dirs, c))
    decreases |dirs|
  {
    if dirs != [] {
      var s := NameSearch(dirs[0], sizeOf);
      var top := TopLevel(root, project, s, c);
      if SizeAt(s, Join(root, s.dir), EntryAt(project, s.dir)) > 0 {
        AddDirectorySynced(c, Join(root, s.dir), SizeAt(s, Join(root, s.dir), EntryAt(project, s.dir)));
      }
      assert Synced(top);
      NestedKeepsSynced(s);
      WalkKeeps(NestedFn(s), (c: Collected) => Synced(c), top, root, project);
      DirectoryPassSynced(root, project, sizeOf, dirs[1..], DirectoryRound(root, project, s, c));
    }
  }

  /** it is what the files pass records for file: filepath.Join(projectPath, file) is not
      a processed path, os.Stat finds something there that is not a directory, and the
      item has the size os.Stat reports. */
  predicate FileRecorded(root: string, project: Option<Node>, processed: set<string>, file: string, it: CacheItem) {
    Join(root, file) !in processed && EntryAt(project, file).Some? &&
    StatOf(EntryAt(project, file).value).RegularFile? &&
    it == CacheItem(Join(root, file), StatOf(EntryAt(project, file).value).size, FileItem)
  }

  /** After the files pass: the earlier items are kept in front, processedPaths is
      unchanged, at most one item is added per name, and the items added are exactly
      those recorded for some name in files. */
  ghost predicate FilesAdded(root: string, project: Option<Node>, files: seq<string>, c: Collected, d: Collected) {
    |c.items| <= |d.items| <= |c.items| + |files| && d.items[..|c.items|] == c.items && d.processed == c.processed &&
    forall it :: it in d.items[|c.items|..] <==> exists j :: 0 <= j < |files| && FileRecorded(root, project, c.processed, files[j], it)
  }

  lemma {:induction false} FilePassAdds(root: string, project: Option<Node>, files: seq<string>, c: Collected)
    ensures FilesAdded(root, project, files, c, FilePass(root, project, files, c))
    decreases |files|
  {
    if files == [] {
      assert FilePass(root, project, files, c).items[|c.items|..] == [];
    } else {
      var c1 := FileRound(root, project, c, files[0]);
      FilePassAdds(root, project, files[1..], c1);
      FileRoundAdds(root, project, c, files[0]);
      assert [files[0]] == files[..1];
      FilesAddedCons(root, project, files, c, c1, FilePass(root, project, files[1..], c1));
    }
  }

  /** One round of the files pass followed by the rest of the pass. */
  lemma FilesAddedCons(root: string, project: Option<Node>, files: seq<string>, c: Collected, c1: Collected, d: Collected)
    requires files != [] && FilesAdded(root, project, files[..1], c, c1) && FilesAdded(root, project, files[1..], c1, d)
    ensures FilesAdded(root, project, files, c, d)
  {
    var a, b := c1.items[|c.items|..], d.items[|c1.items|..];
    assert d.items[|c.items|..] == a + b by {
      assert d.items == c1.items + b;
      assert c1.items == c.items + a;
    }
    forall it | it in a + b
      ensures exists j :: 0 <= j < |files| && FileRecorded(root, project, c.processed, files[j], it)
    {
      if it in a {
        var j :| 0 <= j < 1 && FileRecorded(root, project, c.processed, files[..1][j], it);
        assert files[..1][j] == files[j];
      } else {
        var j :| 0 <= j < |files[1..]| && FileRecorded(root, project, c1.processed, files[1..][j], it);
        assert files[1..][j] == files[j + 1];
      }
    }
    forall it | exists j :: 0 <= j < |files| && FileRecorded(root, project, c.processed, files[j], it)
      ensures it in a + b
    {
      var j :| 0 <= j < |files| && FileRecorded(root, project, c.processed, files[j], it);
      if j == 0 {
        assert files[..1][0] == files[0];
      } else {
        assert files[1..][j - 1] == files[j];
      }
    }
    assert d.items[..|c.items|] == d.items[..|c1.items|][..|c.items|];
  }

  /** A round of the files pass adds the item recorded for its name, if there is one. */
  lemma FileRoundAdds(root: string, project: Option<Node>, c: Collected, file: string)
    ensures FilesAdded(root, project, [file], c, FileRound(root, project, c, file))
  {
    var c1 := FileRound(root, project, c, file);
    if |c.items| < |c1.items| {
      assert c1.items == c.items + [c1.items[|c.items|]];
      assert FileRecorded(root, project, c.processed, [file][0], c1.items[|c.items|]);
    } else {
      assert c1.items[|c.items|..] == [];
      forall it ensures !FileRecorded(root, project, c.processed, [file][0], it) {
      }
    }
  }

  // ---------------------------------------------------------------------------
  // The third pass records exactly the matching calls

  /** The items the third pass records for the calls vs, in order. */
  function Matched(processed: set<string>, exts: seq<string>, vs: seq<Visit>): seq<CacheItem>
    decreases |vs|
  {
    if vs == [] then []
    else
      var v := vs[0];
      (if ExtensionMatch(processed, exts, v) then [CacheItem(v.path, LstatSize(v.node), FileItem)] else []) +
      Matched(processed, exts, vs[1..])
  }

  lemma {:induction false} FoldExtension(processed: set<string>, exts: seq<string>, items: seq<CacheItem>, vs: seq<Visit>)
    ensures Fold(ExtensionFn(processed, exts), items, vs) == items + Matched(processed, exts, vs)
    decreases |vs|
  {
    if vs != [] {
      var next := ExtensionFn(processed, exts)(items, vs[0]).0;
      FoldExtension(processed, exts, next, vs[1..]);
    }
  }

  /** The third pass hands every call of its walk to the extension test and records,
      in walk order, those that pass. */
  lemma ExtensionPassExactly(root: string, project: Option<Node>, c: Collected, exts: seq<string>)
    requires |exts| > 0
    ensures ExtensionPass(root, project, c, exts) == c.items + Matched(c.processed, exts, TreeVisits(root, project))
  {
    var fn := ExtensionFn(c.processed, exts);
    assert NeverStops(fn);
    WalkAsFold(fn, c.items, root, project);
    FoldExtension(c.processed, exts, c.items, TreeVisits(root, project));
  }

  /** Every item the third pass records comes from a call about an entry that is not a
      directory, whose name ends with one of the extensions and whose path is not inside
      a processed directory. */
  lemma {:induction false} MatchedFrom(processed: set<string>, exts: seq<string>, vs: seq<Visit>, k: int) returns (j: int)
    requires 0 <= k < |Matched(processed, exts, vs)|
    ensures 0 <= j < |vs| && ExtensionMatch(processed, exts, vs[j])
    ensures Matched(processed, exts, vs)[k] == CacheItem(vs[j].path, LstatSize(vs[j].node), FileItem)
    decreases |vs|
  {
    var head := if ExtensionMatch(processed, exts, vs[0]) then [CacheItem(vs[0].path, LstatSize(vs[0].node), FileItem)] else [];
    var tail := Matched(processed, exts, vs[1..]);
    assert Matched(processed, exts, vs) == head + tail;
    if k < |head| {
      j := 0;
    } else {
      var j' := MatchedFrom(processed, exts, vs[1..], k - |head|);
      assert (head + tail)[k] == tail[k - |head|];
      j := j' + 1;
    }
  }

  /** ... and every such call is recorded. */
  lemma {:induction false} MatchedTo(processed: set<string>, exts: seq<string>, vs: seq<Visit>, j: int)
    requires 0 <= j < |vs| && ExtensionMatch(processed, exts, vs[j])
    ensures CacheItem(vs[j].path, LstatSize(vs[j].node), FileItem) in Matched(processed, exts, vs)
    decreases |vs|
  {
    if j > 0 {
      MatchedTo(processed, exts, vs[1..], j - 1);
      assert vs[1..][j - 1] == vs[j];
    }
  }

  /** A call yields at most one item however many extensions its name ends with, and the
      calls of a walk are recorded independently of each other, so the pass records at
      most one item per call. */
  lemma {:induction false} MatchedOnePerCall(processed: set<string>, exts: seq<string>, a: seq<Visit>, b: seq<Visit>)
    ensures Matched(processed, exts, a + b) == Matched(processed, exts, a) + Matched(processed, exts, b)
    ensures |Matched(processed, exts, a)| <= |a|
    decreases |a|
  {
    if a == [] {
      assert a + b == b;
    } else {
      var v := a[0];
      var head := if ExtensionMatch(processed, exts, v) then [CacheItem(v.path, LstatSize(v.node), FileItem)] else [];
      assert (a + b)[0] == v && (a + b)[1..] == a[1..] + b;
      MatchedOnePerCall(processed, exts, a[1..], b);
      assert Matched(processed, exts, a + b) == head + (Matched(processed, exts, a[1..]) + Matched(processed, exts, b));
      AppendAssoc(head, Matched(processed, exts, a[1..]), Matched(processed, exts, b));
    }
  }

  // ---------------------------------------------------------------------------
  // What the walk of the first pass records, defined on the tree

  /** The directory n, reached through rel, is the one looked for: os.Lstat reports the
      name s.dir for it and getDirSize a size above 0. */
  predicate NameMatch(root: string, s: NameSearch, rel: seq<string>, n: Node) {
    NameAt(root, rel) == s.dir && s.sizeOf(PathOf(root, rel), n) > 0
  }

  /** The item recorded for the directory n reached through rel. */
  function DirectoryItemAt(root: string, s: NameSearch, rel: seq<string>, n: Node): CacheItem {
    CacheItem(PathOf(root, rel), s.sizeOf(PathOf(root, rel), n), DirectoryItem)
  }

  /** The items the walk for s.dir records at and below n, reached through rel, in walk
      order, when processedPaths holds P as the walk starts: nothing at or below a
      directory that cannot be listed or is processed; a directory looked for is recorded
      and not entered; any other directory is entered when it can be searched. */
  function NestedFound(root: string, s: NameSearch, P: set<string>, rel: seq<string>, n: Node): seq<CacheItem>
    decreases n, 1
  {
    if !Listable(n) || PathOf(root, rel) in P then []
    else if NameMatch(root, s, rel, n) then [DirectoryItemAt(root, s, rel, n)]
    else if n.perm.exec then NestedFoundIn(root, s, P, rel, n.children)
    else []
  }

  function NestedFoundIn(root: string, s: NameSearch, P: set<string>, rel: seq<string>, cs: seq<Entry>): seq<CacheItem>
    decreases cs, 0
  {
    if cs == [] then [] else NestedFound(root, s, P, rel + [cs[0].name], cs[0].node) + NestedFoundIn(root, s, P, rel, cs[1..])
  }

  /** The walk for s.dir, started with processedPaths P, enters n (reached through rel)
      and from there follows the names t: every directory on the way can be listed and is
      not processed, and every one before the last can be searched and is not itself
      recorded. */
  predicate NestedReaches(root: string, s: NameSearch, P: set<string>, rel: seq<string>, n: Node, t: seq<string>)
    decreases |t|
  {
    Listable(n) && PathOf(root, rel) !in P &&
    (t != [] ==>
      !NameMatch(root, s, rel, n) && n.perm.exec && Child(n.children, t[0]).Some? &&
      NestedReaches(root, s, P, rel + [t[0]], Child(n.children, t[0]).value, t[1..]))
  }

  /** it is the item for a directory looked for that the walk reaches through t. */
  predicate NestedAt(root: string, s: NameSearch, P: set<string>, rel: seq<string>, n: Node, t: seq<string>, it: CacheItem) {
    NestedReaches(root, s, P, rel, n, t) && Lookup(n, t).Some? && NameMatch(root, s, rel + t, Lookup(n, t).value) &&
    it == DirectoryItemAt(root, s, rel + t, Lookup(n, t).value)
  }

  lemma {:induction false} InNestedIn(root: string, s: NameSearch, P: set<string>, rel: seq<string>, cs: seq<Entry>,
                                      i: int, it: CacheItem)
    requires 0 <= i < |cs| && it in NestedFound(root, s, P, rel + [cs[i].name], cs[i].node)
    ensures it in NestedFoundIn(root, s, P, rel, cs)
    decreases |cs|
  {
    if i > 0 {
      assert cs[1..][i - 1] == cs[i];
      InNestedIn(root, s, P, rel, cs[1..], i - 1, it);
    }
  }

  lemma {:induction false} FromNestedIn(root: string, s: NameSearch, P: set<string>, rel: seq<string>, cs: seq<Entry>,
                                        it: CacheItem) returns (i: int)
    requires it in NestedFoundIn(root, s, P, rel, cs)
    ensures 0 <= i < |cs| && it in NestedFound(root, s, P, rel + [cs[i].name], cs[i].node)
    decreases |cs|
  {
    if it in NestedFound(root, s, P, rel + [cs[0].name], cs[0].node) {
      i := 0;
    } else {
      var j := FromNestedIn(root, s, P, rel, cs[1..], it);
      assert cs[1..][j] == cs[j + 1];
      i := j + 1;
    }
  }

  /** Everything recorded is a directory looked for that the walk reaches. */
  lemma {:induction false} NestedSound(root: string, s: NameSearch, P: set<string>, rel: seq<string>, n: Node, it: CacheItem)
    returns (t: seq<string>)
    requires Wf(n) && it in NestedFound(root, s, P, rel, n)
    ensures NestedAt(root, s, P, rel, n, t, it)
    decreases n, 1
  {
    if NameMatch(root, s, rel, n) {
      t := [];
      assert rel + t == rel;
    } else {
      var i := FromNestedIn(root, s, P, rel, n.children, it);
      var c := n.children[i];
      ChildWf(n, i);
      var u := NestedSound(root, s, P, rel + [c.name], c.node, it);
      ChildOfDistinct(n, i);
      NestedAtCons(root, s, P, rel, n, c.name, c.node, u, it);
      t := [c.name] + u;
    }
  }

  lemma NestedAtCons(root: string, s: NameSearch, P: set<string>, rel: seq<string>, n: Node, name: string, c: Node,
                     u: seq<string>, it: CacheItem)
    requires Listable(n) && PathOf(root, rel) !in P && !NameMatch(root, s, rel, n) && n.perm.exec
    requires Child(n.children, name) == Some(c) && NestedAt(root, s, P, rel + [name], c, u, it)
    ensures NestedAt(root, s, P, rel, n, [name] + u, it)
  {
    var t := [name] + u;
    assert t[0] == name && t[1..] == u;
    ShiftHead(rel, t);
  }

  /** Every directory looked for that the walk reaches is recorded. */
  lemma {:induction false} NestedComplete(root: string, s: NameSearch, P: set<string>, rel: seq<string>, n: Node,
                                          t: seq<string>, it: CacheItem)
    requires NestedAt(root, s, P, rel, n, t, it)
    ensures it in NestedFound(root, s, P, rel, n)
    decreases |t|
  {
    if t == [] {
      assert rel + t == rel;
    } else {
      var c := Child(n.children, t[0]).value;
      var i :| 0 <= i < |n.children| && n.children[i].name == t[0] && n.children[i].node == c;
      ShiftHead(rel, t);
      assert Lookup(n, t) == Lookup(c, t[1..]);
      NestedComplete(root, s, P, rel + [t[0]], c, t[1..], it);
      InNestedIn(root, s, P, rel, n.children, i, it);
    }
  }

  /** Along a reached path, no directory is processed and none before the last is
      recorded itself. */
  lemma {:induction false} NestedAlong(root: string, s: NameSearch, P: set<string>, rel: seq<string>, n: Node,
                                       t: seq<string>, k: int)
    requires NestedReaches(root, s, P, rel, n, t) && 0 <= k <= |t|
    ensures PathOf(root, rel + t[..k]) !in P
    ensures k < |t| ==> Lookup(n, t[..k]).Some? && !NameMatch(root, s, rel + t[..k], Lookup(n, t[..k]).value)
    decreases |t|
  {
    if k > 0 {
      var c := Child(n.children, t[0]).value;
      NestedAlong(root, s, P, rel + [t[0]], c, t[1..], k - 1);
      SliceShift(rel, t, k);
      assert Lookup(n, t[..k]) == Lookup(c, t[1..][..k - 1]);
    } else {
      assert rel + t[..0] == rel && t[..0] == [];
    }
  }

  lemma SliceShift(rel: seq<string>, t: seq<string>, k: int)
    requires 0 < k <= |t|
    ensures (rel + [t[0]]) + t[1..][..k - 1] == rel + t[..k]
    ensures t[..k][0] == t[0] && t[..k][1..] == t[1..][..k - 1]
  {
    assert t[..k] == [t[0]] + t[1..][..k - 1];
  }

  lemma {:induction false} NestedReachesOpen(root: string, s: NameSearch, P: set<string>, rel: seq<string>, n: Node,
                                             t: seq<string>)
    requires NestedReaches(root, s, P, rel, n, t)
    ensures Open(n, t)
    decreases |t|
  {
    if t != [] {
      NestedReachesOpen(root, s, P, rel + [t[0]], Child(n.children, t[0]).value, t[1..]);
    }
  }

  /** A recorded directory, reached from the project through t, is a directory os.Lstat
      names s.dir, its item has the path of t and the size getDirSize gives it, above 0;
      no directory from the project down to it is processed as the walk starts, and none
      above it is itself looked for. */
  lemma NestedAtFacts(root: string, s: NameSearch, P: set<string>, n: Node, t: seq<string>, it: CacheItem)
    requires Wf(n) && NestedAt(root, s, P, [], n, t, it)
    ensures AllValid(t) && Open(n, t) && Lookup(n, t).Some? && Listable(Lookup(n, t).value)
    ensures NameAt(root, t) == s.dir && it.kind == DirectoryItem && it.path == PathOf(root, t)
    ensures it.size == s.sizeOf(it.path, Lookup(n, t).value) > 0
    ensures forall k :: 0 <= k <= |t| ==> PathOf(root, t[..k]) !in P
    ensures forall k :: 0 <= k < |t| ==> Lookup(n, t[..k]).Some? && !NameMatch(root, s, t[..k], Lookup(n, t[..k]).value)
  {
    assert [] + t == t;
    LookupValid(n, t);
    NestedReachesOpen(root, s, P, [], n, t);
    OpenLookup(n, t, |t|);
    assert t[..|t|] == t;
    forall k | 0 <= k <= |t|
      ensures PathOf(root, t[..k]) !in P
      ensures k < |t| ==> Lookup(n, t[..k]).Some? && !NameMatch(root, s, t[..k], Lookup(n, t[..k]).value)
    {
      NestedAlong(root, s, P, [], n, t, k);
      assert [] + t[..k] == t[..k];
    }
  }

  // ---------------------------------------------------------------------------
  // The walk of the first pass records NestedFound

  lemma {:induction false} DirectoryPathsAppend(a: seq<CacheItem>, b: seq<CacheItem>)
    ensures DirectoryPaths(a + b) == DirectoryPaths(a) + DirectoryPaths(b)
    decreases |b|
  {
    if b == [] {
      assert a + b == a;
    } else {
      var init, last := b[..|b| - 1], b[|b| - 1];
      assert b == init + [last];
      assert a + b == (a + init) + [last];
      DirectoryPathsAppend(a, init);
      DirectoryPathsSnoc(a + init, last);
      DirectoryPathsSnoc(init, last);
    }
  }

  /** processedPaths and P agree on every path at or below rel. */
  ghost predicate AgreeBelow(root: string, P: set<string>, processed: set<string>, rel: seq<string>) {
    forall t :: AllValid(t) ==> (PathOf(root, rel + t) in processed <==> PathOf(root, rel + t) in P)
  }

  /** processedPaths and P agree on every path at or below the entries cs of the
      directory reached through rel. */
  ghost predicate AgreeBelowEntries(root: string, P: set<string>, processed: set<string>, rel: seq<string>, cs: seq<Entry>) {
    forall t :: AllValid(t) && t != [] && Child(cs, t[0]).Some? ==>
      (PathOf(root, rel + t) in processed <==> PathOf(root, rel + t) in P)
  }

  /** The walk for s.dir from n, reached through rel, records the items of NestedFound as
      long as processedPaths agrees with P at and below rel; it never stops the walk. */
  lemma {:induction false} NestedNode(root: string, s: NameSearch, P: set<string>, c: Collected, rel: seq<string>, n: Node)
    requires Wf(n) && AllValid(rel) && AgreeBelow(root, P, c.processed, rel)
    ensures var r := WalkNode(NestedFn(s), c, PathOf(root, rel), rel, NameAt(root, rel), n);
      var f := NestedFound(root, s, P, rel, n);
      r.0 == Collected(c.items + f, c.processed + DirectoryPaths(f)) && r.1 != Abort && (!n.Dir? ==> r.1 == Continue)
    decreases n, 1
  {
    var path, name := PathOf(root, rel), NameAt(root, rel);
    AgreeAt(root, P, c.processed, rel);
    if !Listable(n) || path in P {
      NestedNodeSkipped(s, c, path, rel, name, n);
    } else if NameMatch(root, s, rel, n) {
      NestedNodeRecorded(root, s, c, rel, n);
    } else {
      WalkNodeEnters(NestedFn(s), c, path, rel, name, n);
      if n.perm.exec {
        NestedChildren(root, s, P, c, rel, n.children);
      } else {
        NestedUnseen(s, c, path, rel, n.children);
        assert c.items + [] == c.items && DirectoryPaths([]) == {};
      }
    }
  }

  lemma AgreeAt(root: string, P: set<string>, processed: set<string>, rel: seq<string>)
    requires AgreeBelow(root, P, processed, rel)
    ensures PathOf(root, rel) in processed <==> PathOf(root, rel) in P
  {
    assert AllValid([]) && rel + [] == rel;
  }

  /** A directory that cannot be listed or is processed adds nothing. */
  lemma NestedNodeSkipped(s: NameSearch, c: Collected, path: string, rel: seq<string>, name: string, n: Node)
    requires !Listable(n) || path in c.processed
    ensures var r := WalkNode(NestedFn(s), c, path, rel, name, n);
      r.0 == Collected(c.items + [], c.processed + DirectoryPaths([])) && r.1 != Abort && (!n.Dir? ==> r.1 == Continue)
  {
    assert c.items + [] == c.items && DirectoryPaths([]) == {};
  }

  /** A directory looked for is recorded and skipped. */
  lemma NestedNodeRecorded(root: string, s: NameSearch, c: Collected, rel: seq<string>, n: Node)
    requires Listable(n) && PathOf(root, rel) !in c.processed && NameMatch(root, s, rel, n)
    ensures var r := WalkNode(NestedFn(s), c, PathOf(root, rel), rel, NameAt(root, rel), n);
      var f := [DirectoryItemAt(root, s, rel, n)];
      r.0 == Collected(c.items + f, c.processed + DirectoryPaths(f)) && r.1 == SkipDir
  {
    var it := DirectoryItemAt(root, s, rel, n);
    DirectoryPathsSnoc([], it);
    assert DirectoryPaths([]) == {} && [] + [it] == [it];
  }

  lemma {:induction false} NestedChildren(root: string, s: NameSearch, P: set<string>, c: Collected, rel: seq<string>,
                                          cs: seq<Entry>)
    requires AllValid(rel) && AgreeBelowEntries(root, P, c.processed, rel, cs)
    requires forall i :: 0 <= i < |cs| ==> ValidName(cs[i].name) && Wf(cs[i].node)
    requires forall i, j :: 0 <= i < j < |cs| ==> cs[i].name != cs[j].name
    ensures var r := WalkChildren(NestedFn(s), c, PathOf(root, rel), rel, true, cs);
      var f := NestedFoundIn(root, s, P, rel, cs);
      r.0 == Collected(c.items + f, c.processed + DirectoryPaths(f)) && r.1 == Continue
    decreases cs, 0
  {
    if cs == [] {
      assert DirectoryPaths([]) == {} && c.items + [] == c.items;
    } else {
      var x := cs[0];
      var path := PathOf(root, rel);
      var rel1 := rel + [x.name];
      FirstEntryAgrees(root, P, c.processed, rel, cs);
      JoinIsPathOf(root, rel, x.name);
      assert NameAt(root, rel1) == x.name;
      NestedNode(root, s, P, c, rel1, x.node);
      var f0 := NestedFound(root, s, P, rel1, x.node);
      var c1 := Collected(c.items + f0, c.processed + DirectoryPaths(f0));
      assert WalkChildren(NestedFn(s), c, path, rel, true, cs) == WalkChildren(NestedFn(s), c1, path, rel, true, cs[1..]);
      OtherEntriesAgree(root, s, P, c, rel, cs);
      NestedChildren(root, s, P, c1, rel, cs[1..]);
      CollectedJoin(c, f0, NestedFoundIn(root, s, P, rel, cs[1..]));
    }
  }

  /** Agreement below a directory's entries gives agreement below its first entry. */
  lemma FirstEntryAgrees(root: string, P: set<string>, processed: set<string>, rel: seq<string>, cs: seq<Entry>)
    requires cs != [] && AgreeBelowEntries(root, P, processed, rel, cs) && ValidName(cs[0].name)
    ensures AgreeBelow(root, P, processed, rel + [cs[0].name])
  {
    forall t | AllValid(t)
      ensures PathOf(root, (rel + [cs[0].name]) + t) in processed <==> PathOf(root, (rel + [cs[0].name]) + t) in P
    {
      AppendAssoc(rel, [cs[0].name], t);
      var t1 := [cs[0].name] + t;
      assert AllValid(t1) && t1 != [] && t1[0] == cs[0].name;
    }
  }

  lemma CollectedJoin(c: Collected, f0: seq<CacheItem>, fr: seq<CacheItem>)
    ensures var c1 := Collected(c.items + f0, c.processed + DirectoryPaths(f0));
      Collected(c1.items + fr, c1.processed + DirectoryPaths(fr)) ==
      Collected(c.items + (f0 + fr), c.processed + DirectoryPaths(f0 + fr))
  {
    DirectoryPathsAppend(f0, fr);
    AppendAssoc(c.items, f0, fr);
  }

  /** What the walk records below the first entry lies below no other entry. */
  lemma OtherEntriesAgree(root: string, s: NameSearch, P: set<string>, c: Collected, rel: seq<string>, cs: seq<Entry>)
    requires cs != [] && AllValid(rel) && AgreeBelowEntries(root, P, c.processed, rel, cs)
    requires forall i :: 0 <= i < |cs| ==> ValidName(cs[i].name) && Wf(cs[i].node)
    requires forall i, j :: 0 <= i < j < |cs| ==> cs[i].name != cs[j].name
    ensures var f0 := NestedFound(root, s, P, rel + [cs[0].name], cs[0].node);
      AgreeBelowEntries(root, P, c.processed + DirectoryPaths(f0), rel, cs[1..])
  {
    var f0 := NestedFound(root, s, P, rel + [cs[0].name], cs[0].node);
    forall t | AllValid(t) && t != [] && Child(cs[1..], t[0]).Some?
      ensures Child(cs, t[0]).Some? && PathOf(root, rel + t) !in DirectoryPaths(f0)
    {
      var i :| 0 <= i < |cs[1..]| && cs[1..][i].name == t[0];
      assert cs[i + 1].name == t[0];
      forall k | 0 <= k < |f0| ensures f0[k].path != PathOf(root, rel + t) {
        BelowOtherEntry(root, s, P, rel, cs[0], t, f0[k]);
      }
    }
  }

  /** An item recorded below the entry x has the path of no relative path through
      another name. */
  lemma BelowOtherEntry(root: string, s: NameSearch, P: set<string>, rel: seq<string>, x: Entry, t: seq<string>,
                        it: CacheItem)
    requires AllValid(rel) && ValidName(x.name) && Wf(x.node)
    requires AllValid(t) && t != [] && t[0] != x.name
    requires it in NestedFound(root, s, P, rel + [x.name], x.node)
    ensures it.path != PathOf(root, rel + t)
  {
    var rel1 := rel + [x.name];
    var u := NestedSound(root, s, P, rel1, x.node, it);
    LookupValid(x.node, u);
    assert AllValid(rel1 + u);
    assert (rel + t)[|rel|] == t[0] && (rel1 + u)[|rel|] == x.name;
    if it.path == PathOf(root, rel + t) {
      PathOfInjective(root, rel + t, rel1 + u);
      assert false;
    }
  }

  lemma {:induction false} NestedUnseen(s: NameSearch, c: Collected, path: string, rel: seq<string>, cs: seq<Entry>)
    ensures WalkChildren(NestedFn(s), c, path, rel, false, cs) == (c, Continue)
    decreases |cs|
  {
    if cs != [] {
      NestedUnseen(s, c, path, rel, cs[1..]);
    }
  }

  /** The items one round's walk records when processedPaths holds P as it starts. */
  function NestedItems(root: string, s: NameSearch, P: set<string>, project: Option<Node>): seq<CacheItem> {
    if project.Some? then NestedFound(root, s, P, [], project.value) else []
  }

  /** A round is the top-level check followed by the items of NestedFound, with
      processedPaths as the top-level check leaves it. */
  lemma DirectoryRoundIsNested(root: string, project: Option<Node>, s: NameSearch, c: Collected)
    requires project.Some? ==> Wf(project.value)
    ensures var top := TopLevel(root, project, s, c);
      var f := NestedItems(root, s, top.processed, project);
      DirectoryRound(root, project, s, c) == Collected(top.items + f, top.processed + DirectoryPaths(f))
  {
    var top := TopLevel(root, project, s, c);
    assert DirectoryPaths([]) == {} && top.items + [] == top.items;
    if project.Some? {
      assert PathOf(root, []) == root && NameAt(root, []) == Base(root);
      forall t | AllValid(t) ensures [] + t == t { }
      NestedNode(root, s, top.processed, top, [], project.value);
    }
  }

  /** The first pass over dirs is the pass over its first i names followed by the pass
      over the rest. */
  lemma {:induction false} DirectoryPassSplit(root: string, project: Option<Node>, sizeOf: (string, Node) -> int,
                                             dirs: seq<string>, c: Collected, i: int)
    requires 0 <= i <= |dirs|
    ensures DirectoryPass(root, project, sizeOf, dirs, c) ==
            DirectoryPass(root, project, sizeOf, dirs[i..], DirectoryPass(root, project, sizeOf, dirs[..i], c))
    decreases i
  {
    if i == 0 {
      assert dirs[0..] == dirs && dirs[..0] == [];
    } else {
      var c1 := DirectoryRound(root, project, NameSearch(dirs[0], sizeOf), c);
      DirectoryPassSplit(root, project, sizeOf, dirs[1..], c1, i - 1);
      assert dirs[1..][i - 1..] == dirs[i..];
      assert dirs[..i][0] == dirs[0] && dirs[..i][1..] == dirs[1..][..i - 1];
    }
  }

  /** The first pass keeps the items it starts with in front. */
  lemma {:induction false} DirectoryPassGrows(root: string, project: Option<Node>, sizeOf: (string, Node) -> int,
                                             dirs: seq<string>, c: Collected)
    requires project.Some? ==> Wf(project.value)
    ensures |c.items| <= |DirectoryPass(root, project, sizeOf, dirs, c).items|
    ensures DirectoryPass(root, project, sizeOf, dirs, c).items[..|c.items|] == c.items
    decreases |dirs|
  {
    if dirs != [] {
      var s := NameSearch(dirs[0], sizeOf);
      var c1 := DirectoryRound(root, project, s, c);
      DirectoryRoundIsNested(root, project, s, c);
      DirectoryPassGrows(root, project, sizeOf, dirs[1..], c1);
      var d := DirectoryPass(root, project, sizeOf, dirs, c);
      assert |c.items| <= |c1.items| && c1.items[..|c.items|] == c.items;
      assert d.items[..|c.items|] == d.items[..|c1.items|][..|c.items|];
    }
  }

  /** Round i of the first pass, against processedPaths as the round starts: the
      top-level check comes first; the walk then records exactly the directories named
      dirs[i] it reaches without passing a processed directory (NestedAt), and marks
      them processed; the round's items stay in the pass's result. */
  lemma DirectoryPassRound(root: string, project: Option<Node>, sizeOf: (string, Node) -> int,
                           dirs: seq<string>, c: Collected, i: int)
    requires project.Some? ==> Wf(project.value)
    requires 0 <= i < |dirs|
    ensures var before := DirectoryPass(root, project, sizeOf, dirs[..i], c);
      var s := NameSearch(dirs[i], sizeOf);
      var top := TopLevel(root, project, s, before);
      var after := DirectoryPass(root, project, sizeOf, dirs[..i + 1], c);
      |top.items| <= |after.items| && after.items[..|top.items|] == top.items &&
      (forall it :: it in after.items[|top.items|..] <==>
         project.Some? && exists t :: NestedAt(root, s, top.processed, [], project.value, t, it)) &&
      after.processed == top.processed + DirectoryPaths(after.items[|top.items|..]) &&
      |after.items| <= |DirectoryPass(root, project, sizeOf, dirs, c).items| &&
      DirectoryPass(root, project, sizeOf, dirs, c).items[..|after.items|] == after.items
  {
    var before := DirectoryPass(root, project, sizeOf, dirs[..i], c);
    var s := NameSearch(dirs[i], sizeOf);
    var top := TopLevel(root, project, s, before);
    var after := DirectoryPass(root, project, sizeOf, dirs[..i + 1], c);
    DirectoryPassSplit(root, project, sizeOf, dirs[..i + 1], c, i);
    assert dirs[..i + 1][i..] == [dirs[i]] && dirs[..i + 1][..i] == dirs[..i];
    assert after == DirectoryRound(root, project, s, before);
    DirectoryRoundIsNested(root, project, s, before);
    var f := NestedItems(root, s, top.processed, project);
    assert after.items[|top.items|..] == f;
    forall it ensures it in f <==> project.Some? && exists t :: NestedAt(root, s, top.processed, [], project.value, t, it) {
      if it in f {
        var t := NestedSound(root, s, top.processed, [], project.value, it);
      }
      if project.Some? && exists t :: NestedAt(root, s, top.processed, [], project.value, t, it) {
        var t :| NestedAt(root, s, top.processed, [], project.value, t, it);
        NestedComplete(root, s, top.processed, [], project.value, t, it);
      }
    }
    DirectoryPassSplit(root, project, sizeOf, dirs, c, i + 1);
    DirectoryPassGrows(root, project, sizeOf, dirs[i + 1..], after);
  }

  /** The claimed-path rule: the walk of round i neither records nor enters a directory
      recorded by an earlier round. For every directory item of rounds 0..i-1 and every
      item the walk of round i records through t, no directory on the way from the
      project down to it, itself included, has the earlier item's path. */
  lemma ClaimedPathsSkipped(root: string, project: Option<Node>, sizeOf: (string, Node) -> int,
                            dirs: seq<string>, i: int, m: int, t: seq<string>, it: CacheItem, k: int)
    requires project.Some? ==> Wf(project.value)
    requires 0 <= i < |dirs|
    requires var before := DirectoryPass(root, project, sizeOf, dirs[..i], NoItems);
      0 <= m < |before.items| && project.Some? && 0 <= k <= |t| &&
      NestedAt(root, NameSearch(dirs[i], sizeOf), TopLevel(root, project, NameSearch(dirs[i], sizeOf), before).processed,
               [], project.value, t, it)
    ensures PathOf(root, t[..k]) != DirectoryPass(root, project, sizeOf, dirs[..i], NoItems).items[m].path
  {
    var before := DirectoryPass(root, project, sizeOf, dirs[..i], NoItems);
    var s := NameSearch(dirs[i], sizeOf);
    DirectoryPassSynced(root, project, sizeOf, dirs[..i], NoItems);
    assert DirectoryPaths([]) == {};
    InDirectoryPaths(before.items, m);
    NestedAtFacts(root, s, TopLevel(root, project, s, before).processed, project.value, t, it);
  }

  /** Where a directory item comes from: round i of the first pass, run after rounds
      0..i-1, recorded it either at the top-level check (filepath.Join(projectPath,
      dirs[i]) with getDirSize above 0) or in the walk, as a directory named dirs[i] it
      reaches without passing a path processed as the walk starts. */
  ghost predicate DirectoryOrigin(root: string, project: Option<Node>, sizeOf: (string, Node) -> int,
                                  dirs: seq<string>, i: int, it: CacheItem)
    requires 0 <= i < |dirs|
  {
    var s := NameSearch(dirs[i], sizeOf);
    var top := TopLevel(root, project, s, DirectoryPass(root, project, sizeOf, dirs[..i], NoItems));
    var topSize := SizeAt(s, Join(root, dirs[i]), EntryAt(project, dirs[i]));
    (topSize > 0 && it == CacheItem(Join(root, dirs[i]), topSize, DirectoryItem)) ||
    (project.Some? && exists t :: NestedAt(root, s, top.processed, [], project.value, t, it))
  }

  /** An item of the first pass after round i is either one it had before the round or
      one with its origin in round i. */
  lemma RoundItem(root: string, project: Option<Node>, sizeOf: (string, Node) -> int, dirs: seq<string>, i: int, k: int)
    requires project.Some? ==> Wf(project.value)
    requires 0 <= i < |dirs| && 0 <= k < |DirectoryPass(root, project, sizeOf, dirs[..i + 1], NoItems).items|
    ensures var before := DirectoryPass(root, project, sizeOf, dirs[..i], NoItems);
      var it := DirectoryPass(root, project, sizeOf, dirs[..i + 1], NoItems).items[k];
      (k < |before.items| ==> it == before.items[k]) &&
      (|before.items| <= k ==> DirectoryOrigin(root, project, sizeOf, dirs, i, it))
  {
    DirectoryPassRound(root, project, sizeOf, dirs, NoItems, i);
    var before := DirectoryPass(root, project, sizeOf, dirs[..i], NoItems);
    var top := TopLevel(root, project, NameSearch(dirs[i], sizeOf), before);
    var after := DirectoryPass(root, project, sizeOf, dirs[..i + 1], NoItems);
    if k < |top.items| {
      assert after.items[k] == top.items[k];
    } else {
      assert after.items[k] in after.items[|top.items|..];
    }
  }

  lemma {:induction false} OriginWithin(root: string, project: Option<Node>, sizeOf: (string, Node) -> int,
                                        dirs: seq<string>, i: int, k: int)
    requires project.Some? ==> Wf(project.value)
    requires 0 <= i <= |dirs| && 0 <= k < |DirectoryPass(root, project, sizeOf, dirs[..i], NoItems).items|
    ensures exists j :: 0 <= j < i &&
                        DirectoryOrigin(root, project, sizeOf, dirs, j, DirectoryPass(root, project, sizeOf, dirs[..i], NoItems).items[k])
    decreases i
  {
    if i == 0 {
      assert false;
    } else {
      RoundItem(root, project, sizeOf, dirs, i - 1, k);
      if k < |DirectoryPass(root, project, sizeOf, dirs[..i - 1], NoItems).items| {
        OriginWithin(root, project, sizeOf, dirs, i - 1, k);
      }
    }
  }

  /** Every item of the first pass has its origin in one of the rounds. */
  lemma DirectoryPassOrigin(root: string, project: Option<Node>, sizeOf: (string, Node) -> int,
                            dirs: seq<string>, k: int)
    requires project.Some? ==> Wf(project.value)
    requires 0 <= k < |DirectoryPass(root, project, sizeOf, dirs, NoItems).items|
    ensures exists i :: 0 <= i < |dirs| &&
                        DirectoryOrigin(root, project, sizeOf, dirs, i, DirectoryPass(root, project, sizeOf, dirs, NoItems).items[k])
  {
    assert dirs[..|dirs|] == dirs;
    OriginWithin(root, project, sizeOf, dirs, |dirs|, k);
  }

  /** Every item with an origin in a round is an item of the first pass. */
  lemma DirectoryPassKeepsOrigin(root: string, project: Option<Node>, sizeOf: (string, Node) -> int,
                                 dirs: seq<string>, i: int, it: CacheItem)
    requires project.Some? ==> Wf(project.value)
    requires 0 <= i < |dirs| && DirectoryOrigin(root, project, sizeOf, dirs, i, it)
    ensures it in DirectoryPass(root, project, sizeOf, dirs, NoItems).items
  {
    DirectoryPassRound(root, project, sizeOf, dirs, NoItems, i);
    var before := DirectoryPass(root, project, sizeOf, dirs[..i], NoItems);
    var s := NameSearch(dirs[i], sizeOf);
    var top := TopLevel(root, project, s, before);
    var after := DirectoryPass(root, project, sizeOf, dirs[..i + 1], NoItems);
    var all := DirectoryPass(root, project, sizeOf, dirs, NoItems);
    if it in after.items[|top.items|..] {
      var m :| 0 <= m < |after.items[|top.items|..]| && after.items[|top.items|..][m] == it;
      assert after.items[|top.items| + m] == it;
    } else {
      assert top.items == before.items + [it];
      assert after.items[|before.items|] == top.items[|before.items|];
    }
    assert it in after.items;
    var m :| 0 <= m < |after.items| && after.items[m] == it;
    assert all.items[m] == all.items[..|after.items|][m];
  }

  // ---------------------------------------------------------------------------
  // findCacheItems as a whole

  /** The items of findCacheItems: first the directories, each of positive size, whose
      paths are exactly the processed paths; then the top-level files named in the
      configuration, none of them a processed path; then the files found by extension,
      none of them inside a processed directory. */
  lemma CacheItemsLayout(root: string, config: CacheConfig, project: Option<Node>, k: int)
    requires project.Some? ==> Wf(project.value)
    requires 0 <= k < |CacheItemsOf(root, config, project)|
    ensures var c0 := DirectoryPass(root, project, GetDirSize(), config.directories, NoItems);
            var c1 := FirstPasses(root, config, project);
            var item := CacheItemsOf(root, config, project)[k];
            c1.processed == DirectoryPaths(c0.items) &&
            |c0.items| <= |c1.items| &&
            (item.kind == DirectoryItem <==> k < |c0.items|) &&
            (k < |c0.items| ==> item.size > 0 && item.path in c1.processed) &&
            (k < |c0.items| ==> exists i :: 0 <= i < |config.directories| &&
                                  DirectoryOrigin(root, project, GetDirSize(), config.directories, i, item)) &&
            (|c0.items| <= k < |c1.items| ==>
               exists j :: 0 <= j < |config.files| && FileRecorded(root, project, c1.processed, config.files[j], item)) &&
            (|c1.items| <= k ==>
               !UnderProcessed(c1.processed, item.path) && exists j :: 0 <= j < |config.extensions| && HasSuffix(Base(item.path), config.extensions[j]))
  {
    var c0 := DirectoryPass(root, project, GetDirSize(), config.directories, NoItems);
    DirectoryPassSynced(root, project, GetDirSize(), config.directories, NoItems);
    var c1 := FirstPasses(root, config, project);
    FilePassAdds(root, project, config.files, c0);
    var items := CacheItemsOf(root, config, project);
    ExtensionKeeps(root, project, c1, config.extensions);
    if k < |c1.items| {
      assert items[k] == items[..|c1.items|][k] == c1.items[k];
      if k < |c0.items| {
        assert c1.items[k] == c1.items[..|c0.items|][k] == c0.items[k];
        InDirectoryPaths(c0.items, k);
        DirectoryPassOrigin(root, project, GetDirSize(), config.directories, k);
      } else {
        assert c1.items[k] in c1.items[|c0.items|..];
      }
    } else {
      ExtensionRegion(root, project, c1, config.extensions, k);
    }
  }

  /** Conversely, every directory with an origin in a round of the first pass is among
      the items of findCacheItems. */
  lemma CacheItemsHaveOrigins(root: string, config: CacheConfig, project: Option<Node>, i: int, it: CacheItem)
    requires project.Some? ==> Wf(project.value)
    requires 0 <= i < |config.directories| && DirectoryOrigin(root, project, GetDirSize(), config.directories, i, it)
    ensures it in CacheItemsOf(root, config, project)
  {
    var c0 := DirectoryPass(root, project, GetDirSize(), config.directories, NoItems);
    var c1 := FirstPasses(root, config, project);
    var items := CacheItemsOf(root, config, project);
    DirectoryPassKeepsOrigin(root, project, GetDirSize(), config.directories, i, it);
    FilePassAdds(root, project, config.files, c0);
    ExtensionKeeps(root, project, c1, config.extensions);
    var m :| 0 <= m < |c0.items| && c0.items[m] == it;
    assert c1.items[m] == c1.items[..|c0.items|][m];
    assert items[m] == items[..|c1.items|][m];
  }

  lemma InDirectoryPaths(items: seq<CacheItem>, k: int)
    requires 0 <= k < |items| && items[k].kind == DirectoryItem
    ensures items[k].path in DirectoryPaths(items)
  {
  }

  /** The third pass keeps the items of the first two in front. */
  lemma ExtensionKeeps(root: string, project: Option<Node>, c: Collected, exts: seq<string>)
    ensures |c.items| <= |ExtensionPass(root, project, c, exts)|
    ensures ExtensionPass(root, project, c, exts)[..|c.items|] == c.items
  {
    if |exts| > 0 {
      ExtensionPassExactly(root, project, c, exts);
    }
  }

  /** An item the third pass adds is a file outside every processed directory whose
      name ends with one of the extensions. */
  lemma ExtensionRegion(root: string, project: Option<Node>, c: Collected, exts: seq<string>, k: int)
    requires project.Some? ==> Wf(project.value)
    requires |c.items| <= k < |ExtensionPass(root, project, c, exts)|
    ensures var item := ExtensionPass(root, project, c, exts)[k];
      item.kind == FileItem && !UnderProcessed(c.processed, item.path) && EndsWithAny(Base(item.path), exts)
  {
    var items := ExtensionPass(root, project, c, exts);
    ExtensionPassExactly(root, project, c, exts);
    var vs := TreeVisits(root, project);
    var j := MatchedFrom(c.processed, exts, vs, k - |c.items|);
    assert items[k] == Matched(c.processed, exts, vs)[k - |c.items|];
    TreeVisitsNamed(root, project);
    assert vs[j].Seen? && vs[j].name == Base(vs[j].path);
  }

  // ---------------------------------------------------------------------------
  // A directory recorded inside another recorded directory

  /* A directory recorded by the walk for one name is not dropped when a later name's
     directory turns out to contain it: with the Python defaults, "__pycache__" comes
     before "venv", so the __pycache__ directories inside a virtual environment are
     recorded and then the environment itself, and their bytes count twice. */

  const AllPerm := Perm(true, true, true)
  const PycNode := Dir(AllPerm, [Entry("a.pyc", File(1))])
  const VenvNode := Dir(AllPerm, [Entry("__pycache__", PycNode)])
  const VenvProject := Dir(AllPerm, [Entry("venv", VenvNode)])
  const VenvConfig := CacheConfig(["__pycache__", "venv"], [], [])
  const PycPath := "p/venv/__pycache__"
  const VenvPath := "p/venv"
  const PycItem := CacheItem(PycPath, 1, DirectoryItem)
  const VenvItem := CacheItem(VenvPath, 1, DirectoryItem)
  const AfterPyc := Collected([PycItem], {PycPath})
  const AfterVenv := Collected([PycItem, VenvItem], {PycPath, VenvPath})

  lemma PycSize() ensures DirSize(PycPath, Some(PycNode)) == 1 { }
  lemma VenvSize() ensures DirSize(VenvPath, Some(VenvNode)) == 1 {
    assert TotalSize(PycNode) == 1;
    assert TotalSizeOf(VenvNode.children) == 1;
    DirSizeExact(VenvPath, Some(VenvNode));
  }

  lemma PycSeen()
    ensures NestedFn(NameSearch("__pycache__", GetDirSize()))(NoItems, Seen(PycPath, ["venv", "__pycache__"], "__pycache__", PycNode, false)) == (AfterPyc, SkipDir)
  {
    PycSize();
    assert AddDirectory(NoItems, PycPath, 1) == AfterPyc;
  }

  lemma PycWalked()
    ensures WalkNode(NestedFn(NameSearch("__pycache__", GetDirSize())), NoItems, PycPath, ["venv", "__pycache__"], "__pycache__", PycNode) == (AfterPyc, SkipDir)
  {
    PycSeen();
  }

  lemma VenvChildrenWalked()
    ensures WalkChildren(NestedFn(NameSearch("__pycache__", GetDirSize())), NoItems, VenvPath, ["venv"], true, VenvNode.children) == (AfterPyc, Continue)
  {
    PycJoin();
    PycWalked();
  }

  lemma PycJoin()
    ensures Join(VenvPath, "__pycache__") == PycPath
    ensures ["venv"] + ["__pycache__"] == ["venv", "__pycache__"]
  {
    assert VenvPath + "/" + "__pycache__" == PycPath;
  }

  lemma VenvWalked()
    ensures WalkNode(NestedFn(NameSearch("__pycache__", GetDirSize())), NoItems, VenvPath, ["venv"], "venv", VenvNode) == (AfterPyc, Continue)
  {
    VenvChildrenWalked();
    VenvSeen();
    WalkNodeEnters(NestedFn(NameSearch("__pycache__", GetDirSize())), NoItems, VenvPath, ["venv"], "venv", VenvNode);
  }

  lemma VenvSeen()
    ensures NestedFn(NameSearch("__pycache__", GetDirSize()))(NoItems, Seen(VenvPath, ["venv"], "venv", VenvNode, false)) == (NoItems, Continue)
  {
    assert "venv" != "__pycache__" by { assert "venv"[0] != "__pycache__"[0]; }
  }

  lemma ProjectChildrenWalked()
    ensures WalkChildren(NestedFn(NameSearch("__pycache__", GetDirSize())), NoItems, "p", [], true, VenvProject.children) == (AfterPyc, Continue)
  {
    assert Join("p", "venv") == VenvPath;
    assert [] + ["venv"] == ["venv"];
    VenvWalked();
  }

  lemma FirstRound()
    ensures DirectoryRound("p", Some(VenvProject), NameSearch("__pycache__", GetDirSize()), NoItems) == AfterPyc
  {
    assert Base("p") == "p";
    assert LstatIn(VenvProject, "__pycache__") == None;
    assert TopLevel("p", Some(VenvProject), NameSearch("__pycache__", GetDirSize()), NoItems) == NoItems;
    ProjectChildrenWalked();
    WalkNodeEnters(NestedFn(NameSearch("__pycache__", GetDirSize())), NoItems, "p", [], "p", VenvProject);
  }

  lemma VenvTopLevel()
    ensures TopLevel("p", Some(VenvProject), NameSearch("venv", GetDirSize()), AfterPyc) == AfterVenv
  {
    assert LstatIn(VenvProject, "venv") == Some(VenvNode);
    assert Join("p", "venv") == VenvPath;
    VenvSize();
    assert AddDirectory(AfterPyc, VenvPath, 1) == AfterVenv;
  }

  lemma ProjectChildrenSkipped()
    ensures WalkChildren(NestedFn(NameSearch("venv", GetDirSize())), AfterVenv, "p", [], true, VenvProject.children) == (AfterVenv, Continue)
  {
    assert Join("p", "venv") == VenvPath;
    assert [] + ["venv"] == ["venv"];
    assert VenvPath in AfterVenv.processed;
  }

  lemma SecondRound()
    ensures DirectoryRound("p", Some(VenvProject), NameSearch("venv", GetDirSize()), AfterPyc) == AfterVenv
  {
    assert Base("p") == "p";
    VenvTopLevel();
    assert "p" !in AfterVenv.processed;
    ProjectChildrenSkipped();
    WalkNodeEnters(NestedFn(NameSearch("venv", GetDirSize())), AfterVenv, "p", [], "p", VenvProject);
  }

  /** The directories of a venv holding a __pycache__ directory are both recorded, the
      second containing the first, so their sizes count the same byte twice. */
  lemma NestedCountedTwice()
    ensures CacheItemsOf("p", VenvConfig, Some(VenvProject)) == [PycItem, VenvItem]
    ensures HasPrefix(PycPath, VenvPath + "/")
    ensures PycItem.size + VenvItem.size > TotalSize(VenvProject)
  {
    VenvItems();
    PycInsideVenv();
    VenvProjectTotal();
  }

  lemma VenvItems()
    ensures CacheItemsOf("p", VenvConfig, Some(VenvProject)) == [PycItem, VenvItem]
  {
    FirstRound();
    SecondRound();
    assert DirectoryPass("p", Some(VenvProject), GetDirSize(), VenvConfig.directories, NoItems) == AfterVenv;
  }

  lemma PycInsideVenv()
    ensures HasPrefix(PycPath, VenvPath + "/")
  {
    assert VenvPath + "/" == "p/venv/";
    assert PycPath[..7] == "p/venv/";
  }

  lemma VenvProjectTotal()
    ensures TotalSize(VenvProject) == 1
  {
    assert TotalSize(PycNode) == 1;
    assert TotalSizeOf(VenvNode.children) == 1;
    assert TotalSizeOf(VenvProject.children) == 1;
  }

  /** The items not lying inside the path of a directory in dirs, in order. */
  function Keep(dirs: set<string>, items: seq<CacheItem>): (r: seq<CacheItem>)
    ensures forall it :: it in r <==> it in items && !UnderProcessed(dirs, it.path)
    decreases |items|
  {
    if items == [] then []
    else
      var rest := Keep(dirs, items[1..]);
      assert forall it :: it in items <==> it == items[0] || it in items[1..];
      if UnderProcessed(dirs, items[0].path) then rest else [items[0]] + rest
  }

  lemma DirectoryPathOf(items: seq<CacheItem>, it: CacheItem)
    requires it in items && it.kind == DirectoryItem
    ensures it.path in DirectoryPaths(items)
  {
    var k :| 0 <= k < |items| && items[k] == it;
  }

  /** The items findCacheItems evidently means to return: the same items without those
      lying inside a directory that is itself recorded. */
  function Outermost(items: seq<CacheItem>): seq<CacheItem> {
    Keep(DirectoryPaths(items), items)
  }

  function CacheItemsCorrected(root: string, config: CacheConfig, project: Option<Node>): seq<CacheItem> {
    Outermost(CacheItemsOf(root, config, project))
  }

  /** No item that is kept lies inside a directory that is kept. */
  lemma OutermostDisjoint(items: seq<CacheItem>, x: CacheItem, y: CacheItem)
    requires x in Outermost(items) && y in Outermost(items) && y.kind == DirectoryItem
    ensures !HasPrefix(x.path, y.path + "/")
  {
    DirectoryPathOf(items, y);
  }

  lemma PrefixTrans(x: string, d: string, e: string)
    requires HasPrefix(x, d + "/") && HasPrefix(d, e + "/")
    ensures HasPrefix(x, e + "/") && |d| > |e|
  {
    assert x[..|e| + 1] == (d + "/")[..|d| + 1][..|e| + 1];
  }

  /** A path inside a recorded directory is inside a recorded directory that is kept. */
  lemma {:induction false} KeptAbove(items: seq<CacheItem>, x: string) returns (y: CacheItem)
    requires UnderProcessed(DirectoryPaths(items), x)
    ensures y in Outermost(items) && y.kind == DirectoryItem && HasPrefix(x, y.path + "/")
    decreases |x|
  {
    var d :| d in DirectoryPaths(items) && HasPrefix(x, d + "/");
    var k :| 0 <= k < |items| && items[k].kind == DirectoryItem && items[k].path == d;
    if UnderProcessed(DirectoryPaths(items), d) {
      y := KeptAbove(items, d);
      PrefixTrans(x, d, y.path);
    } else {
      y := items[k];
    }
  }

  /** Nothing is lost but what a kept directory covers: every dropped item lies inside a
      directory item that is kept. */
  lemma OutermostCovers(items: seq<CacheItem>, x: CacheItem) returns (y: CacheItem)
    requires x in items && x !in Outermost(items)
    ensures y in Outermost(items) && y.kind == DirectoryItem && HasPrefix(x.path, y.path + "/")
  {
    y := KeptAbove(items, x.path);
  }

  /** With the correction the venv is recorded once and its __pycache__ is not. */
  lemma NestedCountedOnce()
    ensures CacheItemsCorrected("p", VenvConfig, Some(VenvProject)) == [VenvItem]
  {
    VenvItems();
    var items := [PycItem, VenvItem];
    assert items[0] == PycItem && items[1] == VenvItem;
    assert DirectoryPaths(items) == {PycPath, VenvPath};
    PycInsideVenv();
    assert UnderProcessed({PycPath, VenvPath}, PycPath);
    VenvOutermost();
    assert Keep({PycPath, VenvPath}, items[1..]) == [VenvItem];
  }

  lemma VenvOutermost()
    ensures !UnderProcessed({PycPath, VenvPath}, VenvPath)
  {
    assert |PycPath + "/"| > |VenvPath| && |VenvPath + "/"| > |VenvPath|;
  }
}

=== FILE: cleanup.dfy ===
/** The accounting of main.go: CleanupStats, removeCacheItems, processProject and
    processProjects, and the unit formatBytes picks. Go's int and int64 are both 64 bits
    wide here, so every running total wraps like an int64. */
module Cleanup {
  import opened Wrappers
  import opened Paths
  import opened FsTree
  import opened Rules
  import opened CacheItems
  import Int64

  /** The three counters of CleanupStats. */
  datatype Totals = Totals(projects: int, items: int, size: int)

  /** CleanupStats. Its mutex only serialises the updates, which the model makes one at a
      time. */
  class CleanupStats {
    var totalProjects: int
    var totalCacheItems: int
    var totalSizeRemoved: int

    function Current(): Totals
      reads this
    {
      Totals(totalProjects, totalCacheItems, totalSizeRemoved)
    }

    constructor ()
      ensures Current() == Totals(0, 0, 0)
    {
      totalProjects, totalCacheItems, totalSizeRemoved := 0, 0, 0;
    }

    /** Add(items, size). */
    method Add(items: int, size: int)
      modifies this
      ensures Current() == AddTo(old(Current()), items, size)
    {
      totalCacheItems := Int64.Add(totalCacheItems, items);
      totalSizeRemoved := Int64.Add(totalSizeRemoved, size);
    }

    /** IncrementProjects(). */
    method IncrementProjects()
      modifies this
      ensures Current() == old(Current()).(projects := Int64.Add(old(totalProjects), 1))
    {
      totalProjects := Int64.Add(totalProjects, 1);
    }
  }

  function AddTo(t: Totals, items: int, size: int): Totals {
    t.(items := Int64.Add(t.items, items), size := Int64.Add(t.size, size))
  }

  // ---------------------------------------------------------------------------
  // removeCacheItems

  /** The sum of the sizes of items. */
  function SizeSum(items: seq<CacheItem>): int
    decreases |items|
  {
    if items == [] then 0 else SizeSum(items[..|items| - 1]) + items[|items| - 1].size
  }

  /** What removing it takes away: its own path and, for a directory item, every path
      below it. */
  predicate Covers(it: CacheItem, p: string) {
    p == it.path || (it.kind == DirectoryItem && HasPrefix(p, it.path + "/"))
  }

  /** os.Stat still finds p: p existed before the removals started and no removal so far
      took it away. */
  predicate StillExists(existed: set<string>, taken: seq<CacheItem>, p: string) {
    p in existed && forall j :: 0 <= j < |taken| ==> !Covers(taken[j], p)
  }

  /** What removeCacheItems does to items, in order: the items it counts as removed, and
      those whose removal took their path away. */
  datatype Outcome = Outcome(counted: seq<CacheItem>, taken: seq<CacheItem>)

  /** The removals one after the other. existed holds the paths os.Stat finds before the
      first one; fails holds the item paths for which every strategy of
      forceRemoveCacheDirectory fails when the entry is there. An item os.Stat no longer
      finds at its turn is reported removed without anything being done
      (Removal.AbsentIsRemoved); one it finds is removed, and counted, unless every
      strategy fails. */
  function RemovalRun(items: seq<CacheItem>, existed: set<string>, fails: set<string>): (r: Outcome)
    ensures |r.counted| <= |items|
    ensures forall x :: x in r.counted ==> x in items
    ensures forall x :: x in r.taken ==> x in r.counted
    decreases |items|
  {
    if items == [] then Outcome([], [])
    else
      var o, it := RemovalRun(items[..|items| - 1], existed, fails), items[|items| - 1];
      assert forall x :: x in o.counted ==> x in items by {
        forall x | x in o.counted ensures x in items {
          assert x in items[..|items| - 1];
        }
      }
      if !StillExists(existed, o.taken, it.path) then Outcome(o.counted + [it], o.taken)
      else if it.path !in fails then Outcome(o.counted + [it], o.taken + [it])
      else o
  }

  /** The items removeCacheItems counts, in order. */
  function Removed(items: seq<CacheItem>, existed: set<string>, fails: set<string>): (r: seq<CacheItem>)
    ensures |r| <= |items|
  {
    RemovalRun(items, existed, fails).counted
  }

  /** The item at k counts: os.Stat does not find it at its turn, or its removal
      succeeds. */
  predicate CountedAtTurn(items: seq<CacheItem>, existed: set<string>, fails: set<string>, k: int)
    requires 0 <= k < |items|
  {
    !StillExists(existed, RemovalRun(items[..k], existed, fails).taken, items[k].path) || items[k].path !in fails
  }

  lemma RemovedStep(items: seq<CacheItem>, i: int, existed: set<string>, fails: set<string>)
    requires 0 <= i < |items|
    ensures var o, o' := RemovalRun(items[..i], existed, fails), RemovalRun(items[..i + 1], existed, fails);
      o' == if !StillExists(existed, o.taken, items[i].path) then Outcome(o.counted + [items[i]], o.taken)
            else if items[i].path !in fails then Outcome(o.counted + [items[i]], o.taken + [items[i]])
            else o
  {
    assert items[..i + 1][..i] == items[..i];
  }

  lemma SizeSumSnoc(items: seq<CacheItem>, it: CacheItem)
    ensures SizeSum(items + [it]) == SizeSum(items) + it.size
  {
    assert (items + [it])[..|items|] == items;
  }

  /** The running int64 total of the sizes of items. */
  method SumSizes(items: seq<CacheItem>) returns (total: int)
    ensures total == Int64.Wrap(SizeSum(items))
  {
    total := 0;
    var i := 0;
    while i < |items|
      invariant 0 <= i <= |items|
      invariant total == Int64.Wrap(SizeSum(items[..i]))
    {
      assert items[..i + 1] == items[..i] + [items[i]];
      SizeSumSnoc(items[..i], items[i]);
      Int64.WrapOfSum(SizeSum(items[..i]), items[i].size);
      total := Int64.Add(total, items[i].size);
      i := i + 1;
    }
    assert items[..i] == items;
  }

  /** One more turn of the removal loop. */
  lemma RemoveTurn(items: seq<CacheItem>, i: int, existed: set<string>, fails: set<string>,
                   done: seq<CacheItem>, taken: seq<CacheItem>, size: int)
    requires 0 <= i < |items| && RemovalRun(items[..i], existed, fails) == Outcome(done, taken)
    requires size == Int64.Wrap(SizeSum(done))
    ensures var it := items[i];
      var gone := !StillExists(existed, taken, it.path);
      RemovalRun(items[..i + 1], existed, fails) ==
        if gone || it.path !in fails then Outcome(done + [it], if gone then taken else taken + [it])
        else Outcome(done, taken)
  {
    RemovedStep(items, i, existed, fails);
  }

  lemma AddSize(done: seq<CacheItem>, it: CacheItem, size: int)
    requires size == Int64.Wrap(SizeSum(done))
    ensures Int64.Add(size, it.size) == Int64.Wrap(SizeSum(done + [it]))
  {
    SizeSumSnoc(done, it);
    Int64.WrapStep(size, SizeSum(done), it.size, Int64.Add(size, it.size));
  }

  /** removeCacheItems: the number of items counted as removed and the int64 sum of
      exactly their sizes. taken stands for what the removals have done to the
      filesystem so far, which the os.Stat of the next forceRemoveCacheDirectory sees. */
  method RemoveCacheItems(items: seq<CacheItem>, existed: set<string>, fails: set<string>) returns (count: int, size: int)
    ensures count == |Removed(items, existed, fails)| && count <= |items|
    ensures size == Int64.Wrap(SizeSum(Removed(items, existed, fails)))
  {
    count, size := 0, 0;
    ghost var done: seq<CacheItem> := [];
    var taken: seq<CacheItem> := [];
    var i := 0;
    while i < |items|
      invariant 0 <= i <= |items|
      invariant RemovalRun(items[..i], existed, fails) == Outcome(done, taken)
      invariant count == |done| && size == Int64.Wrap(SizeSum(done))
    {
      var it := items[i];
      RemoveTurn(items, i, existed, fails, done, taken, size);
      AddSize(done, it, size);
      var gone := !StillExists(existed, taken, it.path);
      if gone || it.path !in fails {
        done := done + [it];
        count := count + 1;
        size := Int64.Add(size, it.size);
        if !gone {
          taken := taken + [it];
        }
      }
      i := i + 1;
    }
    assert items[..i] == items;
  }

  /** The items taken away so far only grow. */
  lemma {:induction false} TakenGrows(items: seq<CacheItem>, existed: set<string>, fails: set<string>, i: int, m: int)
    requires 0 <= i <= m <= |items|
    ensures forall x :: x in RemovalRun(items[..i], existed, fails).taken ==> x in RemovalRun(items[..m], existed, fails).taken
    decreases m - i
  {
    if i < m {
      TakenGrows(items, existed, fails, i, m - 1);
      TakenStep(items, existed, fails, m - 1);
    }
  }

  lemma TakenStep(items: seq<CacheItem>, existed: set<string>, fails: set<string>, i: int)
    requires 0 <= i < |items|
    ensures forall x :: x in RemovalRun(items[..i], existed, fails).taken ==> x in RemovalRun(items[..i + 1], existed, fails).taken
  {
    RemovedStep(items, i, existed, fails);
  }

  /** The counted items only grow. */
  lemma {:induction false} CountedGrows(items: seq<CacheItem>, existed: set<string>, fails: set<string>, i: int)
    requires 0 <= i <= |items|
    ensures forall x :: x in Removed(items[..i], existed, fails) ==> x in Removed(items, existed, fails)
    decreases |items| - i
  {
    if i < |items| {
      CountedGrows(items, existed, fails, i + 1);
      RemovedStep(items, i, existed, fails);
    }
    assert items[..|items|] == items;
  }

  /** An item found at its turn whose removal fails adds nothing; any other item is
      counted with the size recorded for it. */
  lemma CountedExactlyAtTurn(items: seq<CacheItem>, existed: set<string>, fails: set<string>, k: int)
    requires 0 <= k < |items|
    ensures Removed(items[..k + 1], existed, fails) ==
            Removed(items[..k], existed, fails) + (if CountedAtTurn(items, existed, fails, k) then [items[k]] else [])
    ensures items[k] in Removed(items, existed, fails) <== CountedAtTurn(items, existed, fails, k)
  {
    RemovedStep(items, k, existed, fails);
    CountedGrows(items, existed, fails, k + 1);
  }

  /** An item lying at or below an item removed before it is no longer found, so it is
      reported removed and counted with its recorded size, although nothing of it was
      left to remove. */
  lemma BelowRemovedCounted(items: seq<CacheItem>, existed: set<string>, fails: set<string>, j: int, k: int)
    requires 0 <= j < k < |items|
    requires StillExists(existed, RemovalRun(items[..j], existed, fails).taken, items[j].path) && items[j].path !in fails
    requires Covers(items[j], items[k].path)
    ensures Removed(items[..k + 1], existed, fails) == Removed(items[..k], existed, fails) + [items[k]]
    ensures items[k] in Removed(items, existed, fails)
  {
    RemovedStep(items, j, existed, fails);
    TakenGrows(items, existed, fails, j + 1, k);
    var taken := RemovalRun(items[..k], existed, fails).taken;
    assert items[j] in taken;
    var i :| 0 <= i < |taken| && taken[i] == items[j];
    assert !StillExists(existed, taken, items[k].path);
    CountedExactlyAtTurn(items, existed, fails, k);
  }

  // ---------------------------------------------------------------------------
  // processProject and processProjects

  /** The run's flags and what the user and the operating system answer: the projects
      the user confirms in interactive mode, the paths os.Stat finds before the removals
      and the item paths whose every removal strategy fails. */
  datatype Mode = Mode(dryRun: bool, interactive: bool, confirmed: set<string>, existed: set<string>, fails: set<string>)

  /** detectProjectType(projectPath) for the entry found at the project path. */
  function ProjectTypeAt(types: seq<ProjectType>, project: Option<Node>): Option<ProjectType> {
    if project.Some? then DetectProjectType(types, project.value) else None
  }

  /** What processProject adds to the totals. */
  function ProjectEffect(t: Totals, types: seq<ProjectType>, path: string, project: Option<Node>, mode: Mode): Totals {
    match ProjectTypeAt(types, project)
    case None => t
    case Some(pt) =>
      ItemsEffect(t.(projects := Int64.Add(t.projects, 1)), CacheItemsOf(path, pt.cacheConfig, project), path, mode)
  }

  /** What processProject adds for the cache items it found at path. */
  function ItemsEffect(t: Totals, items: seq<CacheItem>, path: string, mode: Mode): Totals {
    if items == [] then t
    else if mode.interactive && !mode.dryRun && path !in mode.confirmed then t
    else if mode.dryRun then AddTo(t, |items|, Int64.Wrap(SizeSum(items)))
    else
      var removed := Removed(items, mode.existed, mode.fails);
      AddTo(t, |removed|, Int64.Wrap(SizeSum(removed)))
  }

  /** processProject: classify, collect the cache items, then count them in a dry run or
      remove them and count what was removed. */
  method ProcessProject(stats: CleanupStats, types: seq<ProjectType>, path: string, project: Option<Node>, mode: Mode)
    modifies stats
    ensures stats.Current() == ProjectEffect(old(stats.Current()), types, path, project, mode)
  {
    var pt := ProjectTypeAt(types, project);
    if pt.None? {
      return;
    }
    stats.IncrementProjects();
    var items := FindCacheItems(path, pt.value.cacheConfig, project);
    if |items| == 0 {
      return;
    }
    var totalSize := SumSizes(items);
    if mode.interactive && !mode.dryRun && path !in mode.confirmed {
      return;
    }
    if mode.dryRun {
      stats.Add(|items|, totalSize);
    } else {
      var removedItems, removedSize := RemoveCacheItems(items, mode.existed, mode.fails);
      stats.Add(removedItems, removedSize);
    }
  }

  /** The entry os.Stat finds at a path below root. */
  function EntryAtPath(root: string, tree: Option<Node>, path: string): Option<Node> {
    match Resolve(root, path)
    case None => None
    case Some(rel) => if tree.Some? then Lookup(tree.value, rel) else None
  }

  /** The totals after processing projects in order. */
  function ProjectsEffect(t: Totals, types: seq<ProjectType>, root: string, tree: Option<Node>,
                          projects: seq<string>, mode: Mode): Totals
    decreases |projects|
  {
    if projects == [] then t
    else
      var init, last := projects[..|projects| - 1], projects[|projects| - 1];
      ProjectEffect(ProjectsEffect(t, types, root, tree, init, mode), types, last, EntryAtPath(root, tree, last), mode)
  }

  /** processProjects, with the worker pool replaced by a loop over the projects. No worker
      is started when the count is zero or negative, so the buffered channel is filled and
      closed and nothing is processed. */
  method ProcessProjects(stats: CleanupStats, types: seq<ProjectType>, root: string, tree: Option<Node>,
                         projects: seq<string>, workers: int, mode: Mode)
    modifies stats
    ensures workers > 0 ==> stats.Current() == ProjectsEffect(old(stats.Current()), types, root, tree, projects, mode)
    ensures workers <= 0 ==> stats.Current() == old(stats.Current())
  {
    if workers <= 0 {
      return;
    }
    var i := 0;
    while i < |projects|
      invariant 0 <= i <= |projects|
      invariant stats.Current() == ProjectsEffect(old(stats.Current()), types, root, tree, projects[..i], mode)
    {
      assert projects[..i + 1][..i] == projects[..i];
      ProcessProject(stats, types, projects[i], EntryAtPath(root, tree, projects[i]), mode);
      i := i + 1;
    }
    assert projects[..i] == projects;
  }

  /** The projects of the list whose type is detected. */
  function Detected(types: seq<ProjectType>, root: string, tree: Option<Node>, projects: seq<string>): nat
    decreases |projects|
  {
    if projects == [] then 0
    else
      var last := projects[|projects| - 1];
      Detected(types, root, tree, projects[..|projects| - 1]) +
      (if ProjectTypeAt(types, EntryAtPath(root, tree, last)).Some? then 1 else 0)
  }

  /** Each project with a detected type is counted once, whatever happens to its cache
      items; the others are not counted. */
  lemma ProjectCounted(t: Totals, types: seq<ProjectType>, path: string, project: Option<Node>, mode: Mode)
    requires Int64.InRange(t.projects) && t.projects < Int64.Max
    ensures ProjectEffect(t, types, path, project, mode).projects ==
            t.projects + (if ProjectTypeAt(types, project).Some? then 1 else 0)
  {
  }

  /** Over a run, TotalProjects is the number of projects whose type is detected. */
  lemma {:induction false} ProjectsCounted(types: seq<ProjectType>, root: string, tree: Option<Node>,
                                           projects: seq<string>, mode: Mode)
    requires |projects| < Int64.Max
    ensures ProjectsEffect(Totals(0, 0, 0), types, root, tree, projects, mode).projects ==
            Detected(types, root, tree, projects)
    ensures Detected(types, root, tree, projects) <= |projects|
    decreases |projects|
  {
    if projects != [] {
      var init, last := projects[..|projects| - 1], projects[|projects| - 1];
      ProjectsCounted(types, root, tree, init, mode);
      var t := ProjectsEffect(Totals(0, 0, 0), types, root, tree, init, mode);
      ProjectCounted(t, types, last, EntryAtPath(root, tree, last), mode);
    }
  }

  lemma AddToSum(t: Totals, xs: seq<CacheItem>)
    ensures AddTo(t, |xs|, Int64.Wrap(SizeSum(xs))).size == Int64.Wrap(t.size + SizeSum(xs))
  {
    Int64.WrapOfSum(SizeSum(xs), t.size);
    assert SizeSum(xs) + t.size == t.size + SizeSum(xs);
  }

  /** A project without cache items, or one the user declines, adds no items and no
      size. */
  lemma NothingAdded(t: Totals, items: seq<CacheItem>, path: string, mode: Mode)
    requires items == [] || (mode.interactive && !mode.dryRun && path !in mode.confirmed)
    ensures ItemsEffect(t, items, path, mode) == t
  {
  }

  /** A dry run counts every item found, with the sum of their sizes. */
  lemma DryRunCountsAll(t: Totals, items: seq<CacheItem>, path: string, mode: Mode)
    requires mode.dryRun && items != []
    ensures ItemsEffect(t, items, path, mode).items == Int64.Add(t.items, |items|)
    ensures ItemsEffect(t, items, path, mode).size == Int64.Wrap(t.size + SizeSum(items))
    ensures ItemsEffect(t, items, path, mode).projects == t.projects
  {
    AddToSum(t, items);
  }

  /** A real run the user does not decline counts only the items whose removal
      succeeds, with the sum of exactly their sizes. */
  lemma RemovalCountsRemoved(t: Totals, items: seq<CacheItem>, path: string, mode: Mode)
    requires !mode.dryRun && items != [] && (mode.interactive ==> path in mode.confirmed)
    ensures var removed := Removed(items, mode.existed, mode.fails);
            ItemsEffect(t, items, path, mode).items == Int64.Add(t.items, |removed|) &&
            ItemsEffect(t, items, path, mode).size == Int64.Wrap(t.size + SizeSum(removed)) &&
            ItemsEffect(t, items, path, mode).projects == t.projects
  {
    AddToSum(t, Removed(items, mode.existed, mode.fails));
  }

  /** Every counted item is one of the items; each was either no longer found at its
      turn or removed by some strategy. */
  lemma {:induction false} RemovedSound(items: seq<CacheItem>, existed: set<string>, fails: set<string>)
    ensures forall x :: x in Removed(items, existed, fails) ==> x in items
    ensures forall x :: x in Removed(items, existed, fails) && x.path in fails ==>
      exists k :: 0 <= k < |items| && items[k] == x && !StillExists(existed, RemovalRun(items[..k], existed, fails).taken, x.path)
    decreases |items|
  {
    if items != [] {
      var n := |items| - 1;
      var init := items[..n];
      RemovedSound(init, existed, fails);
      RemovedStep(items, n, existed, fails);
      assert items[..n + 1] == items;
      forall x | x in Removed(items, existed, fails)
        ensures x.path in fails ==>
          exists k :: 0 <= k < |items| && items[k] == x && !StillExists(existed, RemovalRun(items[..k], existed, fails).taken, x.path)
      {
        if x in Removed(init, existed, fails) && x.path in fails {
          var k :| 0 <= k < |init| && init[k] == x && !StillExists(existed, RemovalRun(init[..k], existed, fails).taken, x.path);
          assert init[..k] == items[..k];
        }
      }
    }
  }

  /** When no removal fails, every item is counted. */
  lemma {:induction false} AllRemoved(items: seq<CacheItem>, existed: set<string>, fails: set<string>)
    requires forall it :: it in items ==> it.path !in fails
    ensures Removed(items, existed, fails) == items
    decreases |items|
  {
    if items != [] {
      var init, last := items[..|items| - 1], items[|items| - 1];
      assert items == init + [last];
      AllRemoved(init, existed, fails);
    }
  }

  /** A project with the venv example's layout, detected by its "venv" entry. */
  const VenvTypes: seq<ProjectType> := [ProjectType("Python", ["venv"], VenvConfig)]

  lemma VenvDetected()
    ensures ProjectTypeAt(VenvTypes, Some(VenvProject)) == Some(VenvTypes[0])
  {
    assert LstatIn(VenvProject, "venv") == Some(VenvNode);
    assert IndicatorPresent(VenvProject, VenvTypes[0].indicators[0]);
  }

  /** processProject counts the venv example's two items, and their two bytes for one,
      both in a dry run and in a real run where every removal succeeds: the removal of
      p/venv/__pycache__ goes first, and p/venv is still there after it. */
  lemma VenvCountedTwice(existed: set<string>)
    requires PycPath in existed && VenvPath in existed
    ensures ProjectEffect(Totals(0, 0, 0), VenvTypes, "p", Some(VenvProject), Mode(true, false, {}, existed, {})) == Totals(1, 2, 2)
    ensures ProjectEffect(Totals(0, 0, 0), VenvTypes, "p", Some(VenvProject), Mode(false, false, {}, existed, {})) == Totals(1, 2, 2)
  {
    VenvDetected();
    VenvItems();
    var items := [PycItem, VenvItem];
    assert SizeSum(items) == 2 by {
      SizeSumSnoc([], PycItem);
      SizeSumSnoc([PycItem], VenvItem);
      assert [] + [PycItem] == [PycItem] && [PycItem] + [VenvItem] == items;
    }
    AllRemoved(items, existed, {});
  }

  // ---------------------------------------------------------------------------
  // formatBytes

  /** The unit formatBytes picks: the value below 1024 as it is, or the integer part of
      the value divided by 1024^(exp+1) with the unit "KMGTPE"[exp]. The digit after the
      decimal point is not modelled. */
  datatype ByteCount = Bytes(n: int) | Units(whole: int, exp: nat)

  function Pow1024(e: nat): (r: nat)
    ensures r >= 1
  {
    if e == 0 then 1 else 1024 * Pow1024(e - 1)
  }

  /** The number of further divisions by 1024 that leave n below 1024, added to exp. */
  function ExpFrom(n: int, exp: nat): nat
    decreases n
  {
    if n < 1024 then exp else ExpFrom(n / 1024, exp + 1)
  }

  function FormatOf(bytes: int): ByteCount {
    if bytes < 1024 then Bytes(bytes)
    else
      var e := ExpFrom(bytes / 1024, 0);
      Units(bytes / Pow1024(e + 1), e)
  }

  /** The unit letter; in range for every int64. */
  function UnitLetter(exp: nat): char
    requires exp <= 5
  {
    "KMGTPE"[exp]
  }

  /** formatBytes, with its loop over the divisor. */
  method FormatBytes(bytes: int) returns (r: ByteCount)
    ensures r == FormatOf(bytes)
  {
    if bytes < 1024 {
      return Bytes(bytes);
    }
    var div, exp := 1024, 0;
    var n := bytes / 1024;
    while n >= 1024
      invariant div == Pow1024(exp + 1)
      invariant ExpFrom(n, exp) == ExpFrom(bytes / 1024, 0)
      decreases n
    {
      div := div * 1024;
      exp := exp + 1;
      n := n / 1024;
    }
    r := Units(bytes / div, exp);
  }

  lemma MulMono(b: int, x: int, y: int)
    requires b > 0 && x <= y
    ensures b * x <= b * y
  {
    assert b * y - b * x == b * (y - x);
  }

  lemma DivUnique(a: int, d: int, q: int, r: int)
    requires d > 0 && a == d * q + r && 0 <= r < d
    ensures a / d == q && a % d == r
  {
    var q0, r0 := a / d, a % d;
    assert a == d * q0 + r0;
    if q0 > q {
      assert d * (q + 1) == d * q + d;
      MulMono(d, q + 1, q0);
    } else if q0 < q {
      MulMono(d, q0 + 1, q);
    }
  }

  lemma DivDiv(a: int, b: int, c: int)
    requires a >= 0 && b > 0 && c > 0
    ensures a / b / c == a / (b * c)
  {
    var q, r := a / b, a % b;
    var q2, r2 := q / c, q % c;
    assert a == b * q + r;
    assert q == c * q2 + r2;
    assert b * q == (b * c) * q2 + b * r2 by {
      assert b * (c * q2 + r2) == b * (c * q2) + b * r2;
      assert b * (c * q2) == (b * c) * q2;
    }
    MulMono(b, r2, c - 1);
    assert b * (c - 1) == b * c - b;
    assert b * c > 0 by { MulMono(b, 1, c); }
    DivUnique(a, b * c, q2, b * r2 + r);
  }

  lemma {:induction false} ExpFromBounds(bytes: int, n: int, exp: nat)
    requires bytes >= 1024 && n >= 1 && n == bytes / Pow1024(exp + 1)
    ensures var e := ExpFrom(n, exp);
            e >= exp && Pow1024(e + 1) <= bytes < 1024 * Pow1024(e + 1)
    decreases n
  {
    var d := Pow1024(exp + 1);
    if n < 1024 {
      assert bytes == d * n + bytes % d;
      MulMono(d, 1, n);
      assert d * (n + 1) == d * n + d;
      MulMono(d, n + 1, 1024);
    } else {
      DivDiv(bytes, d, 1024);
      assert Pow1024(exp + 2) == d * 1024;
      ExpFromBounds(bytes, n / 1024, exp + 1);
    }
  }

  lemma {:induction false} PowGrows(a: nat, b: nat)
    requires a <= b
    ensures Pow1024(a) <= Pow1024(b)
    decreases b
  {
    if a < b { PowGrows(a, b - 1); }
  }

  /** For an int64 of at least 1024 bytes the divisor 1024^(exp+1) is at most the value
      and more than a 1024th of it, so the integer part is between 1 and 1023, and exp is
      at most 5, so the unit letter exists. */
  lemma FormatBounds(bytes: int)
    requires bytes >= 1024 && bytes <= Int64.Max
    ensures FormatOf(bytes).Units?
    ensures var e := FormatOf(bytes).exp;
            e <= 5 && Pow1024(e + 1) <= bytes < 1024 * Pow1024(e + 1) &&
            1 <= FormatOf(bytes).whole < 1024
  {
    var e := ExpFrom(bytes / 1024, 0);
    ExpFromBounds(bytes, bytes / 1024, 0);
    ExpAtMostFive(bytes, e);
    WholeBounds(bytes, Pow1024(e + 1));
  }

  /** No int64 reaches 1024^7. */
  lemma ExpAtMostFive(bytes: int, e: nat)
    requires Pow1024(e + 1) <= bytes <= Int64.Max
    ensures e <= 5
  {
    assert Pow1024(7) == 0x40_0000_0000_0000_0000;
    if e > 5 {
      PowGrows(7, e + 1);
    }
  }

  lemma WholeBounds(bytes: int, d: int)
    requires 0 < d <= bytes < 1024 * d
    ensures 1 <= bytes / d < 1024
  {
    var w := bytes / d;
    assert bytes == d * w + bytes % d;
    if w < 1 {
      MulMono(d, w, 0);
    }
    if w >= 1024 {
      MulMono(d, 1024, w);
    }
  }

  lemma FormatExamples()
    ensures FormatOf(512) == Bytes(512)
    ensures FormatOf(1024) == Units(1, 0) && UnitLetter(0) == 'K'
    ensures FormatOf(1048576) == Units(1, 1) && UnitLetter(1) == 'M'
  {
    assert ExpFrom(1, 0) == 0;
    assert ExpFrom(1024, 0) == ExpFrom(1, 1) == 1;
    assert Pow1024(2) == 1048576;
  }
}

=== FILE: config.dfy ===
/** config.go: the configuration record, validateConfig with its defaulting of the
    settings, the built-in configuration and loadConfig's memoised search of the
    configuration paths. Reading and JSON-decoding a file are an input: the map of the
    paths whose file exists and decodes to the record it holds. */
module Configs {
  import opened Wrappers
  import opened Paths
  import opened Rules

  datatype Settings = Settings(maxDepth: int, defaultWorkers: int, logLevel: string)

  /** The value a Config holds. */
  datatype ConfigData = ConfigData(projectTypes: seq<ProjectType>, settings: Settings)

  /** The errors validateConfig reports. */
  datatype ConfigError = NoProjectTypes | EmptyName(index: nat) | NoIndicators(name: string)

  /** Config, which validateConfig updates in place. */
  class Config {
    var projectTypes: seq<ProjectType>
    var settings: Settings

    function Data(): ConfigData
      reads this
    {
      ConfigData(projectTypes, settings)
    }

    constructor (data: ConfigData)
      ensures Data() == data
    {
      projectTypes, settings := data.projectTypes, data.settings;
    }
  }

  // ---------------------------------------------------------------------------
  // validateConfig

  predicate ValidType(pt: ProjectType) {
    pt.name != "" && |pt.indicators| > 0
  }

  /** The index of the first project type, from k on, that has an empty name or no
      indicators, or |types| when there is none. */
  function FirstInvalidFrom(types: seq<ProjectType>, k: nat): (r: nat)
    requires k <= |types|
    ensures k <= r <= |types|
    ensures forall j :: k <= j < r ==> ValidType(types[j])
    ensures r < |types| ==> !ValidType(types[r])
    decreases |types| - k
  {
    if k == |types| then k
    else if !ValidType(types[k]) then k
    else FirstInvalidFrom(types, k + 1)
  }

  /** The error validateConfig returns for a configuration, if any. */
  function ValidationError(c: ConfigData): Option<ConfigError> {
    if |c.projectTypes| == 0 then Some(NoProjectTypes)
    else
      var k := FirstInvalidFrom(c.projectTypes, 0);
      if k == |c.projectTypes| then None
      else if c.projectTypes[k].name == "" then Some(EmptyName(k))
      else Some(NoIndicators(c.projectTypes[k].name))
  }

  /** The settings after validateConfig's defaulting. */
  function Defaulted(s: Settings): Settings {
    Settings(
      if s.maxDepth <= 0 then 10 else s.maxDepth,
      if s.defaultWorkers <= 0 then 4 else s.defaultWorkers,
      if s.logLevel == "" then "info" else s.logLevel)
  }

  /** The configuration after a successful validateConfig. */
  function Validated(c: ConfigData): ConfigData {
    c.(settings := Defaulted(c.settings))
  }

  /** validateConfig: report the first problem, leaving the configuration as it was, or
      fill in the missing settings. */
  method ValidateConfig(config: Config) returns (err: Option<ConfigError>)
    modifies config
    ensures err == ValidationError(old(config.Data()))
    ensures config.Data() == if err.None? then Validated(old(config.Data())) else old(config.Data())
  {
    if |config.projectTypes| == 0 {
      return Some(NoProjectTypes);
    }
    var i := 0;
    while i < |config.projectTypes|
      invariant 0 <= i <= |config.projectTypes|
      invariant forall j :: 0 <= j < i ==> ValidType(config.projectTypes[j])
      invariant config.Data() == old(config.Data())
    {
      var pt := config.projectTypes[i];
      if pt.name == "" {
        FirstInvalidIs(config.projectTypes, i);
        return Some(EmptyName(i));
      }
      if |pt.indicators| == 0 {
        FirstInvalidIs(config.projectTypes, i);
        return Some(NoIndicators(pt.name));
      }
      i := i + 1;
    }
    FirstInvalidIs(config.projectTypes, i);
    if config.settings.maxDepth <= 0 {
      config.settings := config.settings.(maxDepth := 10);
    }
    if config.settings.defaultWorkers <= 0 {
      config.settings := config.settings.(defaultWorkers := 4);
    }
    if config.settings.logLevel == "" {
      config.settings := config.settings.(logLevel := "info");
    }
    err := None;
  }

  /** The first invalid index is the one a left-to-right scan stops at. */
  lemma FirstInvalidIs(types: seq<ProjectType>, i: nat)
    requires i <= |types|
    requires forall j :: 0 <= j < i ==> ValidType(types[j])
    requires i < |types| ==> !ValidType(types[i])
    ensures FirstInvalidFrom(types, 0) == i
  {
  }

  /** validateConfig succeeds exactly when there is a project type and every one has a
      name and an indicator; otherwise it names the first offending type. */
  lemma ValidationErrorCases(c: ConfigData)
    ensures ValidationError(c).None? <==>
            |c.projectTypes| > 0 && forall j :: 0 <= j < |c.projectTypes| ==> ValidType(c.projectTypes[j])
    ensures ValidationError(c) == Some(NoProjectTypes) <==> |c.projectTypes| == 0
    ensures ValidationError(c).Some? && ValidationError(c).value.EmptyName? ==>
            var k := ValidationError(c).value.index;
            k < |c.projectTypes| && c.projectTypes[k].name == "" &&
            forall j :: 0 <= j < k ==> ValidType(c.projectTypes[j])
    ensures ValidationError(c).Some? && ValidationError(c).value.NoIndicators? ==>
            exists k :: 0 <= k < |c.projectTypes| && c.projectTypes[k].name == ValidationError(c).value.name != "" &&
                        |c.projectTypes[k].indicators| == 0 &&
                        forall j :: 0 <= j < k ==> ValidType(c.projectTypes[j])
  {
    if |c.projectTypes| > 0 {
      var k := FirstInvalidFrom(c.projectTypes, 0);
      if k < |c.projectTypes| {
        assert !ValidType(c.projectTypes[k]);
      }
    }
  }

  /** The defaulted settings are all set, and settings already set are kept. */
  lemma DefaultedSettings(s: Settings)
    ensures Defaulted(s).maxDepth > 0 && Defaulted(s).defaultWorkers > 0 && Defaulted(s).logLevel != ""
    ensures s.maxDepth > 0 ==> Defaulted(s).maxDepth == s.maxDepth
    ensures s.defaultWorkers > 0 ==> Defaulted(s).defaultWorkers == s.defaultWorkers
    ensures s.logLevel != "" ==> Defaulted(s).logLevel == s.logLevel
  {
  }

  /** Validating a validated configuration succeeds again and changes nothing. */
  lemma ValidateIdempotent(c: ConfigData)
    requires ValidationError(c).None?
    ensures ValidationError(Validated(c)).None?
    ensures Validated(Validated(c)) == Validated(c)
    ensures Validated(c).projectTypes == c.projectTypes
  {
  }

  // ---------------------------------------------------------------------------
  // getDefaultConfig

  function Dirs(directories: seq<string>): CacheConfig {
    CacheConfig(directories, [], [])
  }

  /** getDefaultConfig. */
  function DefaultConfig(): ConfigData {
    ConfigData(
      [ ProjectType("Node.js", ["package.json", "yarn.lock", "package-lock.json"],
                    Dirs(["node_modules", "dist", "build", ".next", ".nuxt", "coverage"])),
        ProjectType("Python", ["requirements.txt", "setup.py", "pyproject.toml", "Pipfile"],
                    CacheConfig(["__pycache__", ".pytest_cache", "dist", "build", ".mypy_cache", ".tox", "venv", ".venv"],
                                [], [".pyc", ".pyo"])),
        ProjectType("Java/Maven", ["pom.xml"], Dirs(["target"])),
        ProjectType("Gradle", ["build.gradle", "build.gradle.kts"], Dirs(["build", ".gradle"])),
        ProjectType("Go", ["go.mod", "go.sum"], Dirs(["vendor"])),
        ProjectType("Rust", ["Cargo.toml"], Dirs(["target"])),
        ProjectType("Angular", ["angular.json"], Dirs(["node_modules", "dist", ".angular"])),
        ProjectType("Flutter", ["pubspec.yaml"], Dirs(["build", ".dart_tool"])),
        ProjectType("Swift/iOS", ["Package.swift", "*.xcodeproj", "*.xcworkspace"], Dirs(["build", "DerivedData", ".build"]))
      ],
      Settings(10, 4, "info"))
  }

  /** The built-in configuration has nine project types, passes validation, and
      validation leaves it as it is. */
  lemma DefaultConfigValid()
    ensures |DefaultConfig().projectTypes| == 9
    ensures DefaultConfig().settings == Settings(10, 4, "info")
    ensures ValidationError(DefaultConfig()).None?
    ensures Validated(DefaultConfig()) == DefaultConfig()
  {
    var types := DefaultConfig().projectTypes;
    assert forall j :: 0 <= j < 9 ==> ValidType(types[j]);
    ValidationErrorCases(DefaultConfig());
  }

  // ---------------------------------------------------------------------------
  // loadConfig

  /** configPaths, with $HOME as a parameter. */
  function ConfigPaths(home: string): seq<string> {
    ["config.json", "cache-remover-config.json", Join(Join(home, ".cache-remover"), "config.json"),
     "/etc/cache-remover/config.json"]
  }

  /** loadConfigFromFile: the configuration a path yields when its file decodes and
      validates. */
  function LoadedFrom(decoded: map<string, ConfigData>, path: string): Option<ConfigData> {
    if path in decoded && ValidationError(decoded[path]).None? then Some(Validated(decoded[path])) else None
  }

  /** The configuration the first path that loads yields, or the built-in one. */
  function FirstLoaded(paths: seq<string>, decoded: map<string, ConfigData>): ConfigData
    decreases |paths|
  {
    if paths == [] then DefaultConfig()
    else match LoadedFrom(decoded, paths[0])
      case Some(c) => c
      case None => FirstLoaded(paths[1..], decoded)
  }

  /** The globalConfig memo and the paths loadConfig searches. */
  class ConfigLoader {
    var globalConfig: Option<Config>
    const configPaths: seq<string>

    constructor (home: string)
      ensures globalConfig.None? && configPaths == ConfigPaths(home)
    {
      globalConfig := None;
      configPaths := ConfigPaths(home);
    }

    /** loadConfig: the memoised configuration once there is one; otherwise the first
        path that loads, or the built-in configuration, which becomes the memo. The
        error it returns is always nil. */
    method LoadConfig(decoded: map<string, ConfigData>) returns (config: Config, err: Option<string>)
      modifies this
      ensures err.None?
      ensures old(globalConfig).Some? ==> config == old(globalConfig).value && globalConfig == old(globalConfig)
      ensures old(globalConfig).None? ==>
                fresh(config) && globalConfig == Some(config) && config.Data() == FirstLoaded(configPaths, decoded)
    {
      if globalConfig.Some? {
        return globalConfig.value, None;
      }
      var i := 0;
      while i < |configPaths|
        invariant 0 <= i <= |configPaths|
        invariant FirstLoaded(configPaths, decoded) == FirstLoaded(configPaths[i..], decoded)
        invariant globalConfig == old(globalConfig)
      {
        var loaded := LoadConfigFromFile(decoded, configPaths[i]);
        if loaded.Some? {
          globalConfig := loaded;
          return loaded.value, None;
        }
        assert configPaths[i..][1..] == configPaths[i + 1..];
        i := i + 1;
      }
      config := new Config(DefaultConfig());
      globalConfig := Some(config);
      err := None;
    }
  }

  /** loadConfigFromFile: read, decode and validate one file. */
  method LoadConfigFromFile(decoded: map<string, ConfigData>, path: string) returns (r: Option<Config>)
    ensures r.Some? <==> LoadedFrom(decoded, path).Some?
    ensures r.Some? ==> fresh(r.value) && r.value.Data() == LoadedFrom(decoded, path).value
  {
    if path !in decoded {
      return None;
    }
    var config := new Config(decoded[path]);
    var err := ValidateConfig(config);
    if err.Some? {
      return None;
    }
    return Some(config);
  }

  /** The configuration loadConfig settles on comes from the first path that loads, no
      earlier path loads, and it passes validation with its settings filled in. */
  lemma {:induction false} FirstLoadedIsFirst(paths: seq<string>, decoded: map<string, ConfigData>)
    ensures var c := FirstLoaded(paths, decoded);
            (c == DefaultConfig() && forall p :: p in paths ==> LoadedFrom(decoded, p).None?) ||
            (exists i :: 0 <= i < |paths| && LoadedFrom(decoded, paths[i]) == Some(c) &&
                         forall j :: 0 <= j < i ==> LoadedFrom(decoded, paths[j]).None?)
    decreases |paths|
  {
    if paths != [] {
      FirstLoadedIsFirst(paths[1..], decoded);
      var c := FirstLoaded(paths, decoded);
      if LoadedFrom(decoded, paths[0]).None? {
        if c == DefaultConfig() && forall p :: p in paths[1..] ==> LoadedFrom(decoded, p).None? {
          assert forall p :: p in paths ==> p == paths[0] || p in paths[1..];
        } else {
          var i :| 0 <= i < |paths[1..]| && LoadedFrom(decoded, paths[1..][i]) == Some(c) &&
                   forall j :: 0 <= j < i ==> LoadedFrom(decoded, paths[1..][j]).None?;
          assert LoadedFrom(decoded, paths[i + 1]) == Some(c);
          assert forall j :: 0 <= j < i + 1 ==> LoadedFrom(decoded, paths[j]).None? by {
            forall j | 0 <= j < i + 1
              ensures LoadedFrom(decoded, paths[j]).None?
            {
              if j > 0 { assert paths[j] == paths[1..][j - 1]; }
            }
          }
        }
      } else {
        assert LoadedFrom(decoded, paths[0]) == Some(c);
      }
    }
  }

  /** Whatever loadConfig settles on is a valid configuration with every setting filled
      in. */
  lemma {:induction false} FirstLoadedValid(paths: seq<string>, decoded: map<string, ConfigData>)
    ensures ValidationError(FirstLoaded(paths, decoded)).None?
    ensures Validated(FirstLoaded(paths, decoded)) == FirstLoaded(paths, decoded)
    decreases |paths|
  {
    if paths == [] {
      DefaultConfigValid();
    } else if LoadedFrom(decoded, paths[0]).Some? {
      ValidateIdempotent(decoded[paths[0]]);
      DefaultedSettings(decoded[paths[0]].settings);
    } else {
      FirstLoadedValid(paths[1..], decoded);
    }
  }
}

=== FILE: discovery.dfy ===
/** Project discovery: the filepath.Walk of findProjects (main.go) and the walk of
    loadProjects (interactive.go), which differ only in the directories they refuse to
    enter. */
module Discovery {
  import opened Wrappers
  import opened Paths
  import opened FsTree
  import opened Rules

  /** Which hidden directories a discovery walk refuses to enter: none (findProjects),
      those whose path contains "/." (loadProjects as written), or those other than the
      root whose name starts with '.' (loadProjects as its comment intends). */
  datatype HiddenRule = KeepHidden | SlashDotInPath | DotName

  predicate HiddenPruned(rule: HiddenRule, root: string, path: string, name: string) {
    match rule
    case KeepHidden => false
    case SlashDotInPath => ContainsSlashDot(path)
    case DotName => path != root && |name| > 0 && name[0] == '.'
  }

  /** The directories a discovery walk refuses to enter: those deeper than maxDepth,
      those named like a cache directory of any rule, and hidden ones as the rule says. */
  datatype Pruning = Pruning(root: string, maxDepth: int, types: seq<ProjectType>, hidden: HiddenRule)

  predicate Pruned(p: Pruning, path: string, name: string) {
    Depth(p.root, path) > p.maxDepth ||
    HiddenPruned(p.hidden, p.root, path, name) ||
    IsCacheDirectory(p.types, name)
  }

  /** A discovery walk: the root it starts from, which directories it refuses to enter
      (by path and name) and which it records. */
  datatype Search = Search(root: string, prune: (string, string) -> bool, isProject: Node -> bool)

  function SearchOf(p: Pruning): Search {
    Search(p.root, (path, name) => Pruned(p, path, name), (n: Node) => IsProjectDirectory(p.types, n))
  }

  /** The walk function: a call with an error or about an entry that is not a directory
      is ignored; a pruned directory is skipped; any other directory is recorded when it
      is a project directory, and entered. */
  function DiscoverStep(q: Search, found: seq<string>, v: Visit): (seq<string>, Signal) {
    if !Clean(v) || !v.node.Dir? then (found, Continue)
    else if q.prune(v.path, v.name) then (found, SkipDir)
    else if q.isProject(v.node) then (found + [v.path], Continue)
    else (found, Continue)
  }

  function DiscoverFn(q: Search): (seq<string>, Visit) -> (seq<string>, Signal) {
    (found, v) => DiscoverStep(q, found, v)
  }

  /** The paths a discovery walk from q.root records, in walk order. */
  function Discover(q: Search, tree: Option<Node>): seq<string> {
    Walk(DiscoverFn(q), [], q.root, tree).0
  }

  /** findProjects(rootDir, maxDepth). */
  function FindProjects(types: seq<ProjectType>, root: string, maxDepth: int, tree: Option<Node>): seq<string> {
    Discover(SearchOf(Pruning(root, maxDepth, types, KeepHidden)), tree)
  }

  /** The directories loadProjects visits and classifies, as written: deeper than 10 and
      paths containing "/." are refused. */
  function LoadProjectPathsAsWritten(types: seq<ProjectType>, root: string, tree: Option<Node>): seq<string> {
    Discover(SearchOf(Pruning(root, 10, types, SlashDotInPath)), tree)
  }

  /** The same walk refusing every hidden directory below the root, which is what
      loadProjects means to do. */
  function LoadProjectPaths(types: seq<ProjectType>, root: string, tree: Option<Node>): seq<string> {
    Discover(SearchOf(Pruning(root, 10, types, DotName)), tree)
  }

  // ---------------------------------------------------------------------------
  // What discovery finds, defined on the tree

  /** The name os.Lstat reports for the entry reached through rel. */
  function NameAt(root: string, rel: seq<string>): string {
    if rel == [] then Base(root) else rel[|rel| - 1]
  }

  /** The names, in walk order, of the project directories below n (reached from the
      walk's root through rel) that lie on no pruned or unlistable directory. */
  function Found(q: Search, rel: seq<string>, n: Node): seq<seq<string>>
    decreases n, 1
  {
    if !Listable(n) || q.prune(PathOf(q.root, rel), NameAt(q.root, rel)) then []
    else
      (if q.isProject(n) then [rel] else []) +
      (if n.perm.exec then FoundIn(q, rel, n.children) else [])
  }

  function FoundIn(q: Search, rel: seq<string>, cs: seq<Entry>): seq<seq<string>>
    decreases cs, 0
  {
    if cs == [] then [] else Found(q, rel + [cs[0].name], cs[0].node) + FoundIn(q, rel, cs[1..])
  }

  function PathsOf(root: string, rels: seq<seq<string>>): (r: seq<string>)
    ensures |r| == |rels| && forall i :: 0 <= i < |rels| ==> r[i] == PathOf(root, rels[i])
  {
    if rels == [] then [] else [PathOf(root, rels[0])] + PathsOf(root, rels[1..])
  }

  lemma PathsOfAppend(root: string, a: seq<seq<string>>, b: seq<seq<string>>)
    ensures PathsOf(root, a + b) == PathsOf(root, a) + PathsOf(root, b)
  {
  }

  lemma PathsOfSnoc(root: string, rels: seq<seq<string>>, k: int)
    requires 0 <= k < |rels|
    ensures PathsOf(root, rels[..k + 1]) == PathsOf(root, rels[..k]) + [PathOf(root, rels[k])]
  {
    assert rels[..k + 1] == rels[..k] + [rels[k]];
    PathsOfAppend(root, rels[..k], [rels[k]]);
  }

  lemma JoinIsPathOf(root: string, rel: seq<string>, name: string)
    ensures Join(PathOf(root, rel), name) == PathOf(root, rel + [name])
  {
    assert (rel + [name])[..|rel|] == rel;
  }

  lemma StepOnEntered(q: Search, found: seq<string>, path: string, rel: seq<string>, name: string, n: Node)
    requires Listable(n) && !q.prune(path, name)
    ensures DiscoverFn(q)(found, Seen(path, rel, name, n, false)) ==
      (found + (if q.isProject(n) then [path] else []), Continue)
  {
    if !q.isProject(n) {
      assert found + [] == found;
    }
  }

  lemma StepOnOther(q: Search, found: seq<string>, path: string, rel: seq<string>, name: string, n: Node)
    requires !Listable(n) || q.prune(path, name)
    ensures var r := DiscoverFn(q)(found, Seen(path, rel, name, n, n.Dir? && !n.perm.read));
      r.0 == found && (!n.Dir? ==> r.1 == Continue) && r.1 != Abort
  {
  }

  /** The walk records exactly the paths of Found, in the same order. */
  lemma {:induction false} DiscoverNode(q: Search, found: seq<string>, rel: seq<string>, n: Node)
    ensures var r := WalkNode(DiscoverFn(q), found, PathOf(q.root, rel), rel, NameAt(q.root, rel), n);
      r.0 == found + PathsOf(q.root, Found(q, rel, n)) && r.1 != Abort && (!n.Dir? ==> r.1 == Continue)
    decreases n, 1
  {
    var path := PathOf(q.root, rel);
    var name := NameAt(q.root, rel);
    if Listable(n) && !q.prune(path, name) {
      var here: seq<seq<string>> := if q.isProject(n) then [rel] else [];
      StepOnEntered(q, found, path, rel, name, n);
      WalkNodeEnters(DiscoverFn(q), found, path, rel, name, n);
      assert PathsOf(q.root, here) == if q.isProject(n) then [path] else [];
      var f1 := found + PathsOf(q.root, here);
      if n.perm.exec {
        var below := FoundIn(q, rel, n.children);
        DiscoverChildren(q, f1, rel, n.children);
        assert Found(q, rel, n) == here + below;
        var ph, pb := PathsOf(q.root, here), PathsOf(q.root, below);
        PathsOfAppend(q.root, here, below);
        AppendAssoc(found, ph, pb);
      } else {
        DiscoverUnseen(q, f1, rel, n.children);
        assert Found(q, rel, n) == here + [];
      }
    } else {
      StepOnOther(q, found, path, rel, name, n);
      assert found + [] == found;
    }
  }

  lemma {:induction false} DiscoverChildren(q: Search, found: seq<string>, rel: seq<string>, cs: seq<Entry>)
    ensures var r := WalkChildren(DiscoverFn(q), found, PathOf(q.root, rel), rel, true, cs);
      r.0 == found + PathsOf(q.root, FoundIn(q, rel, cs)) && r.1 == Continue
    decreases cs, 0
  {
    if cs != [] {
      var c := cs[0];
      var path := PathOf(q.root, rel);
      JoinIsPathOf(q.root, rel, c.name);
      assert NameAt(q.root, rel + [c.name]) == c.name;
      var r1 := WalkNode(DiscoverFn(q), found, Join(path, c.name), rel + [c.name], c.name, c.node);
      DiscoverNode(q, found, rel + [c.name], c.node);
      var fc := Found(q, rel + [c.name], c.node);
      var fr := FoundIn(q, rel, cs[1..]);
      assert FoundIn(q, rel, cs) == fc + fr;
      assert r1.0 == found + PathsOf(q.root, fc) && r1.1 != Abort;
      assert r1.1 == SkipDir ==> c.node.Dir?;
      assert WalkChildren(DiscoverFn(q), found, path, rel, true, cs)
          == WalkChildren(DiscoverFn(q), r1.0, path, rel, true, cs[1..]);
      DiscoverChildren(q, r1.0, rel, cs[1..]);
      PathsOfAppend(q.root, fc, fr);
      AppendAssoc(found, PathsOf(q.root, fc), PathsOf(q.root, fr));
    }
  }

  lemma {:induction false} DiscoverUnseen(q: Search, found: seq<string>, rel: seq<string>, cs: seq<Entry>)
    ensures WalkChildren(DiscoverFn(q), found, PathOf(q.root, rel), rel, false, cs) == (found, Continue)
    decreases |cs|
  {
    if cs != [] {
      DiscoverUnseen(q, found, rel, cs[1..]);
    }
  }

  /** A discovery walk records the paths of Found, from the root. */
  lemma DiscoverIsFound(q: Search, tree: Option<Node>)
    ensures Discover(q, tree) == if tree.None? then [] else PathsOf(q.root, Found(q, [], tree.value))
  {
    match tree
    case None =>
      assert DiscoverFn(q)([], Unseen(q.root, [])) == ([], Continue);
    case Some(n) =>
      assert PathOf(q.root, []) == q.root;
      assert NameAt(q.root, []) == Base(q.root);
      var r := WalkNode(DiscoverFn(q), [], q.root, [], Base(q.root), n);
      DiscoverNode(q, [], [], n);
      assert r.0 == [] + PathsOf(q.root, Found(q, [], n));
  }

  // ---------------------------------------------------------------------------
  // Which directories are found

  /** The walk enters n, reached through rel, and from there follows the names t: every
      directory on the way can be listed and is not pruned, and every one before the
      last can also be entered. */
  predicate Reaches(q: Search, rel: seq<string>, n: Node, t: seq<string>)
    decreases |t|
  {
    Listable(n) && !q.prune(PathOf(q.root, rel), NameAt(q.root, rel)) &&
    (t != [] ==>
      n.perm.exec && Child(n.children, t[0]).Some? &&
      Reaches(q, rel + [t[0]], Child(n.children, t[0]).value, t[1..]))
  }

  /** A reached project directory. */
  predicate FoundAt(q: Search, rel: seq<string>, n: Node, t: seq<string>) {
    Reaches(q, rel, n, t) && Lookup(n, t).Some? && q.isProject(Lookup(n, t).value)
  }

  lemma {:induction false} InFoundIn(q: Search, rel: seq<string>, cs: seq<Entry>, i: int, r: seq<string>)
    requires 0 <= i < |cs| && r in Found(q, rel + [cs[i].name], cs[i].node)
    ensures r in FoundIn(q, rel, cs)
    decreases |cs|
  {
    if i > 0 {
      assert cs[1..][i - 1] == cs[i];
      InFoundIn(q, rel, cs[1..], i - 1, r);
    }
  }

  lemma {:induction false} FromFoundIn(q: Search, rel: seq<string>, cs: seq<Entry>, r: seq<string>)
    returns (i: int)
    requires r in FoundIn(q, rel, cs)
    ensures 0 <= i < |cs| && r in Found(q, rel + [cs[i].name], cs[i].node)
    decreases |cs|
  {
    if r in Found(q, rel + [cs[0].name], cs[0].node) {
      i := 0;
    } else {
      var j := FromFoundIn(q, rel, cs[1..], r);
      assert cs[1..][j] == cs[j + 1];
      i := j + 1;
    }
  }

  lemma ChildOfDistinct(n: Node, i: int)
    requires Wf(n) && n.Dir? && 0 <= i < |n.children|
    ensures Child(n.children, n.children[i].name) == Some(n.children[i].node)
  {
    var cs := n.children;
    var r := Child(cs, cs[i].name);
    var j :| 0 <= j < |cs| && cs[j].name == cs[i].name && cs[j].node == r.value;
    assert j == i;
  }

  /** Everything found is a reached project directory. */
  lemma {:induction false} FoundSound(q: Search, rel: seq<string>, n: Node, r: seq<string>)
    requires Wf(n) && r in Found(q, rel, n)
    ensures |rel| <= |r| && r[..|rel|] == rel && FoundAt(q, rel, n, r[|rel|..])
    decreases n, 1
  {
    var here: seq<seq<string>> := if q.isProject(n) then [rel] else [];
    if r in here {
      assert r[|rel|..] == [] && r[..|rel|] == rel;
    } else {
      assert r in FoundIn(q, rel, n.children);
      var i := FromFoundIn(q, rel, n.children, r);
      var c := n.children[i];
      ChildWf(n, i);
      FoundSound(q, rel + [c.name], c.node, r);
      ChildOfDistinct(n, i);
      assert Listable(n) && !q.prune(PathOf(q.root, rel), NameAt(q.root, rel)) && n.perm.exec;
      var t := r[|rel| + 1..];
      PrefixSnoc(r, rel, c.name);
      FoundAtCons(q, rel, n, c.name, c.node, t);
    }
  }

  lemma FoundAtCons(q: Search, rel: seq<string>, n: Node, name: string, c: Node, t: seq<string>)
    requires Listable(n) && !q.prune(PathOf(q.root, rel), NameAt(q.root, rel)) && n.perm.exec
    requires Child(n.children, name) == Some(c) && FoundAt(q, rel + [name], c, t)
    ensures FoundAt(q, rel, n, [name] + t)
  {
    var s := [name] + t;
    assert s[0] == name && s[1..] == t;
  }

  /** Every reached project directory is found. */
  lemma {:induction false} FoundComplete(q: Search, rel: seq<string>, n: Node, t: seq<string>)
    requires FoundAt(q, rel, n, t)
    ensures rel + t in Found(q, rel, n)
    decreases |t|
  {
    if t == [] {
      assert rel + t == rel;
    } else {
      var c := Child(n.children, t[0]).value;
      var i :| 0 <= i < |n.children| && n.children[i].name == t[0] && n.children[i].node == c;
      FoundComplete(q, rel + [t[0]], c, t[1..]);
      ShiftHead(rel, t);
      InFoundIn(q, rel, n.children, i, rel + t);
    }
  }

  /** Discovery records exactly the paths of the reached project directories. */
  lemma DiscoverExactly(q: Search, n: Node, path: string)
    requires Wf(n)
    ensures path in Discover(q, Some(n)) <==> exists r :: FoundAt(q, [], n, r) && path == PathOf(q.root, r)
  {
    DiscoverIsFound(q, Some(n));
    var found := Found(q, [], n);
    if path in Discover(q, Some(n)) {
      var k :| 0 <= k < |found| && path == PathOf(q.root, found[k]);
      FoundSound(q, [], n, found[k]);
      assert found[k][0..] == found[k];
    }
    if exists r :: FoundAt(q, [], n, r) && path == PathOf(q.root, r) {
      var r :| FoundAt(q, [], n, r) && path == PathOf(q.root, r);
      FoundComplete(q, [], n, r);
      assert [] + r == r;
      var k :| 0 <= k < |found| && found[k] == r;
      assert PathsOf(q.root, found)[k] == path;
    }
  }

  /** No directory along a reached path is pruned. */
  lemma {:induction false} ReachedNotPruned(q: Search, rel: seq<string>, n: Node, t: seq<string>, k: int)
    requires Reaches(q, rel, n, t) && 0 <= k <= |t|
    ensures !q.prune(PathOf(q.root, rel + t[..k]), NameAt(q.root, rel + t[..k]))
    decreases |t|
  {
    if k > 0 {
      ReachedNotPruned(q, rel + [t[0]], Child(n.children, t[0]).value, t[1..], k - 1);
      assert (rel + [t[0]]) + t[1..][..k - 1] == rel + t[..k];
    } else {
      assert rel + t[..0] == rel;
    }
  }

  /** Classification does not prune: a project directory inside a project directory is
      found too. */
  lemma NestedProjectsFound(q: Search, n: Node, i: int)
    requires Wf(n) && Listable(n) && n.perm.exec && 0 <= i < |n.children|
    requires !q.prune(PathOf(q.root, []), NameAt(q.root, []))
    requires q.isProject(n)
    requires FoundAt(q, [n.children[i].name], n.children[i].node, [])
    ensures [] in Found(q, [], n) && [n.children[i].name] in Found(q, [], n)
  {
    var c := n.children[i];
    ChildOfDistinct(n, i);
    assert FoundAt(q, [], n, [c.name]) by {
      assert [c.name][1..] == [];
      assert [] + [c.name] == [c.name];
    }
    FoundComplete(q, [], n, [c.name]);
    assert [] + [c.name] == [c.name];
  }

  // ---------------------------------------------------------------------------
  // findProjects and loadProjects

  /** The walk can get from n along t: every directory on the way can be listed and
      every one before the last can be entered. */
  predicate Open(n: Node, t: seq<string>)
    decreases |t|
  {
    Listable(n) &&
    (t != [] ==> n.perm.exec && Child(n.children, t[0]).Some? && Open(Child(n.children, t[0]).value, t[1..]))
  }

  lemma {:induction false} OpenLookup(n: Node, t: seq<string>, k: int)
    requires Open(n, t) && 0 <= k <= |t|
    ensures Lookup(n, t[..k]).Some? && Listable(Lookup(n, t[..k]).value)
    ensures k < |t| ==> Lookup(n, t[..k]).value.perm.exec
    decreases |t|
  {
    if k > 0 {
      var c := Child(n.children, t[0]).value;
      OpenLookup(c, t[1..], k - 1);
      assert t[..k][0] == t[0] && t[..k][1..] == t[1..][..k - 1];
    }
  }

  lemma {:induction false} ReachesFrom(q: Search, rel: seq<string>, n: Node, t: seq<string>)
    requires Open(n, t)
    requires forall k :: 0 <= k <= |t| ==> !q.prune(PathOf(q.root, rel + t[..k]), NameAt(q.root, rel + t[..k]))
    ensures Reaches(q, rel, n, t)
    decreases |t|
  {
    assert rel + t[..0] == rel;
    if t != [] {
      forall k | 0 <= k <= |t[1..]|
        ensures !q.prune(PathOf(q.root, (rel + [t[0]]) + t[1..][..k]), NameAt(q.root, (rel + [t[0]]) + t[1..][..k]))
      {
        assert (rel + [t[0]]) + t[1..][..k] == rel + t[..k + 1];
      }
      ReachesFrom(q, rel + [t[0]], Child(n.children, t[0]).value, t[1..]);
    }
  }

  lemma {:induction false} ReachesOpen(q: Search, rel: seq<string>, n: Node, t: seq<string>)
    requires Reaches(q, rel, n, t)
    ensures Open(n, t)
    decreases |t|
  {
    if t != [] {
      ReachesOpen(q, rel + [t[0]], Child(n.children, t[0]).value, t[1..]);
    }
  }

  lemma {:induction false} LookupValid(n: Node, t: seq<string>)
    requires Wf(n) && Lookup(n, t).Some?
    ensures AllValid(t)
    decreases |t|
  {
    if t != [] {
      var c := Child(n.children, t[0]).value;
      var i :| 0 <= i < |n.children| && n.children[i].name == t[0] && n.children[i].node == c;
      ChildWf(n, i);
      LookupValid(c, t[1..]);
      assert forall k :: 1 <= k < |t| ==> t[k] == t[1..][k - 1];
    }
  }

  /** Everything a pruned discovery walk records is the path of a project directory that
      the walk can reach, and no directory from the root down to it is refused. */
  lemma DiscoverSound(p: Pruning, n: Node, path: string) returns (r: seq<string>)
    requires Wf(n) && path in Discover(SearchOf(p), Some(n))
    ensures path == PathOf(p.root, r) && AllValid(r) && Open(n, r) && Reaches(SearchOf(p), [], n, r)
    ensures Lookup(n, r).Some? && IsProjectDirectory(p.types, Lookup(n, r).value)
    ensures forall k :: 0 <= k <= |r| ==> !Pruned(p, PathOf(p.root, r[..k]), NameAt(p.root, r[..k]))
    ensures !Pruned(p, path, NameAt(p.root, r))
  {
    var q := SearchOf(p);
    DiscoverExactly(q, n, path);
    r :| FoundAt(q, [], n, r) && path == PathOf(q.root, r);
    FoundAtFacts(p, n, r);
  }

  lemma FoundAtFacts(p: Pruning, n: Node, r: seq<string>)
    requires Wf(n) && FoundAt(SearchOf(p), [], n, r)
    ensures AllValid(r) && Open(n, r) && Reaches(SearchOf(p), [], n, r)
    ensures Lookup(n, r).Some? && IsProjectDirectory(p.types, Lookup(n, r).value)
    ensures forall k :: 0 <= k <= |r| ==> !Pruned(p, PathOf(p.root, r[..k]), NameAt(p.root, r[..k]))
    ensures !Pruned(p, PathOf(p.root, r), NameAt(p.root, r))
  {
    ReachesOpen(SearchOf(p), [], n, r);
    LookupValid(n, r);
    NotPrunedAlong(p, n, r);
    NotPrunedAt(p, n, r, |r|);
    assert r[..|r|] == r;
  }

  lemma NotPrunedAlong(p: Pruning, n: Node, r: seq<string>)
    requires Reaches(SearchOf(p), [], n, r)
    ensures forall k :: 0 <= k <= |r| ==> !Pruned(p, PathOf(p.root, r[..k]), NameAt(p.root, r[..k]))
  {
    forall k | 0 <= k <= |r| ensures !Pruned(p, PathOf(p.root, r[..k]), NameAt(p.root, r[..k])) {
      NotPrunedAt(p, n, r, k);
    }
  }

  lemma NotPrunedAt(p: Pruning, n: Node, r: seq<string>, k: int)
    requires Reaches(SearchOf(p), [], n, r) && 0 <= k <= |r|
    ensures !Pruned(p, PathOf(p.root, r[..k]), NameAt(p.root, r[..k]))
  {
      ReachedNotPruned(SearchOf(p), [], n, r, k);
      assert [] + r[..k] == r[..k];
      PrunesAsPruning(p, PathOf(p.root, r[..k]), NameAt(p.root, r[..k]));
  }

  lemma PrunesAsPruning(p: Pruning, path: string, name: string)
    ensures SearchOf(p).prune(path, name) == Pruned(p, path, name)
  {
  }

  lemma NotPrunedLifted(p: Pruning, r: seq<string>)
    requires forall k :: 0 <= k <= |r| ==> !Pruned(p, PathOf(p.root, r[..k]), NameAt(p.root, r[..k]))
    ensures forall k :: 0 <= k <= |r| ==>
      !SearchOf(p).prune(PathOf(p.root, [] + r[..k]), NameAt(p.root, [] + r[..k]))
  {
    forall k | 0 <= k <= |r|
      ensures !SearchOf(p).prune(PathOf(p.root, [] + r[..k]), NameAt(p.root, [] + r[..k]))
    {
      var t: seq<string> := r[..k];
      assert [] + t == t;
      PrunesAsPruning(p, PathOf(p.root, t), NameAt(p.root, t));
    }
  }

  /** Every project directory the walk can reach without passing a refused directory is
      recorded. */
  lemma DiscoverComplete(p: Pruning, n: Node, r: seq<string>)
    requires Wf(n) && Open(n, r) && Lookup(n, r).Some? && IsProjectDirectory(p.types, Lookup(n, r).value)
    requires forall k :: 0 <= k <= |r| ==> !Pruned(p, PathOf(p.root, r[..k]), NameAt(p.root, r[..k]))
    ensures PathOf(p.root, r) in Discover(SearchOf(p), Some(n))
  {
    var q := SearchOf(p);
    NotPrunedLifted(p, r);
    ReachesFrom(q, [], n, r);
    DiscoverExactly(q, n, PathOf(p.root, r));
  }

  /** findProjects records only project directories no deeper than maxDepth, none of
      them inside (or itself) a directory named like a cache directory. */
  lemma FindProjectsSound(types: seq<ProjectType>, root: string, maxDepth: int, n: Node, path: string)
    returns (r: seq<string>)
    requires Wf(n) && path in FindProjects(types, root, maxDepth, Some(n))
    ensures path == PathOf(root, r) && Lookup(n, r).Some? && IsProjectDirectory(types, Lookup(n, r).value)
    ensures Depth(root, path) <= maxDepth
    ensures forall k :: 0 <= k <= |r| ==> !IsCacheDirectory(types, NameAt(root, r[..k]))
  {
    r := DiscoverSound(Pruning(root, maxDepth, types, KeepHidden), n, path);
  }

  /** findProjects records every project directory it can reach through directories
      that are neither deeper than maxDepth nor named like a cache directory; in
      particular classification does not stop the walk. */
  lemma FindProjectsComplete(types: seq<ProjectType>, root: string, maxDepth: int, n: Node, r: seq<string>)
    requires Wf(n) && Open(n, r) && Lookup(n, r).Some? && IsProjectDirectory(types, Lookup(n, r).value)
    requires forall k :: 0 <= k <= |r| ==>
      Depth(root, PathOf(root, r[..k])) <= maxDepth && !IsCacheDirectory(types, NameAt(root, r[..k]))
    ensures PathOf(root, r) in FindProjects(types, root, maxDepth, Some(n))
  {
    var p := Pruning(root, maxDepth, types, KeepHidden);
    forall k | 0 <= k <= |r|
      ensures !Pruned(p, PathOf(root, r[..k]), NameAt(root, r[..k]))
    {
      assert !HiddenPruned(KeepHidden, root, PathOf(root, r[..k]), NameAt(root, r[..k]));
    }
    DiscoverComplete(p, n, r);
    assert FindProjects(types, root, maxDepth, Some(n)) == Discover(SearchOf(p), Some(n));
  }

  /** loadProjects as written records only project directories no deeper than 10, none
      of them inside (or itself) a directory named like a cache directory or with "/." in
      its path. */
  lemma LoadProjectPathsAsWrittenSound(types: seq<ProjectType>, root: string, n: Node, path: string)
    returns (r: seq<string>)
    requires Wf(n) && path in LoadProjectPathsAsWritten(types, root, Some(n))
    ensures path == PathOf(root, r) && Open(n, r) && Lookup(n, r).Some? && IsProjectDirectory(types, Lookup(n, r).value)
    ensures forall k :: 0 <= k <= |r| ==>
      Depth(root, PathOf(root, r[..k])) <= 10 && !ContainsSlashDot(PathOf(root, r[..k])) &&
      !IsCacheDirectory(types, NameAt(root, r[..k]))
  {
    r := DiscoverSound(Pruning(root, 10, types, SlashDotInPath), n, path);
  }

  /** loadProjects as written records every project directory it can reach through
      directories no deeper than 10, not named like a cache directory and without "/."
      in their paths. */
  lemma LoadProjectPathsAsWrittenComplete(types: seq<ProjectType>, root: string, n: Node, r: seq<string>)
    requires Wf(n) && Open(n, r) && Lookup(n, r).Some? && IsProjectDirectory(types, Lookup(n, r).value)
    requires forall k :: 0 <= k <= |r| ==>
      Depth(root, PathOf(root, r[..k])) <= 10 && !ContainsSlashDot(PathOf(root, r[..k])) &&
      !IsCacheDirectory(types, NameAt(root, r[..k]))
    ensures PathOf(root, r) in LoadProjectPathsAsWritten(types, root, Some(n))
  {
    DiscoverComplete(Pruning(root, 10, types, SlashDotInPath), n, r);
  }

  /** The corrected loadProjects walk records nothing below a directory whose name starts
      with '.', and nothing deeper than 10. */
  lemma LoadProjectPathsSkipHidden(types: seq<ProjectType>, root: string, n: Node, path: string)
    returns (r: seq<string>)
    requires Wf(n) && path in LoadProjectPaths(types, root, Some(n))
    ensures path == PathOf(root, r) && AllValid(r)
    ensures Lookup(n, r).Some? && IsProjectDirectory(types, Lookup(n, r).value)
    ensures Depth(root, path) <= 10
    ensures forall k :: 0 <= k < |r| ==> r[k][0] != '.'
  {
    var p := Pruning(root, 10, types, DotName);
    r := DiscoverSound(p, n, path);
    DotNamesRefused(p, n, r);
  }

  lemma DotNamesRefused(p: Pruning, n: Node, r: seq<string>)
    requires p.hidden == DotName && AllValid(r) && Reaches(SearchOf(p), [], n, r)
    ensures forall k :: 0 <= k < |r| ==> r[k][0] != '.'
  {
    forall k | 0 <= k < |r| ensures r[k][0] != '.' {
      DotNameRefused(p, n, r, k);
    }
  }

  lemma DotNameRefused(p: Pruning, n: Node, r: seq<string>, k: int)
    requires p.hidden == DotName && AllValid(r) && Reaches(SearchOf(p), [], n, r) && 0 <= k < |r|
    ensures r[k][0] != '.'
  {
    var pre := r[..k + 1];
    NotPrunedAt(p, n, r, k + 1);
    BelowRootDiffers(p.root, pre);
  }

  // A tree on which the two loadProjects walks differ: a Node.js project inside a
  // hidden directory at the top level.
  const ExampleTypes: seq<ProjectType> := [ProjectType("Node.js", ["package.json"], CacheConfig([], [], []))]
  const ExampleProject: Node := Dir(Perm(true, true, true), [Entry("package.json", File(1))])
  const ExampleHidden: Node := Dir(Perm(true, true, true), [Entry("p", ExampleProject)])
  const ExampleTree: Node := Dir(Perm(true, true, true), [Entry(".hidden", ExampleHidden)])
  const ExampleRel: seq<string> := [".hidden", "p"]

  lemma ExampleReachable()
    ensures Wf(ExampleTree) && Open(ExampleTree, ExampleRel) && Lookup(ExampleTree, ExampleRel) == Some(ExampleProject)
    ensures IsProjectDirectory(ExampleTypes, ExampleProject)
  {
    ExampleSteps();
    assert Open(ExampleHidden, ExampleRel[1..]);
    assert Lookup(ExampleHidden, ExampleRel[1..]) == Some(ExampleProject);
    assert IndicatorPresent(ExampleProject, ExampleTypes[0].indicators[0]);
  }

  lemma ExampleSteps()
    ensures Wf(ExampleProject) && Wf(ExampleHidden) && Wf(ExampleTree)
    ensures Child(ExampleTree.children, ExampleRel[0]) == Some(ExampleHidden)
    ensures Child(ExampleHidden.children, ExampleRel[1]) == Some(ExampleProject)
    ensures ExampleRel[1..][1..] == []
  {
    ExampleWf();
    ExampleChildren();
  }

  lemma ExampleWf()
    ensures Wf(ExampleProject) && Wf(ExampleHidden) && Wf(ExampleTree)
  {
    assert Wf(ExampleProject.children[0].node);
    assert Wf(ExampleProject);
    assert Wf(ExampleHidden);
  }

  lemma ExampleChildren()
    ensures Child(ExampleTree.children, ".hidden") == Some(ExampleHidden)
    ensures Child(ExampleHidden.children, "p") == Some(ExampleProject)
  {
  }

  lemma ExamplePaths()
    ensures PathOf(".", ExampleRel[..0]) == "." && PathOf(".", ExampleRel[..1]) == ".hidden"
    ensures PathOf(".", ExampleRel) == ".hidden/p"
  {
    assert ExampleRel[..1] == [".hidden"];
    assert ExampleRel[..0] == [];
    assert ExampleRel[..|ExampleRel| - 1] == [".hidden"];
  }

  lemma NoSlashDot(s: string)
    requires forall i :: 0 <= i < |s| && s[i] == '/' ==> i + 1 < |s| && s[i + 1] != '.'
    ensures !ContainsSlashDot(s)
  {
  }

  lemma ExampleWithoutSlashDot(k: int)
    requires 0 <= k <= |ExampleRel|
    ensures !ContainsSlashDot(PathOf(".", ExampleRel[..k]))
  {
    ExamplePaths();
    if k == 0 {
      NoSlashDot(".");
    } else if k == 1 {
      NoSlashDot(".hidden");
    } else {
      NoSlashDot(".hidden/p");
    }
  }

  lemma ExampleShallow(k: int)
    requires 0 <= k <= |ExampleRel|
    ensures Depth(".", PathOf(".", ExampleRel[..k])) <= 10
  {
    ExamplePaths();
    DepthOfPath(".", ExampleRel[..k]);
  }

  lemma ExampleNotPrunedAsWritten(k: int)
    requires 0 <= k <= |ExampleRel|
    ensures !Pruned(Pruning(".", 10, ExampleTypes, SlashDotInPath), PathOf(".", ExampleRel[..k]), NameAt(".", ExampleRel[..k]))
  {
    ExampleWithoutSlashDot(k);
    ExampleShallow(k);
    assert ExampleTypes[0].cacheConfig.directories == [];
  }

  /** loadProjects as written, started from ".", enters a hidden directory at the top
      level, since no "/." precedes its name, and records a project inside it. */
  lemma HiddenTopLevelEntered()
    ensures ".hidden/p" in LoadProjectPathsAsWritten(ExampleTypes, ".", Some(ExampleTree))
  {
    ExampleReachable();
    ExamplePaths();
    forall k | 0 <= k <= |ExampleRel|
      ensures !Pruned(Pruning(".", 10, ExampleTypes, SlashDotInPath), PathOf(".", ExampleRel[..k]), NameAt(".", ExampleRel[..k]))
    {
      ExampleNotPrunedAsWritten(k);
    }
    DiscoverComplete(Pruning(".", 10, ExampleTypes, SlashDotInPath), ExampleTree, ExampleRel);
  }

  /** The corrected walk records nothing whose first name below the root starts with '.'. */
  lemma HiddenBelowRootRefused(types: seq<ProjectType>, root: string, tree: Node, rel: seq<string>)
    requires Wf(tree) && AllValid(rel) && rel != [] && rel[0][0] == '.'
    ensures PathOf(root, rel) !in LoadProjectPaths(types, root, Some(tree))
  {
    if PathOf(root, rel) in LoadProjectPaths(types, root, Some(tree)) {
      var r := LoadProjectPathsSkipHidden(types, root, tree, PathOf(root, rel));
      PathOfInjective(root, r, rel);
    }
  }

  /** The corrected walk does not record the project of the example. */
  lemma HiddenTopLevelRefused()
    ensures ".hidden/p" !in LoadProjectPaths(ExampleTypes, ".", Some(ExampleTree))
  {
    ExampleReachable();
    ExamplePaths();
    HiddenBelowRootRefused(ExampleTypes, ".", ExampleTree, ExampleRel);
  }
}

=== FILE: fstree.dfy ===
/** The filesystem as the engine sees it: a tree of directories, regular files and
    symbolic links, and filepath.Walk over it. */
module FsTree {
  import opened Wrappers
  import opened Paths
  import Int64

  /** The owner permission bits the engine depends on: listing a directory needs read,
      reaching its entries needs exec, adding or removing an entry needs write and exec. */
  datatype Perm = Perm(read: bool, write: bool, exec: bool)

  /** What os.Stat reports for a symbolic link after following it. What lies behind a
      link is not part of the tree. */
  datatype Target = Missing | RegularFile(size: nat) | Directory

  /** An entry's contents. Sizes are the ones os.Lstat reports; a directory's children
      are held in the order its listing returns them. */
  datatype Node =
    | File(size: nat)
    | Link(size: nat, target: Target)
    | Dir(perm: Perm, children: seq<Entry>)

  datatype Entry = Entry(name: string, node: Node)

  /** Names are single, pairwise distinct entry names; sizes fit an int64. */
  predicate Wf(n: Node)
    decreases n
  {
    match n
    case File(size) => size <= Int64.Max
    case Link(size, target) => size <= Int64.Max && (target.RegularFile? ==> target.size <= Int64.Max)
    case Dir(_, cs) =>
      (forall i :: 0 <= i < |cs| ==> ValidName(cs[i].name) && Wf(cs[i].node)) &&
      (forall i, j :: 0 <= i < j < |cs| ==> cs[i].name != cs[j].name)
  }

  /** A directory whose listing succeeds. */
  predicate Listable(n: Node) {
    n.Dir? && n.perm.read
  }

  /** The entry with the given name among cs. */
  function Child(cs: seq<Entry>, name: string): (r: Option<Node>)
    ensures r.Some? <==> exists i :: 0 <= i < |cs| && cs[i].name == name
    ensures r.Some? ==> exists i :: 0 <= i < |cs| && cs[i].name == name && cs[i].node == r.value
    decreases |cs|
  {
    if cs == [] then None
    else if cs[0].name == name then Some(cs[0].node)
    else
      var r := Child(cs[1..], name);
      assert r.Some? ==> exists i :: 1 <= i < |cs| && cs[i].name == name && cs[i].node == r.value by {
        if r.Some? {
          var i :| 0 <= i < |cs[1..]| && cs[1..][i].name == name && cs[1..][i].node == r.value;
          assert cs[i + 1] == cs[1..][i];
        }
      }
      assert (exists i :: 0 <= i < |cs| && cs[i].name == name) ==> r.Some? by {
        if exists i :: 0 <= i < |cs| && cs[i].name == name {
          var i :| 0 <= i < |cs| && cs[i].name == name;
          assert cs[1..][i - 1] == cs[i];
        }
      }
      r
  }

  /** os.Lstat(filepath.Join(dir, name)) for an entry name: it needs exec on the directory. */
  function LstatIn(dir: Node, name: string): (r: Option<Node>)
    ensures r.Some? ==> dir.Dir? && dir.perm.exec
  {
    if dir.Dir? && dir.perm.exec && ValidName(name) then Child(dir.children, name) else None
  }

  /** The entry reached from n through the names rel. */
  function Lookup(n: Node, rel: seq<string>): Option<Node>
    decreases |rel|
  {
    if rel == [] then Some(n)
    else if !n.Dir? then None
    else match Child(n.children, rel[0])
      case None => None
      case Some(c) => Lookup(c, rel[1..])
  }

  /** What os.Stat reports about an entry: it follows a symbolic link. */
  function StatOf(n: Node): Target {
    match n
    case File(size) => RegularFile(size)
    case Link(_, target) => target
    case Dir(_, _) => Directory
  }

  // ---------------------------------------------------------------------------
  // filepath.Walk

  /** One call of the walk function. Seen carries the os.Lstat information and whether
      the call comes with an error (a directory that cannot be listed); Unseen is a call
      with no information, made when os.Lstat fails. The names rel that lead from the
      walk's root to the entry accompany each call so that statements can refer to the
      tree. */
  datatype Visit =
    | Seen(path: string, rel: seq<string>, name: string, node: Node, err: bool)
    | Unseen(path: string, rel: seq<string>)

  /** A call with information and no error. */
  predicate Clean(v: Visit) {
    v.Seen? && !v.err
  }

  /** What the walk function returns: nil, filepath.SkipDir, or any other error. */
  datatype Signal = Continue | SkipDir | Abort

  /** Walks the entry at path, calling fn before its children. A directory is listed
      first; when the listing fails fn is called with the error and nothing below is
      visited. When fn returns SkipDir for a directory its children are skipped; when it
      returns SkipDir for any other entry, the remaining entries of the same directory
      are skipped. */
  function WalkNode<S>(fn: (S, Visit) -> (S, Signal), s: S, path: string, rel: seq<string>,
                       name: string, node: Node): (S, Signal)
    decreases node, 1
  {
    if !node.Dir? then fn(s, Seen(path, rel, name, node, false))
    else
      var r := fn(s, Seen(path, rel, name, node, !node.perm.read));
      if !node.perm.read || r.1 != Continue then r
      else WalkChildren(fn, r.0, path, rel, node.perm.exec, node.children)
  }

  /** Walks the remaining entries cs of the directory at path. When the directory has no
      exec permission, os.Lstat fails on each entry and fn is told so. */
  function WalkChildren<S>(fn: (S, Visit) -> (S, Signal), s: S, path: string, rel: seq<string>,
                           exec: bool, cs: seq<Entry>): (S, Signal)
    decreases cs, 0
  {
    if cs == [] then (s, Continue)
    else
      var c := cs[0];
      var r :=
        if exec then WalkNode(fn, s, Join(path, c.name), rel + [c.name], c.name, c.node)
        else fn(s, Unseen(Join(path, c.name), rel + [c.name]));
      if r.1 == Abort || (r.1 == SkipDir && exec && !c.node.Dir?) then r
      else WalkChildren(fn, r.0, path, rel, exec, cs[1..])
  }

  /** A directory that is listed and entered: the walk goes on with its entries. */
  lemma WalkNodeEnters<S>(fn: (S, Visit) -> (S, Signal), s: S, path: string, rel: seq<string>,
                          name: string, node: Node)
    requires Listable(node) && fn(s, Seen(path, rel, name, node, false)).1 == Continue
    ensures WalkNode(fn, s, path, rel, name, node) ==
      WalkChildren(fn, fn(s, Seen(path, rel, name, node, false)).0, path, rel, node.perm.exec, node.children)
  {
  }

  /** filepath.Walk(root, fn) over the entry os.Lstat finds at root, if any. The walk
      reports an error only when fn returns one other than SkipDir. */
  function Walk<S>(fn: (S, Visit) -> (S, Signal), s: S, root: string, tree: Option<Node>): (S, bool)
  {
    var r := match tree
      case None => fn(s, Unseen(root, []))
      case Some(n) => WalkNode(fn, s, root, [], Base(root), n);
    (r.0, r.1 == Abort)
  }

  // ---------------------------------------------------------------------------
  // The calls a walk makes when fn never stops it

  /** The calls, in order, a walk of the entry at path makes when fn always returns nil. */
  function Visits(path: string, rel: seq<string>, name: string, node: Node): seq<Visit>
    decreases node, 1
  {
    if !node.Dir? then [Seen(path, rel, name, node, false)]
    else
      [Seen(path, rel, name, node, !node.perm.read)] +
      (if node.perm.read then ChildVisits(path, rel, node.perm.exec, node.children) else [])
  }

  function ChildVisits(path: string, rel: seq<string>, exec: bool, cs: seq<Entry>): seq<Visit>
    decreases cs, 0
  {
    if cs == [] then []
    else
      var c := cs[0];
      (if exec then Visits(Join(path, c.name), rel + [c.name], c.name, c.node)
       else [Unseen(Join(path, c.name), rel + [c.name])]) +
      ChildVisits(path, rel, exec, cs[1..])
  }

  function TreeVisits(root: string, tree: Option<Node>): seq<Visit> {
    match tree
    case None => [Unseen(root, [])]
    case Some(n) => Visits(root, [], Base(root), n)
  }

  /** Each call with information names the entry its path ends in. */
  predicate Named(vs: seq<Visit>) {
    forall k :: 0 <= k < |vs| && vs[k].Seen? ==> vs[k].name == Base(vs[k].path)
  }

  lemma NamedAppend(a: seq<Visit>, b: seq<Visit>)
    requires Named(a) && Named(b)
    ensures Named(a + b)
  {
    forall k | 0 <= k < |a + b| && (a + b)[k].Seen? ensures (a + b)[k].name == Base((a + b)[k].path) {
      if k < |a| { assert (a + b)[k] == a[k]; } else { assert (a + b)[k] == b[k - |a|]; }
    }
  }

  lemma {:induction false} VisitsNamed(path: string, rel: seq<string>, name: string, node: Node)
    requires Wf(node) && name == Base(path)
    ensures Named(Visits(path, rel, name, node))
    decreases node, 1
  {
    if node.Dir? && node.perm.read {
      ChildVisitsNamed(path, rel, node.perm.exec, node.children);
      NamedAppend([Seen(path, rel, name, node, !node.perm.read)], ChildVisits(path, rel, node.perm.exec, node.children));
    }
  }

  lemma {:induction false} ChildVisitsNamed(path: string, rel: seq<string>, exec: bool, cs: seq<Entry>)
    requires Wf(Dir(Perm(true, true, true), cs))
    ensures Named(ChildVisits(path, rel, exec, cs))
    decreases cs, 0
  {
    if cs != [] {
      var c := cs[0];
      ChildWf(Dir(Perm(true, true, true), cs), 0);
      if exec {
        BaseOfJoin(path, c.name);
        VisitsNamed(Join(path, c.name), rel + [c.name], c.name, c.node);
      }
      assert Wf(Dir(Perm(true, true, true), cs[1..])) by {
        forall i | 0 <= i < |cs[1..]| ensures ValidName(cs[1..][i].name) && Wf(cs[1..][i].node) {
          ChildWf(Dir(Perm(true, true, true), cs), i + 1);
        }
      }
      ChildVisitsNamed(path, rel, exec, cs[1..]);
      NamedAppend(if exec then Visits(Join(path, c.name), rel + [c.name], c.name, c.node)
                  else [Unseen(Join(path, c.name), rel + [c.name])], ChildVisits(path, rel, exec, cs[1..]));
    }
  }

  lemma TreeVisitsNamed(root: string, tree: Option<Node>)
    requires tree.Some? ==> Wf(tree.value)
    ensures Named(TreeVisits(root, tree))
  {
    if tree.Some? { VisitsNamed(root, [], Base(root), tree.value); }
  }

  /** Feeds the calls vs to fn in order, keeping only the state. */
  function Fold<S>(fn: (S, Visit) -> (S, Signal), s: S, vs: seq<Visit>): S
    decreases |vs|
  {
    if vs == [] then s else Fold(fn, fn(s, vs[0]).0, vs[1..])
  }

  lemma {:induction false} FoldAppend<S>(fn: (S, Visit) -> (S, Signal), s: S, a: seq<Visit>, b: seq<Visit>)
    ensures Fold(fn, s, a + b) == Fold(fn, Fold(fn, s, a), b)
    decreases |a|
  {
    if a != [] {
      assert (a + b)[0] == a[0];
      assert (a + b)[1..] == a[1..] + b;
      FoldAppend(fn, fn(s, a[0]).0, a[1..], b);
    } else {
      assert a + b == b;
    }
  }

  /** A walk function that always returns nil. */
  ghost predicate NeverStops<S(!new)>(fn: (S, Visit) -> (S, Signal)) {
    forall s, v :: fn(s, v).1 == Continue
  }

  /** When fn always returns nil the walk hands every entry to fn, in pre-order. */
  lemma {:induction false} WalkNodeAsFold<S(!new)>(fn: (S, Visit) -> (S, Signal), s: S, path: string,
                                             rel: seq<string>, name: string, node: Node)
    requires NeverStops(fn)
    ensures WalkNode(fn, s, path, rel, name, node) == (Fold(fn, s, Visits(path, rel, name, node)), Continue)
    decreases node, 1
  {
    var v := Seen(path, rel, name, node, node.Dir? && !node.perm.read);
    assert fn(s, v).1 == Continue;
    if node.Dir? && node.perm.read {
      var cs := ChildVisits(path, rel, node.perm.exec, node.children);
      WalkChildrenAsFold(fn, fn(s, v).0, path, rel, node.perm.exec, node.children);
      FoldAppend(fn, s, [v], cs);
    }
  }

  lemma {:induction false} WalkChildrenAsFold<S(!new)>(fn: (S, Visit) -> (S, Signal), s: S, path: string,
                                                 rel: seq<string>, exec: bool, cs: seq<Entry>)
    requires NeverStops(fn)
    ensures WalkChildren(fn, s, path, rel, exec, cs) == (Fold(fn, s, ChildVisits(path, rel, exec, cs)), Continue)
    decreases cs, 0
  {
    if cs != [] {
      var c := cs[0];
      var p := Join(path, c.name);
      var first :=
        if exec then Visits(p, rel + [c.name], c.name, c.node) else [Unseen(p, rel + [c.name])];
      if exec {
        WalkNodeAsFold(fn, s, p, rel + [c.name], c.name, c.node);
      } else {
        assert fn(s, Unseen(p, rel + [c.name])).1 == Continue;
      }
      var s1 := Fold(fn, s, first);
      WalkChildrenAsFold(fn, s1, path, rel, exec, cs[1..]);
      FoldAppend(fn, s, first, ChildVisits(path, rel, exec, cs[1..]));
    }
  }

  lemma WalkAsFold<S(!new)>(fn: (S, Visit) -> (S, Signal), s: S, root: string, tree: Option<Node>)
    requires NeverStops(fn)
    ensures Walk(fn, s, root, tree) == (Fold(fn, s, TreeVisits(root, tree)), false)
  {
    match tree
    case None =>
      assert fn(s, Unseen(root, [])).1 == Continue;
    case Some(n) =>
      WalkNodeAsFold(fn, s, root, [], Base(root), n);
  }

  // ---------------------------------------------------------------------------
  // Invariants kept by a walk

  /** The information of a call describes a well-formed entry. */
  predicate WfVisit(v: Visit) {
    v.Seen? ==> Wf(v.node)
  }

  /** fn keeps inv whatever call it receives about a well-formed tree. */
  ghost predicate Keeps<S(!new)>(fn: (S, Visit) -> (S, Signal), inv: S -> bool) {
    forall s, v :: inv(s) && WfVisit(v) ==> inv(fn(s, v).0)
  }

  lemma ChildWf(n: Node, i: int)
    requires Wf(n) && n.Dir? && 0 <= i < |n.children|
    ensures Wf(n.children[i].node) && ValidName(n.children[i].name)
  {
  }

  /** A walk over a well-formed tree keeps every invariant its walk function keeps. */
  lemma {:induction false} WalkNodeKeeps<S(!new)>(fn: (S, Visit) -> (S, Signal), inv: S -> bool, s: S,
                                                  path: string, rel: seq<string>, name: string, node: Node)
    requires Wf(node) && inv(s) && Keeps(fn, inv)
    ensures inv(WalkNode(fn, s, path, rel, name, node).0)
    decreases node, 1
  {
    var v := Seen(path, rel, name, node, node.Dir? && !node.perm.read);
    assert inv(fn(s, v).0);
    if node.Dir? && node.perm.read && fn(s, v).1 == Continue {
      WalkChildrenKeeps(fn, inv, fn(s, v).0, path, rel, node.perm.exec, node.children);
    }
  }

  lemma {:induction false} WalkChildrenKeeps<S(!new)>(fn: (S, Visit) -> (S, Signal), inv: S -> bool, s: S,
                                                      path: string, rel: seq<string>, exec: bool, cs: seq<Entry>)
    requires Wf(Dir(Perm(true, true, true), cs)) && inv(s) && Keeps(fn, inv)
    ensures inv(WalkChildren(fn, s, path, rel, exec, cs).0)
    decreases cs, 0
  {
    if cs != [] {
      var c := cs[0];
      ChildWf(Dir(Perm(true, true, true), cs), 0);
      var r :=
        if exec then WalkNode(fn, s, Join(path, c.name), rel + [c.name], c.name, c.node)
        else fn(s, Unseen(Join(path, c.name), rel + [c.name]));
      if exec {
        WalkNodeKeeps(fn, inv, s, Join(path, c.name), rel + [c.name], c.name, c.node);
      } else {
        assert WfVisit(Unseen(Join(path, c.name), rel + [c.name]));
      }
      if !(r.1 == Abort || (r.1 == SkipDir && exec && !c.node.Dir?)) {
        assert Wf(Dir(Perm(true, true, true), cs[1..])) by {
          var d := Dir(Perm(true, true, true), cs[1..]);
          forall i | 0 <= i < |cs[1..]| ensures ValidName(cs[1..][i].name) && Wf(cs[1..][i].node) {
            ChildWf(Dir(Perm(true, true, true), cs), i + 1);
          }
        }
        WalkChildrenKeeps(fn, inv, r.0, path, rel, exec, cs[1..]);
      }
    }
  }

  lemma WalkKeeps<S(!new)>(fn: (S, Visit) -> (S, Signal), inv: S -> bool, s: S, root: string, tree: Option<Node>)
    requires tree.Some? ==> Wf(tree.value)
    requires inv(s) && Keeps(fn, inv)
    ensures inv(Walk(fn, s, root, tree).0)
  {
    match tree
    case None =>
      assert WfVisit(Unseen(root, []));
    case Some(n) =>
      WalkNodeKeeps(fn, inv, s, root, [], Base(root), n);
  }
}

=== FILE: int64.dfy ===
/** Go's int64 arithmetic: the range, and the two's-complement wrap-around that an
    unguarded `+=` on int64 performs when a sum leaves the range. */
module Int64 {
  /** math.MaxInt64, the literal 9223372036854775807 the size guards compare against. */
  const Max: int := 0x7fff_ffff_ffff_ffff
  const Min: int := -0x8000_0000_0000_0000
  const Modulus: int := 0x1_0000_0000_0000_0000

  predicate InRange(x: int) {
    Min <= x <= Max
  }

  /** The int64 value Go stores for the mathematical result x. */
  function Wrap(x: int): (r: int)
    ensures InRange(r)
    ensures InRange(x) ==> r == x
  {
    (x - Min) % Modulus + Min
  }

  /** `a += b` on int64 operands. */
  function Add(a: int, b: int): (r: int)
    ensures InRange(r)
    ensures Min <= a + b <= Max ==> r == a + b
    ensures Max < a + b <= Max + Max + 1 ==> r == a + b - Modulus
  {
    Wrap(a + b)
  }

  /** Wrap reduces modulo 2^64. */
  lemma WrapCongruent(x: int)
    ensures (Wrap(x) - x) % Modulus == 0
  {
  }

  /** Wrapping after every step of a sum gives the wrapped total: a running int64
      accumulator holds the mathematical sum reduced into range. */
  lemma WrapOfSum(a: int, b: int)
    ensures Wrap(Wrap(a) + b) == Wrap(a + b)
  {
    WrapCongruent(a);
    var k := (Wrap(a) - a) / Modulus;
    assert Wrap(a) == a + k * Modulus;
    ShiftInvariant(a + b, k);
  }

  /** An int64 accumulator that held the wrapped total holds, after `+= x`, the wrapped
      total with x added. */
  lemma WrapStep(acc: int, total: int, x: int, next: int)
    requires acc == Wrap(total) && next == Wrap(acc + x)
    ensures next == Wrap(total + x)
  {
    WrapOfSum(total, x);
  }

  /** The same when the added value is itself wrapped first. */
  lemma WrapStepWrapped(acc: int, total: int, x: int, next: int)
    requires acc == Wrap(total) && next == Wrap(acc + Wrap(x))
    ensures next == Wrap(total + x)
  {
    WrapOfWrapped(total, x);
  }

  /** Adding a wrapped value to a wrapped total wraps the mathematical sum. */
  lemma WrapOfWrapped(a: int, b: int)
    ensures Wrap(Wrap(a) + Wrap(b)) == Wrap(a + b)
  {
    WrapOfSum(a, Wrap(b));
    WrapOfSum(b, a);
    assert Wrap(b) + a == a + Wrap(b) && b + a == a + b;
  }

  lemma ShiftInvariant(x: int, k: int)
    ensures Wrap(x + k * Modulus) == Wrap(x)
    decreases if k < 0 then -k else k
  {
    if k > 0 {
      var y := x + (k - 1) * Modulus;
      ShiftInvariant(x, k - 1);
      assert x + k * Modulus == y + Modulus by {
        assert k * Modulus == (k - 1) * Modulus + Modulus;
      }
      WrapPlusModulus(y);
    } else if k < 0 {
      var y := x + k * Modulus;
      ShiftInvariant(x, k + 1);
      assert x + (k + 1) * Modulus == y + Modulus by {
        assert (k + 1) * Modulus == k * Modulus + Modulus;
      }
      WrapPlusModulus(y);
    }
  }

  lemma WrapPlusModulus(y: int)
    ensures Wrap(y + Modulus) == Wrap(y)
  {
    assert (y + Modulus - Min) % Modulus == (y - Min) % Modulus;
  }
}

=== FILE: paths.dfy ===
/** Path strings as the Go code builds and inspects them: filepath.Join for one entry
    name, the base name os.Lstat reports, and the strings-package tests the walks apply
    (TrimPrefix, Count, HasPrefix, HasSuffix, Contains). */
module Paths {
  import opened Wrappers

  /** A name as a directory listing returns it: non-empty, without a separator,
      and neither "." nor "..". */
  predicate ValidName(n: string) {
    n != "" && n != "." && n != ".." && '/' !in n
  }

  predicate AllValid(rel: seq<string>) {
    forall k :: 0 <= k < |rel| ==> ValidName(rel[k])
  }

  predicate EndsWithSlash(s: string) {
    |s| > 0 && s[|s| - 1] == '/'
  }

  /** filepath.Join(dir, name) for a valid name. Join cleans its result: a "." or empty
      directory disappears and a trailing separator is not doubled. Directory strings
      with other unclean parts ("a/../b", "a//") are outside this model. */
  function Join(dir: string, name: string): string {
    if dir == "" || dir == "." then name
    else if EndsWithSlash(dir) then dir + name
    else dir + "/" + name
  }

  /** The path filepath.Walk passes for the entry reached from root through the names rel. */
  function PathOf(root: string, rel: seq<string>): string
    decreases |rel|
  {
    if rel == [] then root else Join(PathOf(root, rel[..|rel| - 1]), rel[|rel| - 1])
  }

  /** What precedes the joined names in every path strictly below root. */
  function Lead(root: string): string {
    if root == "" || root == "." then ""
    else if EndsWithSlash(root) then root
    else root + "/"
  }

  /** The names of rel joined by single separators. */
  function Chain(rel: seq<string>): string
    requires rel != []
    decreases |rel|
  {
    if |rel| == 1 then rel[0] else Chain(rel[..|rel| - 1]) + "/" + rel[|rel| - 1]
  }

  /** A root string that Join keeps in front of its children unchanged and followed by
      a separator: not empty, not ".", no trailing separator. */
  predicate Plain(root: string) {
    root != "" && root != "." && !EndsWithSlash(root)
  }

  // ---------------------------------------------------------------------------
  // strings-package predicates

  predicate HasPrefix(s: string, p: string) {
    |p| <= |s| && s[..|p|] == p
  }

  predicate HasSuffix(s: string, p: string) {
    |p| <= |s| && s[|s| - |p|..] == p
  }

  function TrimPrefix(s: string, p: string): string {
    if HasPrefix(s, p) then s[|p|..] else s
  }

  /** strings.Count(s, "/"). */
  function CountSlashes(s: string): nat {
    multiset(s)['/']
  }

  /** strings.Contains(s, "/."). */
  predicate ContainsSlashDot(s: string) {
    exists i :: 0 <= i < |s| - 1 && s[i] == '/' && s[i + 1] == '.'
  }

  /** The walk depth main.go and interactive.go compute:
      strings.Count(strings.TrimPrefix(path, rootDir), "/"). */
  function Depth(root: string, path: string): nat {
    CountSlashes(TrimPrefix(path, root))
  }

  // ---------------------------------------------------------------------------
  // Base name, as os.Lstat(name).Name() reports it

  function StripTrailingSlashes(s: string): (t: string)
    ensures |t| <= |s| && HasPrefix(s, t)
    ensures |t| > 1 ==> !EndsWithSlash(t)
    ensures |s| > 0 ==> |t| > 0
    decreases |s|
  {
    if |s| > 1 && s[|s| - 1] == '/' then StripTrailingSlashes(s[..|s| - 1]) else s
  }

  function AfterLastSlash(s: string): (t: string)
    ensures '/' !in t && |t| <= |s|
    decreases |s|
  {
    if s == [] then s
    else if s[|s| - 1] == '/' then []
    else AfterLastSlash(s[..|s| - 1]) + [s[|s| - 1]]
  }

  /** The last element of a path, trailing separators ignored; "/" and "." are their own. */
  function Base(path: string): string {
    var t := StripTrailingSlashes(path);
    if |t| <= 1 then t else AfterLastSlash(t)
  }

  // ---------------------------------------------------------------------------
  // Lemmas connecting path strings with the names they are built from

  lemma {:induction false} ChainShape(rel: seq<string>)
    requires rel != [] && AllValid(rel)
    ensures |Chain(rel)| >= |rel[|rel| - 1]| > 0
    ensures !EndsWithSlash(Chain(rel))
    ensures Chain(rel) != "." && Chain(rel) != ""
    ensures CountSlashes(Chain(rel)) == |rel| - 1
    ensures HasSuffix(Chain(rel), rel[|rel| - 1])
    decreases |rel|
  {
    var last := rel[|rel| - 1];
    assert ValidName(last);
    if |rel| == 1 {
      assert '/' !in last;
      assert multiset(last)['/'] == 0;
    } else {
      var init := rel[..|rel| - 1];
      assert AllValid(init) by {
        forall k | 0 <= k < |init| ensures ValidName(init[k]) { assert init[k] == rel[k]; }
      }
      ChainShape(init);
      assert Chain(rel) == Chain(init) + "/" + last;
      assert multiset(last)['/'] == 0;
      assert multiset(Chain(rel)) == multiset(Chain(init)) + multiset("/") + multiset(last);
      assert Chain(rel)[|Chain(rel)| - |last|..] == last;
      assert last[|last| - 1] != '/' by { assert last[|last| - 1] in last; }
    }
  }

  lemma AllValidInit(rel: seq<string>)
    requires rel != [] && AllValid(rel)
    ensures AllValid(rel[..|rel| - 1])
  {
    var init := rel[..|rel| - 1];
    forall k | 0 <= k < |init| ensures ValidName(init[k]) { assert init[k] == rel[k]; }
  }

  lemma JoinAfterPlain(p: string, name: string)
    requires p != "" && p != "." && !EndsWithSlash(p)
    ensures Join(p, name) == p + "/" + name
  {
  }

  lemma JoinAtRoot(root: string, name: string)
    ensures Join(root, name) == Lead(root) + name
  {
  }

  /** Every path strictly below root is root's lead followed by the joined names. */
  lemma {:induction false} PathOfBelowRoot(root: string, rel: seq<string>)
    requires rel != [] && AllValid(rel)
    ensures PathOf(root, rel) == Lead(root) + Chain(rel)
    decreases |rel|
  {
    if |rel| == 1 {
      assert rel[..0] == [];
      JoinAtRoot(root, rel[0]);
    } else {
      var init := rel[..|rel| - 1];
      AllValidInit(rel);
      PathOfBelowRoot(root, init);
      PathOfBelowStep(root, rel);
    }
  }

  lemma PathOfBelowStep(root: string, rel: seq<string>)
    requires |rel| >= 2 && AllValid(rel) && AllValid(rel[..|rel| - 1])
    requires PathOf(root, rel[..|rel| - 1]) == Lead(root) + Chain(rel[..|rel| - 1])
    ensures PathOf(root, rel) == Lead(root) + Chain(rel)
  {
    var init, last := rel[..|rel| - 1], rel[|rel| - 1];
    var c := Chain(init);
    ChainShape(init);
    LeadChainPlain(root, c);
    JoinAfterPlain(Lead(root) + c, last);
    assert Chain(rel) == c + "/" + last;
    ConcatAssoc(Lead(root), c, "/", last);
  }

  lemma AppendAssoc<T>(a: seq<T>, b: seq<T>, c: seq<T>)
    ensures (a + b) + c == a + (b + c)
  {
  }

  lemma ConcatAssoc<T>(a: seq<T>, b: seq<T>, c: seq<T>, d: seq<T>)
    ensures a + b + c + d == a + (b + c + d)
  {
  }

  /** Moving the head of t onto the end of a. */
  lemma ShiftHead<T>(a: seq<T>, t: seq<T>)
    requires t != []
    ensures (a + [t[0]]) + t[1..] == a + t
  {
    assert t == [t[0]] + t[1..];
    AppendAssoc(a, [t[0]], t[1..]);
  }

  /** A sequence that starts with a + [x] starts with a, and continues with x. */
  lemma PrefixSnoc<T>(r: seq<T>, a: seq<T>, x: T)
    requires |a| < |r| && r[..|a| + 1] == a + [x]
    ensures r[..|a|] == a && r[|a|..] == [x] + r[|a| + 1..]
  {
    assert r[..|a|] == r[..|a| + 1][..|a|];
  }

  /** A chain of names after root's lead is a path Join extends with a separator. */
  lemma LeadChainPlain(root: string, c: string)
    requires c != "" && c != "." && !EndsWithSlash(c)
    ensures var p := Lead(root) + c; p != "" && p != "." && !EndsWithSlash(p)
  {
    var p := Lead(root) + c;
    if Lead(root) == "" {
      assert p == c;
    } else {
      assert |p| >= 2;
      assert p[|p| - 1] == c[|c| - 1];
    }
  }

  lemma {:induction false} AfterLastSlashOfName(x: string, name: string)
    requires '/' !in name && (x == [] || EndsWithSlash(x))
    ensures AfterLastSlash(x + name) == name
    decreases |name|
  {
    if name == [] {
      assert x + name == x;
    } else {
      var init := name[..|name| - 1];
      assert (x + name)[..|x + name| - 1] == x + init;
      assert name[|name| - 1] in name;
      AfterLastSlashOfName(x, init);
      assert init + [name[|name| - 1]] == name;
    }
  }

  /** The base name of a joined path is the name joined. */
  lemma BaseOfJoin(dir: string, name: string)
    requires ValidName(name)
    ensures Base(Join(dir, name)) == name
  {
    var j := Join(dir, name);
    var x := if dir == "" || dir == "." then "" else if EndsWithSlash(dir) then dir else dir + "/";
    assert j == x + name;
    assert name[|name| - 1] in name;
    assert StripTrailingSlashes(j) == j;
    if |j| > 1 {
      AfterLastSlashOfName(x, name);
    } else {
      assert x == [];
    }
  }

  // ---------------------------------------------------------------------------
  // Reading a path back into names

  /** Index of the last separator in s, or -1 when there is none. */
  function LastSlash(s: string): (i: int)
    ensures -1 <= i < |s|
    ensures i >= 0 ==> s[i] == '/' && '/' !in s[i + 1..]
    ensures i < 0 ==> '/' !in s
    decreases |s|
  {
    if s == [] then -1
    else if s[|s| - 1] == '/' then |s| - 1
    else
      var i := LastSlash(s[..|s| - 1]);
      assert i >= 0 ==> s[i + 1..] == s[..|s| - 1][i + 1..] + [s[|s| - 1]];
      assert i < 0 ==> s == s[..|s| - 1] + [s[|s| - 1]];
      i
  }

  /** The separator-delimited pieces of s, read from the back. */
  function Split(s: string): (parts: seq<string>)
    ensures |parts| > 0
    decreases |s|
  {
    var i := LastSlash(s);
    if i < 0 then [s] else Split(s[..i]) + [s[i + 1..]]
  }

  /** The names that lead from root to path, when path names an entry at or below root. */
  function Resolve(root: string, path: string): Option<seq<string>> {
    if path == root then Some([])
    else if |path| > |Lead(root)| && HasPrefix(path, Lead(root)) then
      var parts := Split(path[|Lead(root)|..]);
      if AllValid(parts) then Some(parts) else None
    else None
  }

  lemma LastSlashAfterJoin(a: string, b: string)
    requires '/' !in b
    ensures LastSlash(a + "/" + b) == |a|
    decreases |b|
  {
    var s := a + "/" + b;
    if b != [] {
      assert s[..|s| - 1] == a + "/" + b[..|b| - 1];
      assert s[|s| - 1] == b[|b| - 1] && b[|b| - 1] in b;
      LastSlashAfterJoin(a, b[..|b| - 1]);
    }
  }

  lemma SplitAfterJoin(a: string, b: string)
    requires '/' !in b
    ensures Split(a + "/" + b) == Split(a) + [b]
  {
    var s := a + "/" + b;
    LastSlashAfterJoin(a, b);
    assert s[..|a|] == a;
    assert s[|a| + 1..] == b;
  }

  /** Splitting the joined names gives the names back. */
  lemma {:induction false} SplitChain(rel: seq<string>)
    requires rel != [] && AllValid(rel)
    ensures Split(Chain(rel)) == rel
    decreases |rel|
  {
    var last := rel[|rel| - 1];
    assert ValidName(last);
    if |rel| == 1 {
      assert LastSlash(last) < 0;
    } else {
      var init := rel[..|rel| - 1];
      AllValidInit(rel);
      SplitChain(init);
      SplitAfterJoin(Chain(init), last);
      assert rel == init + [last];
    }
  }

  /** A path strictly below root differs from root. */
  lemma BelowRootDiffers(root: string, rel: seq<string>)
    requires rel != [] && AllValid(rel)
    ensures PathOf(root, rel) != root
    ensures |PathOf(root, rel)| > |Lead(root)|
  {
    PathOfBelowRoot(root, rel);
    ChainShape(rel);
  }

  /** The path built from root and names resolves back to those names. */
  lemma ResolvePathOf(root: string, rel: seq<string>)
    requires AllValid(rel)
    ensures Resolve(root, PathOf(root, rel)) == Some(rel)
  {
    if rel != [] {
      BelowRootDiffers(root, rel);
      PathOfBelowRoot(root, rel);
      var p := PathOf(root, rel);
      assert p[..|Lead(root)|] == Lead(root);
      assert p[|Lead(root)|..] == Chain(rel);
      SplitChain(rel);
    }
  }

  /** Distinct name sequences give distinct paths. */
  lemma PathOfInjective(root: string, r1: seq<string>, r2: seq<string>)
    requires AllValid(r1) && AllValid(r2)
    requires PathOf(root, r1) == PathOf(root, r2)
    ensures r1 == r2
  {
    ResolvePathOf(root, r1);
    ResolvePathOf(root, r2);
  }

  lemma CountSlashesAppend(a: string, b: string)
    ensures CountSlashes(a + b) == CountSlashes(a) + CountSlashes(b)
  {
    assert multiset(a + b) == multiset(a) + multiset(b);
  }

  /** Depth as the walks compute it: the number of names below root, one fewer when
      root is empty, "." or ends in a separator, because then no separator follows root. */
  lemma DepthOfPath(root: string, rel: seq<string>)
    requires AllValid(rel)
    ensures rel == [] ==> Depth(root, PathOf(root, rel)) == 0
    ensures rel != [] ==> Depth(root, PathOf(root, rel)) == if Plain(root) then |rel| else |rel| - 1
  {
    if rel == [] {
      assert TrimPrefix(root, root) == [];
    } else {
      PathOfBelowRoot(root, rel);
      ChainShape(rel);
      DepthAfterLead(root, Chain(rel));
    }
  }

  lemma DepthAfterLead(root: string, c: string)
    ensures Depth(root, Lead(root) + c) == if Plain(root) then CountSlashes(c) + 1 else CountSlashes(c)
  {
    var p := Lead(root) + c;
    if root == "." {
      if HasPrefix(p, root) {
        assert p == root + p[1..];
        CountSlashesAppend(root, p[1..]);
      }
    } else if root == "" {
      assert TrimPrefix(p, root) == c;
    } else if EndsWithSlash(root) {
      assert p[..|root|] == root;
      assert TrimPrefix(p, root) == c;
    } else {
      assert p == root + ("/" + c);
      assert p[..|root|] == root;
      assert TrimPrefix(p, root) == "/" + c;
      CountSlashesAppend("/", c);
    }
  }

  // ---------------------------------------------------------------------------
  // "Below a directory" as a string prefix

  lemma {:induction false} ChainAppend(d: seq<string>, e: seq<string>)
    requires d != [] && e != []
    ensures Chain(d + e) == Chain(d) + "/" + Chain(e)
    decreases |e|
  {
    var de := d + e;
    if |e| == 1 {
      assert de[..|de| - 1] == d;
    } else {
      var init := e[..|e| - 1];
      ChainAppend(d, init);
      assert de[..|de| - 1] == d + init;
      assert de[|de| - 1] == e[|e| - 1];
    }
  }

  lemma ChainInjective(d: seq<string>, e: seq<string>)
    requires d != [] && e != [] && AllValid(d) && AllValid(e) && Chain(d) == Chain(e)
    ensures d == e
  {
    SplitChain(d);
    SplitChain(e);
  }

  /** The joined names of r start with those of d and a separator only when d is a proper
      prefix of r. */
  lemma {:induction false} ChainPrefixOnly(d: seq<string>, r: seq<string>)
    requires d != [] && r != [] && AllValid(d) && AllValid(r)
    requires HasPrefix(Chain(r), Chain(d) + "/")
    ensures |d| < |r| && r[..|d|] == d
    decreases |r|
  {
    var p := Chain(d) + "/";
    var m := |p|;
    var last := r[|r| - 1];
    assert p[m - 1] == '/';
    assert ValidName(last);
    if |r| == 1 {
      assert Chain(r)[m - 1] in last;
    } else {
      var init := r[..|r| - 1];
      AllValidInit(r);
      var ci := Chain(init);
      assert Chain(r) == ci + "/" + last;
      if m <= |ci| {
        assert ci[..m] == Chain(r)[..m];
        ChainPrefixOnly(d, init);
        assert r[..|d|] == init[..|d|];
      } else if m == |ci| + 1 {
        assert Chain(d) == Chain(r)[..m - 1] == ci;
        ChainInjective(d, init);
      } else {
        assert false;
      }
    }
  }

  lemma ChainPrefix(d: seq<string>, r: seq<string>)
    requires d != [] && r != [] && AllValid(d) && AllValid(r)
    ensures HasPrefix(Chain(r), Chain(d) + "/") <==> |d| < |r| && r[..|d|] == d
  {
    if |d| < |r| && r[..|d|] == d {
      var e := r[|d|..];
      assert r == d + e;
      ChainAppend(d, e);
      assert Chain(r)[..|Chain(d) + "/"|] == Chain(d) + "/";
    }
    if HasPrefix(Chain(r), Chain(d) + "/") {
      ChainPrefixOnly(d, r);
    }
  }

  /** A walk path lies strictly below a directory exactly when it starts with that
      directory's path followed by a separator. */
  lemma BelowIffPrefix(root: string, d: seq<string>, r: seq<string>)
    requires d != [] && AllValid(d) && AllValid(r)
    ensures HasPrefix(PathOf(root, r), PathOf(root, d) + "/") <==> |d| < |r| && r[..|d|] == d
  {
    if r == [] {
      RootNotBelow(root, d);
    } else {
      var pd, pr := PathOf(root, d), PathOf(root, r);
      var lead, cd, cr := Lead(root), Chain(d), Chain(r);
      PathOfBelowRoot(root, d);
      PathOfBelowRoot(root, r);
      assert pd + "/" == lead + (cd + "/");
      PrefixAfterLead(lead, cr, cd + "/");
      assert HasPrefix(pr, pd + "/") <==> HasPrefix(cr, cd + "/");
      ChainPrefix(d, r);
    }
  }

  lemma RootNotBelow(root: string, d: seq<string>)
    requires d != [] && AllValid(d)
    ensures !HasPrefix(root, PathOf(root, d) + "/")
  {
    BelowRootDiffers(root, d);
  }

  lemma PrefixAfterLead(lead: string, x: string, y: string)
    ensures HasPrefix(lead + x, lead + y) <==> HasPrefix(x, y)
  {
    if HasPrefix(lead + x, lead + y) {
      assert x[..|y|] == (lead + x)[|lead|..|lead| + |y|];
    }
    if HasPrefix(x, y) {
      assert (lead + x)[..|lead + y|] == lead + x[..|y|];
    }
  }
}

=== FILE: pycleanup.dfy ===
/** remove_cache_items, process_project and the statistics of main in cache_remover.py.
    Whether shutil.rmtree or Path.unlink raises for an item is an input; a removal that
    raises takes nothing away. */
module PyCleanup {
  import opened Wrappers
  import opened Paths
  import opened FsTree
  import opened Rules
  import opened CacheItems
  import opened PyCacheItems
  import opened PyTotals
  import Cleanup
  import PyRemover

  // ---------------------------------------------------------------------------
  // remove_cache_items

  /** The items remove_cache_items counts, in order: each one whose path still exists when
      its turn comes and whose removal does not raise (its path is in fails). */
  function Counted(items: seq<CacheItem>, existed: set<string>, fails: set<string>): (r: seq<CacheItem>)
    ensures |r| <= |items|
    ensures forall x :: x in r ==> x in items
    decreases |items|
  {
    if items == [] then []
    else
      var init, it := Counted(items[..|items| - 1], existed, fails), items[|items| - 1];
      assert forall x :: x in init ==> x in items by {
        forall x | x in init ensures x in items {
          assert x in items[..|items| - 1];
        }
      }
      if Cleanup.StillExists(existed, init, it.path) && it.path !in fails then init + [it] else init
  }

  /** remove_cache_items(items, verbose); removed stands for what the loop has taken away
      from the filesystem so far. */
  method RemoveCacheItems(items: seq<CacheItem>, existed: set<string>, fails: set<string>)
    returns (removedItems: int, removedSize: int)
    ensures removedItems == |Counted(items, existed, fails)|
    ensures removedSize == Cleanup.SizeSum(Counted(items, existed, fails))
  {
    removedItems, removedSize := 0, 0;
    var removed: seq<CacheItem> := [];
    for i := 0 to |items|
      invariant removed == Counted(items[..i], existed, fails)
      invariant removedItems == |removed| && removedSize == Cleanup.SizeSum(removed)
    {
      var it := items[i];
      assert items[..i + 1][..i] == items[..i] && items[..i + 1][i] == it;
      if Cleanup.StillExists(existed, removed, it.path) && it.path !in fails {
        Cleanup.SizeSumSnoc(removed, it);
        removed := removed + [it];
        removedItems := removedItems + 1;
        removedSize := removedSize + it.size;
      }
    }
    assert items[..|items|] == items;
  }

  /** Every counted path existed and was removed without raising, and nothing is counted
      twice: no counted item lies at or below one counted before it. */
  lemma {:induction false} CountedSound(items: seq<CacheItem>, existed: set<string>, fails: set<string>)
    ensures forall k :: 0 <= k < |Counted(items, existed, fails)| ==>
      Counted(items, existed, fails)[k].path in existed && Counted(items, existed, fails)[k].path !in fails
    ensures forall j, k :: 0 <= j < k < |Counted(items, existed, fails)| ==>
      !Cleanup.Covers(Counted(items, existed, fails)[j], Counted(items, existed, fails)[k].path)
    decreases |items|
  {
    if items != [] {
      CountedSound(items[..|items| - 1], existed, fails);
    }
  }

  /** An item whose path existed, whose removal does not raise and which no earlier item
      covers is counted. */
  lemma {:induction false} CountedComplete(items: seq<CacheItem>, existed: set<string>, fails: set<string>, k: int)
    requires 0 <= k < |items| && items[k].path in existed && items[k].path !in fails
    requires forall j :: 0 <= j < k ==> !Cleanup.Covers(items[j], items[k].path)
    ensures items[k] in Counted(items, existed, fails)
    decreases |items|
  {
    var init := items[..|items| - 1];
    var before := Counted(init, existed, fails);
    if k < |items| - 1 {
      assert init[k] == items[k];
      forall j | 0 <= j < k ensures !Cleanup.Covers(init[j], init[k].path) {
        assert init[j] == items[j];
      }
      CountedComplete(init, existed, fails, k);
    } else {
      forall j | 0 <= j < |before| ensures !Cleanup.Covers(before[j], items[k].path) {
        assert before[j] in init;
        var i :| 0 <= i < |init| && init[i] == before[j];
        assert init[i] == items[i];
      }
    }
  }

  lemma {:induction false} CountedSize(items: seq<CacheItem>, existed: set<string>, fails: set<string>)
    requires forall k :: 0 <= k < |items| ==> items[k].size >= 0
    ensures 0 <= Cleanup.SizeSum(Counted(items, existed, fails)) <= Cleanup.SizeSum(items)
    decreases |items|
  {
    if items != [] {
      var init, it := items[..|items| - 1], items[|items| - 1];
      CountedSize(init, existed, fails);
      var before := Counted(init, existed, fails);
      if Cleanup.StillExists(existed, before, it.path) && it.path !in fails {
        Cleanup.SizeSumSnoc(before, it);
      }
    }
  }

  // ---------------------------------------------------------------------------
  // process_project

  /** The command-line switches and the outcomes process_project depends on: confirmed
      holds the project paths the user answers 'y' or 'yes' for, fails the item paths
      whose removal raises. */
  datatype PyMode = PyMode(dryRun: bool, interactive: bool, confirmed: set<string>, fails: set<string>)

  function ItemPaths(items: seq<CacheItem>): set<string> {
    set k | 0 <= k < |items| :: items[k].path
  }

  /** detect_project_type raises: the project is a directory that cannot be searched, so
      the first indicator tested raises PermissionError. */
  predicate DetectRaises(types: seq<ProjectType>, project: Option<Node>) {
    project.Some? && project.value.Dir? && !project.value.perm.exec &&
    exists i :: 0 <= i < |types| && types[i].indicators != []
  }

  function TypeOf(types: seq<ProjectType>, project: Option<Node>): Option<ProjectType> {
    if project.Some? then DetectProjectType(types, project.value) else None
  }

  /** process_project(project_path, dry_run, verbose, interactive) for the entry found at
      the path; None when it raises. */
  function ProcessOf(types: seq<ProjectType>, path: string, project: Option<Node>, mode: PyMode): (r: Option<Tally>)
    ensures r.None? <==> DetectRaises(types, project)
    ensures r.Some? && (TypeOf(types, project).None? || mode.dryRun) ==> r == Some(Tally(0, 0))
    ensures r.Some? && mode.interactive && path !in mode.confirmed ==> r == Some(Tally(0, 0))
  {
    if DetectRaises(types, project) then None
    else
      match TypeOf(types, project)
      case None => Some(Tally(0, 0))
      case Some(pt) =>
        var items := CacheItemsIn(path, pt.cacheConfig, project.value);
        if items == [] then Some(Tally(0, 0))
        else if mode.interactive && !mode.dryRun && path !in mode.confirmed then Some(Tally(0, 0))
        else if mode.dryRun then Some(Tally(0, 0))
        else
          var c := Counted(items, ItemPaths(items), mode.fails);
          Some(Tally(|c|, Cleanup.SizeSum(c)))
  }

  method ProcessProject(types: seq<ProjectType>, path: string, project: Option<Node>, mode: PyMode)
    returns (r: Option<Tally>)
    ensures r == ProcessOf(types, path, project, mode)
  {
    if DetectRaises(types, project) {
      return None;
    }
    var pt := TypeOf(types, project);
    if pt.None? {
      return Some(Tally(0, 0));
    }
    var items := PyCacheItems.FindCacheItems(path, pt.value.cacheConfig, project.value);
    if items == [] {
      return Some(Tally(0, 0));
    }
    if mode.interactive && !mode.dryRun && path !in mode.confirmed {
      return Some(Tally(0, 0));
    }
    if mode.dryRun {
      return Some(Tally(0, 0));
    }
    var removedItems, removedSize := RemoveCacheItems(items, ItemPaths(items), mode.fails);
    r := Some(Tally(removedItems, removedSize));
  }

  lemma CacheItemsSizes(path: string, config: CacheConfig, n: Node)
    ensures forall k :: 0 <= k < |CacheItemsIn(path, config, n)| ==> CacheItemsIn(path, config, n)[k].size >= 0
  {
    var ds := DirItems(path, n, config.directories);
    var fs := FileItems(path, n, config.files);
    var es: seq<CacheItem> := if config.extensions != [] then ExtItems(path, config.extensions, RGlob([], n)) else [];
    forall it | it in ds + fs + es ensures it.size >= 0 {
      if it in ds {
        DirItemsExactly(path, n, config.directories, it);
      } else if it in fs {
        FileItemsExactly(path, n, config.files, it);
      } else {
        ExtItemsSound(path, config.extensions, RGlob([], n), it);
      }
    }
  }

  /** A project whose cache is removed reports at most as many items and bytes as
      find_cache_items found, and never less than zero. */
  lemma ProcessBounds(types: seq<ProjectType>, path: string, project: Option<Node>, mode: PyMode)
    requires ProcessOf(types, path, project, mode).Some? && TypeOf(types, project).Some?
    ensures project.Some?
    ensures var items := CacheItemsIn(path, TypeOf(types, project).value.cacheConfig, project.value);
            var t := ProcessOf(types, path, project, mode).value;
            0 <= t.items <= |items| && 0 <= t.size <= Cleanup.SizeSum(items)
  {
    var items := CacheItemsIn(path, TypeOf(types, project).value.cacheConfig, project.value);
    CacheItemsSizes(path, TypeOf(types, project).value.cacheConfig, project.value);
    CountedSize(items, ItemPaths(items), mode.fails);
  }

  // ---------------------------------------------------------------------------
  // main

  /** CleanupStats as main uses it. */
  class PyStats {
    var totalProjects: int
    var totalCacheItems: int
    var totalSizeRemoved: int

    constructor()
      ensures totalProjects == 0 && totalCacheItems == 0 && totalSizeRemoved == 0
    {
      totalProjects, totalCacheItems, totalSizeRemoved := 0, 0, 0;
    }
  }

  /** The result of process_project for each project path. */
  function ResultsOf(types: seq<ProjectType>, root: string, tree: Node, projects: seq<string>, mode: PyMode)
    : (rs: seq<Option<Tally>>)
    ensures |rs| == |projects|
  {
    seq(|projects|, k requires 0 <= k < |projects| =>
      ProcessOf(types, projects[k], Cleanup.EntryAtPath(root, Some(tree), projects[k]), mode))
  }

  lemma NoResults(types: seq<ProjectType>, root: string, tree: Node, mode: PyMode)
    ensures Tallied(ResultsOf(types, root, tree, [], mode)) == Tally(0, 0)
  {
    assert ResultsOf(types, root, tree, [], mode) == [];
  }

  /** The loop over the completed futures of main, taken in submission order: each
      result is added to the statistics. */
  method Aggregate(stats: PyStats, types: seq<ProjectType>, root: string, tree: Node, projects: seq<string>, mode: PyMode)
    modifies stats
    ensures stats.totalProjects == old(stats.totalProjects)
    ensures stats.totalCacheItems == old(stats.totalCacheItems) + Tallied(ResultsOf(types, root, tree, projects, mode)).items
    ensures stats.totalSizeRemoved == old(stats.totalSizeRemoved) + Tallied(ResultsOf(types, root, tree, projects, mode)).size
  {
    ghost var rs := ResultsOf(types, root, tree, projects, mode);
    for k := 0 to |projects|
      invariant stats.totalProjects == old(stats.totalProjects)
      invariant stats.totalCacheItems == old(stats.totalCacheItems) + Tallied(rs[..k]).items
      invariant stats.totalSizeRemoved == old(stats.totalSizeRemoved) + Tallied(rs[..k]).size
    {
      var r := ProcessProject(types, projects[k], Cleanup.EntryAtPath(root, Some(tree), projects[k]), mode);
      TalliedSnoc(rs, k);
      if r.Some? {
        stats.totalCacheItems := stats.totalCacheItems + r.value.items;
        stats.totalSizeRemoved := stats.totalSizeRemoved + r.value.size;
      }
    }
    assert rs[..|projects|] == rs;
  }

  /** main() after argument parsing, with the thread pool replaced by a loop over the
      projects. None when the root directory does not exist (exit status 1), and None when
      projects were found but the worker count is zero or negative: the thread pool refuses
      such a count with a ValueError that ends the program before any total is reported.
      A worker count of None is os.cpu_count() finding no count, which lets the pool pick
      its own size. */
  method Run(root: string, tree: Option<Node>, maxDepth: int, workers: Option<int>, mode: PyMode)
    returns (stats: Option<PyStats>)
    ensures stats.Some? <==>
      tree.Some? && (PyRemover.FoundProjects(root, maxDepth, tree.value) == [] || workers.None? || workers.value > 0)
    ensures stats.Some? ==>
      fresh(stats.value) &&
      stats.value.totalProjects == |PyRemover.FoundProjects(root, maxDepth, tree.value)| &&
      var total := Tallied(ResultsOf(PyRemover.PythonTypes, root, tree.value, PyRemover.FoundProjects(root, maxDepth, tree.value), mode));
      stats.value.totalCacheItems == total.items && stats.value.totalSizeRemoved == total.size
  {
    if tree.None? {
      return None;
    }
    var s := new PyStats();
    var projects := PyRemover.FindProjects(root, maxDepth, tree.value);
    if projects != [] {
      s.totalProjects := |projects|;
      if workers.Some? && workers.value <= 0 {
        return None;
      }
      Aggregate(s, PyRemover.PythonTypes, root, tree.value, projects, mode);
    } else {
      NoResults(PyRemover.PythonTypes, root, tree.value, mode);
    }
    stats := Some(s);
  }

  // ---------------------------------------------------------------------------
  // A compiled-cache directory and a compiled file inside it

  const Open3 := Perm(true, true, true)
  const Pycache := Dir(Open3, [Entry("a.pyc", File(3))])
  const PyProject := Dir(Open3, [Entry("__pycache__", Pycache)])
  const PyConfig := CacheConfig(["__pycache__"], [], [".pyc"])

  /** rglob('*') below an open directory holding one entry. */
  lemma GlobOfOne(rel: seq<string>, e: Entry)
    ensures RGlob(rel, Dir(Open3, [e])) ==
      [GlobEntry(rel + [e.name], e.name, e.node, true)] + (if e.node.Dir? then RGlob(rel + [e.name], e.node) else [])
  {
    var d := Dir(Open3, [e]);
    assert Listable(d) && d.perm.exec && d.children == [e];
    assert Listing(rel, true, [e])[0] == GlobEntry(rel + [e.name], e.name, e.node, true);
    assert Listing(rel, true, [e]) == [GlobEntry(rel + [e.name], e.name, e.node, true)];
    assert [e][1..] == [];
    assert SubGlobs(rel, [e]) == (if e.node.Dir? then RGlob(rel + [e.name], e.node) else []) + SubGlobs(rel, []);
    assert RGlob(rel, d) == Listing(rel, true, [e]) + SubGlobs(rel, [e]);
  }

  /** rglob('*') below the project: the cache directory, then the file inside it. */
  lemma PyProjectGlob()
    ensures RGlob([], PyProject) ==
      [GlobEntry(["__pycache__"], "__pycache__", Pycache, true),
       GlobEntry(["__pycache__", "a.pyc"], "a.pyc", File(3), true)]
  {
    var inner := GlobEntry(["__pycache__", "a.pyc"], "a.pyc", File(3), true);
    GlobOfOne(["__pycache__"], Entry("a.pyc", File(3)));
    GlobOfOne([], Entry("__pycache__", Pycache));
    assert ["__pycache__"] + ["a.pyc"] == ["__pycache__", "a.pyc"];
    assert RGlob(["__pycache__"], Pycache) == [inner];
    assert [] + ["__pycache__"] == ["__pycache__"];
  }

  lemma PycacheSize()
    ensures DirSize(Pycache) == 3
  {
    var file := GlobEntry(["a.pyc"], "a.pyc", File(3), true);
    GlobOfOne([], Entry("a.pyc", File(3)));
    assert [] + ["a.pyc"] == ["a.pyc"];
    assert RGlob([], Pycache) == [file];
    assert [file][1..] == [];
  }

  lemma PyProjectDirItem()
    ensures DirItemFor("p", PyProject, "__pycache__") == [CacheItem("p/__pycache__", 3, DirectoryItem)]
  {
    PycacheSize();
    assert ValidName("__pycache__");
    assert Child(PyProject.children, "__pycache__") == Some(Pycache);
    assert LstatIn(PyProject, "__pycache__") == Some(Pycache);
    PycachePath();
  }

  lemma PycachePath()
    ensures Join("p", "__pycache__") == "p/__pycache__"
  {
    assert "p" + "/" + "__pycache__" == "p/__pycache__";
  }

  lemma PyProjectDirItems()
    ensures DirItems("p", PyProject, ["__pycache__"]) == [CacheItem("p/__pycache__", 3, DirectoryItem)]
  {
    PyProjectDirItem();
    assert ["__pycache__"][..0] == [];
  }

  lemma InnerPath()
    ensures PathOf("p", ["__pycache__", "a.pyc"]) == "p/__pycache__/a.pyc"
  {
    assert ["__pycache__"][..0] == [];
    assert PathOf("p", ["__pycache__"]) == Join("p", "__pycache__") == "p/__pycache__";
    assert ["__pycache__", "a.pyc"][..1] == ["__pycache__"];
    assert Join("p/__pycache__", "a.pyc") == "p/__pycache__/a.pyc";
  }

  lemma PyProjectExtItems()
    ensures ExtItems("p", [".pyc"], RGlob([], PyProject)) == [CacheItem("p/__pycache__/a.pyc", 3, FileItem)]
  {
    var outer := GlobEntry(["__pycache__"], "__pycache__", Pycache, true);
    var inner := GlobEntry(["__pycache__", "a.pyc"], "a.pyc", File(3), true);
    PyProjectGlob();
    PycacheNoExtMatch();
    PycFileExtMatch();
    assert [outer, inner][1..] == [inner] && [inner][1..] == [];
    assert ExtItems("p", [".pyc"], [inner]) == ExtMatch("p", [".pyc"], inner) + ExtItems("p", [".pyc"], []);
  }

  lemma PycacheNoExtMatch()
    ensures ExtMatch("p", [".pyc"], GlobEntry(["__pycache__"], "__pycache__", Pycache, true)) == []
  {
    assert StatOf(Pycache) == Directory;
  }

  lemma PycFileExtMatch()
    ensures ExtMatch("p", [".pyc"], GlobEntry(["__pycache__", "a.pyc"], "a.pyc", File(3), true)) ==
      [CacheItem("p/__pycache__/a.pyc", 3, FileItem)]
  {
    SuffixExamples();
    InnerPath();
    assert Suffix("a.pyc") in [".pyc"];
  }

  /** The directory and the file inside it are both found, as the extensions pass does
      not look at recorded directories; the file no longer exists when its turn comes,
      so it is counted once, with the directory. */
  lemma PycacheCountedOnce()
    ensures CacheItemsIn("p", PyConfig, PyProject) ==
      [CacheItem("p/__pycache__", 3, DirectoryItem), CacheItem("p/__pycache__/a.pyc", 3, FileItem)]
    ensures Counted(CacheItemsIn("p", PyConfig, PyProject), {"p/__pycache__", "p/__pycache__/a.pyc"}, {}) ==
      [CacheItem("p/__pycache__", 3, DirectoryItem)]
  {
    PyProjectItems();
    PycacheFileGone();
  }

  lemma PyProjectItems()
    ensures CacheItemsIn("p", PyConfig, PyProject) ==
      [CacheItem("p/__pycache__", 3, DirectoryItem), CacheItem("p/__pycache__/a.pyc", 3, FileItem)]
  {
    PyProjectDirItems();
    PyProjectExtItems();
    assert FileItems("p", PyProject, []) == [];
  }

  lemma PycacheFileGone()
    ensures Counted([CacheItem("p/__pycache__", 3, DirectoryItem), CacheItem("p/__pycache__/a.pyc", 3, FileItem)],
                    {"p/__pycache__", "p/__pycache__/a.pyc"}, {}) ==
      [CacheItem("p/__pycache__", 3, DirectoryItem)]
  {
    var d, f := CacheItem("p/__pycache__", 3, DirectoryItem), CacheItem("p/__pycache__/a.pyc", 3, FileItem);
    var existed := {"p/__pycache__", "p/__pycache__/a.pyc"};
    assert [d, f][..1] == [d] && [d][..0] == [];
    assert Counted([d], existed, {}) == [d];
    assert HasPrefix(f.path, d.path + "/");
    assert Cleanup.Covers(d, f.path);
  }
}

=== FILE: pyitems.dfy ===
/** get_dir_size and find_cache_items of cache_remover.py. Path.rglob('*') is modelled as
    the recursive selector of Python 3.9 to 3.11 enumerates: the entries of a directory it
    can list, then those of each real subdirectory in listing order; symbolic links are not
    followed.
    Path.exists(), is_dir() and is_file() follow links, answer false for a path that is
    not there, and raise for a path inside a directory that cannot be searched. */
module PyCacheItems {
  import opened Wrappers
  import opened Paths
  import opened FsTree
  import opened Rules
  import opened CacheItems

  // ---------------------------------------------------------------------------
  // rglob('*')

  /** One path rglob('*') yields: the names leading to it from the starting directory,
      the last of them, its os.lstat information, and whether the directory holding it
      can be searched (when it cannot, stat on the path raises PermissionError). */
  datatype GlobEntry = GlobEntry(rel: seq<string>, name: string, node: Node, reachable: bool)

  /** rglob('*') below the directory reached through rel. A directory that cannot be listed
      yields nothing; the subdirectories of one that cannot be searched cannot be opened. */
  function RGlob(rel: seq<string>, n: Node): seq<GlobEntry>
    decreases n, 1
  {
    if !Listable(n) then []
    else Listing(rel, n.perm.exec, n.children) + (if n.perm.exec then SubGlobs(rel, n.children) else [])
  }

  /** The entries of one listing, in order. */
  function Listing(rel: seq<string>, exec: bool, cs: seq<Entry>): seq<GlobEntry> {
    seq(|cs|, k requires 0 <= k < |cs| => GlobEntry(rel + [cs[k].name], cs[k].name, cs[k].node, exec))
  }

  /** The recursion into every real subdirectory; a link to a directory is not entered. */
  function SubGlobs(rel: seq<string>, cs: seq<Entry>): seq<GlobEntry>
    decreases cs, 0
  {
    if cs == [] then []
    else (if cs[0].node.Dir? then RGlob(rel + [cs[0].name], cs[0].node) else []) + SubGlobs(rel, cs[1..])
  }

  predicate AllReachable(es: seq<GlobEntry>) {
    forall k :: 0 <= k < |es| ==> es[k].reachable
  }

  /** Every directory in n can be listed and searched. */
  predicate Open(n: Node)
    decreases n
  {
    n.Dir? ==> n.perm.read && n.perm.exec && forall k :: 0 <= k < |n.children| ==> Open(n.children[k].node)
  }

  /** t leads from n through real directories to an entry. */
  predicate Below(n: Node, t: seq<string>)
    decreases |t|
  {
    t != [] && n.Dir? && Child(n.children, t[0]).Some? &&
    (|t| > 1 ==> Child(n.children, t[0]).value.Dir? && Below(Child(n.children, t[0]).value, t[1..]))
  }

  // ---------------------------------------------------------------------------
  // get_dir_size

  /** The size entry.stat() reports for a regular file, links followed. */
  function FileBytes(n: Node): nat {
    if StatOf(n).RegularFile? then StatOf(n).size else 0
  }

  /** The sum get_dir_size accumulates over the entries es: the regular files, until the
      first entry whose is_file() raises; the enclosing try ends the loop there. */
  function GlobBytes(es: seq<GlobEntry>): nat
    decreases |es|
  {
    if es == [] || !es[0].reachable then 0
    else FileBytes(es[0].node) + GlobBytes(es[1..])
  }

  /** get_dir_size(path) for the entry os.lstat finds at path. What a symbolic link to a
      directory leads to is not part of the tree, so such a link holds nothing. */
  function DirSize(n: Node): nat {
    GlobBytes(RGlob([], n))
  }

  method GetDirSize(n: Node) returns (total: nat)
    ensures total == DirSize(n)
  {
    var es := RGlob([], n);
    total := 0;
    var i := 0;
    while i < |es|
      invariant 0 <= i <= |es|
      invariant total + GlobBytes(es[i..]) == GlobBytes(es)
    {
      if !es[i].reachable {
        assert es[i..][0] == es[i];
        break;
      }
      assert es[i..][0] == es[i] && es[i..][1..] == es[i + 1..];
      total := total + FileBytes(es[i].node);
      i := i + 1;
    }
  }

  /** The bytes of the regular files anywhere below n, by the structure of the tree. */
  function TreeBytes(n: Node): nat
    decreases n, 1
  {
    if n.Dir? then ShallowBytes(n.children) + DeepBytes(n.children) else 0
  }

  function ShallowBytes(cs: seq<Entry>): nat
    decreases |cs|
  {
    if cs == [] then 0 else FileBytes(cs[0].node) + ShallowBytes(cs[1..])
  }

  function DeepBytes(cs: seq<Entry>): nat
    decreases cs, 0
  {
    if cs == [] then 0 else TreeBytes(cs[0].node) + DeepBytes(cs[1..])
  }

  lemma {:induction false} GlobBytesAppend(a: seq<GlobEntry>, b: seq<GlobEntry>)
    requires AllReachable(a)
    ensures GlobBytes(a + b) == GlobBytes(a) + GlobBytes(b)
    decreases |a|
  {
    if a == [] {
      assert a + b == b;
    } else {
      assert (a + b)[0] == a[0] && (a + b)[1..] == a[1..] + b;
      GlobBytesAppend(a[1..], b);
    }
  }

  lemma {:induction false} ListingBytes(rel: seq<string>, cs: seq<Entry>)
    ensures AllReachable(Listing(rel, true, cs))
    ensures GlobBytes(Listing(rel, true, cs)) == ShallowBytes(cs)
    decreases |cs|
  {
    if cs != [] {
      assert Listing(rel, true, cs)[1..] == Listing(rel, true, cs[1..]);
      ListingBytes(rel, cs[1..]);
    }
  }

  /** In a tree whose directories can all be listed and searched, get_dir_size counts
      every regular file below the directory once. */
  lemma {:induction false} OpenDirSize(rel: seq<string>, n: Node)
    requires Open(n)
    ensures AllReachable(RGlob(rel, n))
    ensures GlobBytes(RGlob(rel, n)) == TreeBytes(n)
    decreases n, 1
  {
    if n.Dir? {
      ListingBytes(rel, n.children);
      OpenSubGlobs(rel, n.children);
      GlobBytesAppend(Listing(rel, true, n.children), SubGlobs(rel, n.children));
    }
  }

  lemma {:induction false} OpenSubGlobs(rel: seq<string>, cs: seq<Entry>)
    requires forall k :: 0 <= k < |cs| ==> Open(cs[k].node)
    ensures AllReachable(SubGlobs(rel, cs))
    ensures GlobBytes(SubGlobs(rel, cs)) == DeepBytes(cs)
    decreases cs, 0
  {
    if cs != [] {
      var first := if cs[0].node.Dir? then RGlob(rel + [cs[0].name], cs[0].node) else [];
      OpenDirSize(rel + [cs[0].name], cs[0].node);
      OpenSubGlobs(rel, cs[1..]);
      GlobBytesAppend(first, SubGlobs(rel, cs[1..]));
    }
  }

  /** The size get_dir_size reports for a directory is the reference count of its bytes. */
  lemma DirSizeIsTreeBytes(n: Node)
    requires Open(n)
    ensures DirSize(n) == TreeBytes(n)
  {
    OpenDirSize([], n);
  }

  lemma {:induction false} InSubGlobs(rel: seq<string>, cs: seq<Entry>, i: int, e: GlobEntry)
    requires 0 <= i < |cs| && cs[i].node.Dir? && e in RGlob(rel + [cs[i].name], cs[i].node)
    ensures e in SubGlobs(rel, cs)
    decreases |cs|
  {
    if i > 0 {
      assert cs[1..][i - 1] == cs[i];
      InSubGlobs(rel, cs[1..], i - 1, e);
    }
  }

  /** rglob('*') over an open tree yields every entry reached through real directories. */
  lemma {:induction false} InGlob(rel: seq<string>, n: Node, t: seq<string>)
    requires Open(n) && Below(n, t)
    ensures Lookup(n, t).Some?
    ensures GlobEntry(rel + t, t[|t| - 1], Lookup(n, t).value, true) in RGlob(rel, n)
    decreases |t|
  {
    var c := Child(n.children, t[0]).value;
    var i :| 0 <= i < |n.children| && n.children[i].name == t[0] && n.children[i].node == c;
    assert Lookup(n, t) == Lookup(c, t[1..]);
    if |t| == 1 {
      assert t == [t[0]] && t[1..] == [];
      assert Listing(rel, true, n.children)[i] == GlobEntry(rel + t, t[0], c, true);
    } else {
      assert Open(c);
      InGlob(rel + [t[0]], c, t[1..]);
      ShiftHead(rel, t);
      assert t[1..][|t[1..]| - 1] == t[|t| - 1];
      InSubGlobs(rel, n.children, i, GlobEntry(rel + t, t[|t| - 1], Lookup(n, t).value, true));
    }
  }

  // ---------------------------------------------------------------------------
  // PurePath.suffix

  /** The index of the last '.' in name, or -1 when there is none. */
  function LastDot(name: string): (i: int)
    ensures -1 <= i < |name|
    ensures i >= 0 ==> name[i] == '.'
    ensures forall k :: i < k < |name| ==> name[k] != '.'
    decreases |name|
  {
    if name == [] then -1
    else if name[|name| - 1] == '.' then |name| - 1
    else LastDot(name[..|name| - 1])
  }

  /** PurePath.suffix: from the last '.' on, unless that '.' begins or ends the name. */
  function Suffix(name: string): (r: string)
    ensures r != "" ==> |r| >= 2 && r[0] == '.' && '.' !in r[1..] && |r| < |name| && HasSuffix(name, r)
  {
    var i := LastDot(name);
    if 0 < i < |name| - 1 then name[i..] else ""
  }

  /** An extension ".w" with no other '.' is the suffix of exactly the names that end
      with it and have something before it. */
  lemma SuffixIs(name: string, ext: string)
    requires |ext| >= 2 && ext[0] == '.' && '.' !in ext[1..]
    ensures Suffix(name) == ext <==> HasSuffix(name, ext) && |ext| < |name|
  {
    if HasSuffix(name, ext) && |ext| < |name| {
      var i := |name| - |ext|;
      assert name[i..] == ext;
      assert name[i] == '.';
      forall k | i < k < |name| ensures name[k] != '.' {
        assert name[k] == ext[k - i] == ext[1..][k - i - 1];
      }
      assert LastDot(name) == i;
    }
  }

  lemma SuffixExamples()
    ensures Suffix("a.pyc") == ".pyc"
    ensures Suffix("a.tar.pyc") == ".pyc"
    ensures Suffix(".pyc") == ""
    ensures Suffix("a.") == ""
    ensures Suffix("pyc") == ""
  {
    assert LastDot("a.pyc") == 1 by { assert "a.pyc"[..4] == "a.py"; assert "a.py"[..3] == "a.p"; assert "a.p"[..2] == "a."; }
    assert LastDot("a.tar.pyc") == 5 by {
      assert "a.tar.pyc"[..8] == "a.tar.py"; assert "a.tar.py"[..7] == "a.tar.p"; assert "a.tar.p"[..6] == "a.tar.";
    }
    assert LastDot(".pyc") == 0 by { assert ".pyc"[..3] == ".py"; assert ".py"[..2] == ".p"; assert ".p"[..1] == "."; }
    assert LastDot("pyc") == -1 by { assert "pyc"[..2] == "py"; assert "py"[..1] == "p"; assert "p"[..0] == ""; }
  }

  // ---------------------------------------------------------------------------
  // find_cache_items

  /** The directories pass for one configured name: recorded when the entry exists, is a
      directory (links followed) and get_dir_size finds more than zero bytes in it. */
  function DirItemFor(path: string, project: Node, name: string): seq<CacheItem> {
    match LstatIn(project, name)
    case None => []
    case Some(e) =>
      if StatOf(e) == Directory && DirSize(e) > 0 then [CacheItem(Join(path, name), DirSize(e), DirectoryItem)] else []
  }

  function DirItems(path: string, project: Node, names: seq<string>): seq<CacheItem>
    decreases |names|
  {
    if names == [] then []
    else DirItems(path, project, names[..|names| - 1]) + DirItemFor(path, project, names[|names| - 1])
  }

  /** The files pass for one configured name: recorded when the entry is a regular file. */
  function FileItemFor(path: string, project: Node, name: string): seq<CacheItem> {
    match LstatIn(project, name)
    case None => []
    case Some(e) =>
      if StatOf(e).RegularFile? then [CacheItem(Join(path, name), StatOf(e).size, FileItem)] else []
  }

  function FileItems(path: string, project: Node, names: seq<string>): seq<CacheItem>
    decreases |names|
  {
    if names == [] then []
    else FileItems(path, project, names[..|names| - 1]) + FileItemFor(path, project, names[|names| - 1])
  }

  /** The item one entry of rglob('*') contributes: a regular file whose suffix is one
      of exts. */
  function ExtMatch(path: string, exts: seq<string>, e: GlobEntry): seq<CacheItem> {
    if StatOf(e.node).RegularFile? && Suffix(e.name) in exts
    then [CacheItem(PathOf(path, e.rel), StatOf(e.node).size, FileItem)] else []
  }

  /** The extensions pass over the entries es of rglob('*'), until the first entry whose
      is_file() raises. */
  function ExtItems(path: string, exts: seq<string>, es: seq<GlobEntry>): seq<CacheItem>
    decreases |es|
  {
    if es == [] || !es[0].reachable then []
    else ExtMatch(path, exts, es[0]) + ExtItems(path, exts, es[1..])
  }

  lemma ExtItemsFrom(path: string, exts: seq<string>, es: seq<GlobEntry>, j: int)
    requires 0 <= j < |es|
    ensures !es[j].reachable ==> ExtItems(path, exts, es[j..]) == []
    ensures es[j].reachable ==>
      ExtItems(path, exts, es[j..]) == ExtMatch(path, exts, es[j]) + ExtItems(path, exts, es[j + 1..])
  {
    assert es[j..][0] == es[j] && es[j..][1..] == es[j + 1..];
  }

  /** find_cache_items(project_path, config) for the project directory n. */
  function CacheItemsIn(path: string, config: CacheConfig, n: Node): seq<CacheItem> {
    DirItems(path, n, config.directories) + FileItems(path, n, config.files) +
    (if config.extensions != [] then ExtItems(path, config.extensions, RGlob([], n)) else [])
  }

  method FindCacheItems(path: string, config: CacheConfig, n: Node) returns (items: seq<CacheItem>)
    ensures items == CacheItemsIn(path, config, n)
  {
    items := DirectoriesPass(path, config.directories, n);
    var found := FilesPass(path, config.files, n);
    items := items + found;
    if config.extensions != [] {
      var matched := ExtensionsPass(path, config.extensions, RGlob([], n));
      items := items + matched;
    }
  }

  lemma DirItemsSnoc(path: string, n: Node, dirs: seq<string>, i: int)
    requires 0 <= i < |dirs|
    ensures DirItems(path, n, dirs[..i + 1]) == DirItems(path, n, dirs[..i]) + DirItemFor(path, n, dirs[i])
  {
    assert dirs[..i + 1][..i] == dirs[..i];
  }

  /** The loop over config.directories. */
  method DirectoriesPass(path: string, dirs: seq<string>, n: Node) returns (items: seq<CacheItem>)
    ensures items == DirItems(path, n, dirs)
  {
    items := [];
    for i := 0 to |dirs|
      invariant items == DirItems(path, n, dirs[..i])
    {
      DirItemsSnoc(path, n, dirs, i);
      ghost var found := DirItemFor(path, n, dirs[i]);
      var e := LstatIn(n, dirs[i]);
      if e.Some? && StatOf(e.value) == Directory {
        var size := GetDirSize(e.value);
        if size > 0 {
          assert found == [CacheItem(Join(path, dirs[i]), size, DirectoryItem)];
          items := items + [CacheItem(Join(path, dirs[i]), size, DirectoryItem)];
        } else {
          assert found == [];
        }
      } else {
        assert found == [];
      }
    }
    assert dirs[..|dirs|] == dirs;
  }

  /** The loop over config.files. */
  method FilesPass(path: string, files: seq<string>, n: Node) returns (items: seq<CacheItem>)
    ensures items == FileItems(path, n, files)
  {
    items := [];
    for i := 0 to |files|
      invariant items == FileItems(path, n, files[..i])
    {
      assert files[..i + 1][..i] == files[..i];
      var e := LstatIn(n, files[i]);
      if e.Some? && StatOf(e.value).RegularFile? {
        items := items + [CacheItem(Join(path, files[i]), StatOf(e.value).size, FileItem)];
      }
    }
    assert files[..|files|] == files;
  }

  /** The loop over the entries es of project_path.rglob('*'), inside its try. */
  method ExtensionsPass(path: string, exts: seq<string>, es: seq<GlobEntry>) returns (items: seq<CacheItem>)
    ensures items == ExtItems(path, exts, es)
  {
    items := [];
    var j := 0;
    while j < |es|
      invariant 0 <= j <= |es|
      invariant items + ExtItems(path, exts, es[j..]) == ExtItems(path, exts, es)
    {
      ExtItemsFrom(path, exts, es, j);
      if !es[j].reachable {
        break;
      }
      var m := ExtMatch(path, exts, es[j]);
      assert (items + m) + ExtItems(path, exts, es[j + 1..]) == items + (m + ExtItems(path, exts, es[j + 1..]));
      items := items + m;
      j := j + 1;
    }
  }

  // ---------------------------------------------------------------------------
  // Properties

  /** it is what the directories pass records for name. */
  predicate RecordedDir(path: string, n: Node, name: string, it: CacheItem) {
    var e := LstatIn(n, name);
    e.Some? && StatOf(e.value) == Directory && DirSize(e.value) > 0 &&
    it == CacheItem(Join(path, name), DirSize(e.value), DirectoryItem)
  }

  /** it is what the files pass records for name. */
  predicate RecordedFile(path: string, n: Node, name: string, it: CacheItem) {
    var e := LstatIn(n, name);
    e.Some? && StatOf(e.value).RegularFile? &&
    it == CacheItem(Join(path, name), StatOf(e.value).size, FileItem)
  }

  /** The directories pass records exactly the configured names that are directories,
      links followed, directly inside the project and hold more than zero bytes. */
  lemma DirItemsExactly(path: string, n: Node, names: seq<string>, it: CacheItem)
    ensures it in DirItems(path, n, names) <==> exists j :: 0 <= j < |names| && RecordedDir(path, n, names[j], it)
  {
    if it in DirItems(path, n, names) {
      var j := DirItemsSound(path, n, names, it);
    }
    if exists j :: 0 <= j < |names| && RecordedDir(path, n, names[j], it) {
      var j :| 0 <= j < |names| && RecordedDir(path, n, names[j], it);
      DirItemsComplete(path, n, names, it, j);
    }
  }

  lemma {:induction false} DirItemsSound(path: string, n: Node, names: seq<string>, it: CacheItem) returns (j: int)
    requires it in DirItems(path, n, names)
    ensures 0 <= j < |names| && RecordedDir(path, n, names[j], it)
    decreases |names|
  {
    var init := names[..|names| - 1];
    if it in DirItems(path, n, init) {
      j := DirItemsSound(path, n, init, it);
      assert init[j] == names[j];
    } else {
      j := |names| - 1;
    }
  }

  lemma {:induction false} DirItemsComplete(path: string, n: Node, names: seq<string>, it: CacheItem, j: int)
    requires 0 <= j < |names| && RecordedDir(path, n, names[j], it)
    ensures it in DirItems(path, n, names)
    decreases |names|
  {
    var init := names[..|names| - 1];
    assert DirItems(path, n, names) == DirItems(path, n, init) + DirItemFor(path, n, names[|names| - 1]);
    if j < |names| - 1 {
      assert init[j] == names[j];
      DirItemsComplete(path, n, init, it, j);
    } else {
      RecordedDirItem(path, n, names[j], it);
    }
  }

  lemma RecordedDirItem(path: string, n: Node, name: string, it: CacheItem)
    requires RecordedDir(path, n, name, it)
    ensures DirItemFor(path, n, name) == [it]
  {
  }

  /** The files pass records exactly the configured names that are regular files, links
      followed, directly inside the project. */
  lemma FileItemsExactly(path: string, n: Node, names: seq<string>, it: CacheItem)
    ensures it in FileItems(path, n, names) <==> exists j :: 0 <= j < |names| && RecordedFile(path, n, names[j], it)
  {
    if it in FileItems(path, n, names) {
      var j := FileItemsSound(path, n, names, it);
    }
    if exists j :: 0 <= j < |names| && RecordedFile(path, n, names[j], it) {
      var j :| 0 <= j < |names| && RecordedFile(path, n, names[j], it);
      FileItemsComplete(path, n, names, it, j);
    }
  }

  lemma {:induction false} FileItemsSound(path: string, n: Node, names: seq<string>, it: CacheItem) returns (j: int)
    requires it in FileItems(path, n, names)
    ensures 0 <= j < |names| && RecordedFile(path, n, names[j], it)
    decreases |names|
  {
    var init := names[..|names| - 1];
    if it in FileItems(path, n, init) {
      j := FileItemsSound(path, n, init, it);
      assert init[j] == names[j];
    } else {
      j := |names| - 1;
    }
  }

  lemma {:induction false} FileItemsComplete(path: string, n: Node, names: seq<string>, it: CacheItem, j: int)
    requires 0 <= j < |names| && RecordedFile(path, n, names[j], it)
    ensures it in FileItems(path, n, names)
    decreases |names|
  {
    var init := names[..|names| - 1];
    assert FileItems(path, n, names) == FileItems(path, n, init) + FileItemFor(path, n, names[|names| - 1]);
    if j < |names| - 1 {
      assert init[j] == names[j];
      FileItemsComplete(path, n, init, it, j);
    } else {
      RecordedFileItem(path, n, names[j], it);
    }
  }

  lemma RecordedFileItem(path: string, n: Node, name: string, it: CacheItem)
    requires RecordedFile(path, n, name, it)
    ensures FileItemFor(path, n, name) == [it]
  {
  }

  /** Every item of the extensions pass is a regular file rglob('*') yields whose suffix
      is one of the extensions. */
  lemma {:induction false} ExtItemsSound(path: string, exts: seq<string>, es: seq<GlobEntry>, it: CacheItem)
    requires it in ExtItems(path, exts, es)
    ensures exists k :: 0 <= k < |es| && es[k].reachable && StatOf(es[k].node).RegularFile? &&
                        Suffix(es[k].name) in exts &&
                        it == CacheItem(PathOf(path, es[k].rel), StatOf(es[k].node).size, FileItem)
    decreases |es|
  {
    var e := es[0];
    if it !in ExtMatch(path, exts, e) {
      ExtItemsSound(path, exts, es[1..], it);
      var k :| 0 <= k < |es[1..]| && es[1..][k].reachable && StatOf(es[1..][k].node).RegularFile? &&
        Suffix(es[1..][k].name) in exts && it == CacheItem(PathOf(path, es[1..][k].rel), StatOf(es[1..][k].node).size, FileItem);
      assert es[k + 1] == es[1..][k];
    }
  }

  lemma {:induction false} ExtItemsComplete(path: string, exts: seq<string>, es: seq<GlobEntry>, e: GlobEntry)
    requires AllReachable(es) && e in es && StatOf(e.node).RegularFile? && Suffix(e.name) in exts
    ensures CacheItem(PathOf(path, e.rel), StatOf(e.node).size, FileItem) in ExtItems(path, exts, es)
    decreases |es|
  {
    if es[0] != e {
      assert e in es[1..];
      ExtItemsComplete(path, exts, es[1..], e);
    }
  }

  /** In an open project, the extensions pass finds every regular file at any depth whose
      suffix is listed, inside a recorded cache directory or not. */
  lemma ExtensionFound(path: string, config: CacheConfig, n: Node, t: seq<string>)
    requires Open(n) && Below(n, t) && config.extensions != []
    requires Lookup(n, t).Some? && StatOf(Lookup(n, t).value).RegularFile?
    requires Suffix(t[|t| - 1]) in config.extensions
    ensures CacheItem(PathOf(path, t), StatOf(Lookup(n, t).value).size, FileItem) in CacheItemsIn(path, config, n)
  {
    InGlob([], n, t);
    OpenDirSize([], n);
    assert [] + t == t;
    ExtItemsComplete(path, config.extensions, RGlob([], n), GlobEntry(t, t[|t| - 1], Lookup(n, t).value, true));
  }
}

=== FILE: pyremover.dfy ===
/** cache_remover.py, the second implementation of the engine. It shares the project
    rules' shape and the classifier with the Go program but differs elsewhere: discovery
    skips dot-names and does not stop at cache directories, cache items are direct
    children found without deduplication, the extension pass looks at the final suffix
    only, removal counts only paths that still exist, and a dry run reports nothing
    removed. Python integers are unbounded, so no sum wraps. */
module PyRemover {
  import opened Wrappers
  import opened Paths
  import opened FsTree
  import opened Rules
  import opened CacheItems
  import opened Cleanup
  import Discovery
  import Configs

  /** PROJECT_TYPES: the first six built-in Go rules. */
  const PythonTypes: seq<ProjectType> := [
    ProjectType("Node.js", ["package.json", "yarn.lock", "package-lock.json"],
                CacheConfig(["node_modules", "dist", "build", ".next", ".nuxt", "coverage"], [], [])),
    ProjectType("Python", ["requirements.txt", "setup.py", "pyproject.toml", "Pipfile"],
                CacheConfig(["__pycache__", ".pytest_cache", "dist", "build", ".mypy_cache", ".tox", "venv", ".venv"],
                            [], [".pyc", ".pyo"])),
    ProjectType("Java/Maven", ["pom.xml"], CacheConfig(["target"], [], [])),
    ProjectType("Gradle", ["build.gradle", "build.gradle.kts"], CacheConfig(["build", ".gradle"], [], [])),
    ProjectType("Go", ["go.mod", "go.sum"], CacheConfig(["vendor"], [], [])),
    ProjectType("Rust", ["Cargo.toml"], CacheConfig(["target"], [], []))
  ]

  /** The Python rule set is the Go built-in rule set without its last three rules
      (Angular, Flutter, Swift/iOS). */
  lemma PythonTypesAreGoDefaults()
    ensures PythonTypes == Configs.DefaultConfig().projectTypes[..6]
    ensures |Configs.DefaultConfig().projectTypes| == |PythonTypes| + 3
  {
  }

  // ---------------------------------------------------------------------------
  // find_projects

  /** A name scan_directory does not descend into. */
  predicate DotName(name: string) {
    |name| > 0 && name[0] == '.'
  }

  /** scan_directory(path, depth) for the directory reached through rel, depth |rel|:
      nothing below max_depth; a directory that cannot be searched raises on its first
      indicator check and ends there; one that cannot be listed is still classified. */
  function Scan(isProject: Node -> bool, maxDepth: int, rel: seq<string>, n: Node): seq<seq<string>>
    decreases n, 1
  {
    if |rel| > maxDepth || !(n.Dir? && n.perm.exec) then []
    else
      (if isProject(n) then [rel] else []) +
      (if n.perm.read then ScanIn(isProject, maxDepth, rel, n.children) else [])
  }

  /** The loop over iterdir(): every subdirectory whose name does not start with '.'. */
  function ScanIn(isProject: Node -> bool, maxDepth: int, rel: seq<string>, cs: seq<Entry>): seq<seq<string>>
    decreases cs, 0
  {
    if cs == [] then []
    else
      (if cs[0].node.Dir? && !DotName(cs[0].name) then Scan(isProject, maxDepth, rel + [cs[0].name], cs[0].node) else []) +
      ScanIn(isProject, maxDepth, rel, cs[1..])
  }

  /** is_project_directory over PROJECT_TYPES. */
  function IsPythonProject(n: Node): bool {
    IsProjectDirectory(PythonTypes, n)
  }

  /** The paths find_projects(root_dir, max_depth) returns, in the order it appends them. */
  function FoundProjects(root: string, maxDepth: int, n: Node): seq<string> {
    Discovery.PathsOf(root, Scan(IsPythonProject, maxDepth, [], n))
  }

  lemma {:induction false} ScanInSnoc(isProject: Node -> bool, maxDepth: int, rel: seq<string>, cs: seq<Entry>, c: Entry)
    ensures ScanIn(isProject, maxDepth, rel, cs + [c]) ==
      ScanIn(isProject, maxDepth, rel, cs) +
      (if c.node.Dir? && !DotName(c.name) then Scan(isProject, maxDepth, rel + [c.name], c.node) else [])
    decreases |cs|
  {
    if cs == [] {
      assert [c][1..] == [];
    } else {
      assert (cs + [c])[0] == cs[0] && (cs + [c])[1..] == cs[1..] + [c];
      ScanInSnoc(isProject, maxDepth, rel, cs[1..], c);
      var head := if cs[0].node.Dir? && !DotName(cs[0].name) then Scan(isProject, maxDepth, rel + [cs[0].name], cs[0].node) else [];
      var last := if c.node.Dir? && !DotName(c.name) then Scan(isProject, maxDepth, rel + [c.name], c.node) else [];
      AppendAssoc(head, ScanIn(isProject, maxDepth, rel, cs[1..]), last);
    }
  }

  /** scan_directory(current_path, depth): projects is the enclosing list, and the
      result is that list after the call has appended to it. */
  method ScanDirectory(isProject: Node -> bool, maxDepth: int, rel: seq<string>, n: Node,
                       projects: seq<seq<string>>) returns (r: seq<seq<string>>)
    ensures r == projects + Scan(isProject, maxDepth, rel, n)
    decreases n
  {
    r := projects;
    if |rel| > maxDepth || !(n.Dir? && n.perm.exec) {
      return;
    }
    var here: seq<seq<string>> := if isProject(n) then [rel] else [];
    r := r + here;
    if n.perm.read {
      ghost var base := r;
      var i := 0;
      while i < |n.children|
        invariant 0 <= i <= |n.children|
        invariant r == base + ScanIn(isProject, maxDepth, rel, n.children[..i])
      {
        var c := n.children[i];
        ghost var done := ScanIn(isProject, maxDepth, rel, n.children[..i]);
        ScanInSnoc(isProject, maxDepth, rel, n.children[..i], c);
        assert n.children[..i + 1] == n.children[..i] + [c];
        if c.node.Dir? && !DotName(c.name) {
          AppendAssoc(base, done, Scan(isProject, maxDepth, rel + [c.name], c.node));
          r := ScanDirectory(isProject, maxDepth, rel + [c.name], c.node, r);
        } else {
          assert done + [] == done;
        }
        i := i + 1;
      }
      assert n.children[..i] == n.children;
      AppendAssoc(projects, here, ScanIn(isProject, maxDepth, rel, n.children));
    } else {
      assert here + [] == here;
    }
  }

  /** find_projects(root_dir, max_depth, verbose) for the entry found at root_dir. */
  method FindProjects(root: string, maxDepth: int, n: Node) returns (projects: seq<string>)
    ensures projects == FoundProjects(root, maxDepth, n)
  {
    var rels := ScanDirectory(IsPythonProject, maxDepth, [], n, []);
    projects := [];
    for k := 0 to |rels|
      invariant projects == Discovery.PathsOf(root, rels[..k])
    {
      Discovery.PathsOfSnoc(root, rels, k);
      projects := projects + [PathOf(root, rels[k])];
    }
    assert rels[..|rels|] == rels;
  }

  /** The directory reached through t from n is within max_depth, and every directory on
      the way can be searched and listed and has a name not starting with '.'. */
  predicate ScanReaches(maxDepth: int, rel: seq<string>, n: Node, t: seq<string>)
    decreases |t|
  {
    |rel| <= maxDepth && n.Dir? && n.perm.exec &&
    (t != [] ==>
      n.perm.read && !DotName(t[0]) && Child(n.children, t[0]).Some? && Child(n.children, t[0]).value.Dir? &&
      ScanReaches(maxDepth, rel + [t[0]], Child(n.children, t[0]).value, t[1..]))
  }

  predicate ScanFinds(isProject: Node -> bool, maxDepth: int, rel: seq<string>, n: Node, t: seq<string>) {
    ScanReaches(maxDepth, rel, n, t) && Lookup(n, t).Some? && isProject(Lookup(n, t).value)
  }

  lemma {:induction false} InScanIn(isProject: Node -> bool, maxDepth: int, rel: seq<string>, cs: seq<Entry>, i: int, r: seq<string>)
    requires 0 <= i < |cs| && cs[i].node.Dir? && !DotName(cs[i].name)
    requires r in Scan(isProject, maxDepth, rel + [cs[i].name], cs[i].node)
    ensures r in ScanIn(isProject, maxDepth, rel, cs)
    decreases |cs|
  {
    if i > 0 {
      assert cs[1..][i - 1] == cs[i];
      InScanIn(isProject, maxDepth, rel, cs[1..], i - 1, r);
    }
  }

  lemma {:induction false} FromScanIn(isProject: Node -> bool, maxDepth: int, rel: seq<string>, cs: seq<Entry>, r: seq<string>) returns (i: int)
    requires r in ScanIn(isProject, maxDepth, rel, cs)
    ensures 0 <= i < |cs| && cs[i].node.Dir? && !DotName(cs[i].name)
    ensures r in Scan(isProject, maxDepth, rel + [cs[i].name], cs[i].node)
    decreases |cs|
  {
    var head := if cs[0].node.Dir? && !DotName(cs[0].name) then Scan(isProject, maxDepth, rel + [cs[0].name], cs[0].node) else [];
    assert ScanIn(isProject, maxDepth, rel, cs) == head + ScanIn(isProject, maxDepth, rel, cs[1..]);
    if cs[0].node.Dir? && !DotName(cs[0].name) && r in Scan(isProject, maxDepth, rel + [cs[0].name], cs[0].node) {
      i := 0;
    } else {
      assert r !in head;
      assert r in ScanIn(isProject, maxDepth, rel, cs[1..]);
      var j := FromScanIn(isProject, maxDepth, rel, cs[1..], r);
      assert cs[1..][j] == cs[j + 1];
      i := j + 1;
    }
  }

  /** One step down through a listed, non-dot subdirectory. */
  lemma ReachesThroughChild(maxDepth: int, rel: seq<string>, n: Node, i: int, t: seq<string>)
    requires Wf(n) && n.Dir? && n.perm.exec && n.perm.read && |rel| <= maxDepth
    requires 0 <= i < |n.children| && n.children[i].node.Dir? && !DotName(n.children[i].name)
    requires ScanReaches(maxDepth, rel + [n.children[i].name], n.children[i].node, t)
    ensures ScanReaches(maxDepth, rel, n, [n.children[i].name] + t)
    ensures Lookup(n, [n.children[i].name] + t) == Lookup(n.children[i].node, t)
  {
    Discovery.ChildOfDistinct(n, i);
    var u := [n.children[i].name] + t;
    assert u[0] == n.children[i].name && u[1..] == t;
  }

  lemma SoundStep(isProject: Node -> bool, maxDepth: int, rel: seq<string>, n: Node, i: int, r: seq<string>)
    requires Wf(n) && n.Dir? && n.perm.exec && n.perm.read && |rel| <= maxDepth
    requires 0 <= i < |n.children| && n.children[i].node.Dir? && !DotName(n.children[i].name)
    requires |rel| + 1 <= |r| && r[..|rel| + 1] == rel + [n.children[i].name]
    requires ScanFinds(isProject, maxDepth, rel + [n.children[i].name], n.children[i].node, r[|rel| + 1..])
    ensures |rel| <= |r| && r[..|rel|] == rel && ScanFinds(isProject, maxDepth, rel, n, r[|rel|..])
  {
    var c := n.children[i];
    var t := r[|rel| + 1..];
    assert r[..|rel|] == r[..|rel| + 1][..|rel|] == rel;
    assert r[|rel|] == r[..|rel| + 1][|rel|] == c.name;
    assert r[|rel|..] == [c.name] + t;
    ReachesThroughChild(maxDepth, rel, n, i, t);
  }

  /** Everything scan_directory appends is a project directory within max_depth reached
      through searchable, listable directories without a dot-name. */
  lemma {:induction false} ScanSound(isProject: Node -> bool, maxDepth: int, rel: seq<string>, n: Node, r: seq<string>)
    requires Wf(n) && r in Scan(isProject, maxDepth, rel, n)
    ensures |rel| <= |r| && r[..|rel|] == rel && ScanFinds(isProject, maxDepth, rel, n, r[|rel|..])
    decreases n, 1
  {
    if isProject(n) && r == rel {
      assert r[|rel|..] == [] && r[..|rel|] == rel;
      assert ScanReaches(maxDepth, rel, n, []);
    } else {
      assert n.perm.read && r in ScanIn(isProject, maxDepth, rel, n.children);
      var i := FromScanIn(isProject, maxDepth, rel, n.children, r);
      ChildWf(n, i);
      ScanSound(isProject, maxDepth, rel + [n.children[i].name], n.children[i].node, r);
      SoundStep(isProject, maxDepth, rel, n, i, r);
    }
  }

  /** Every such project directory is appended: reaching a project or a cache-named
      directory does not stop the scan, and a directory that raises ends only its own
      subtree. */
  lemma {:induction false} ScanComplete(isProject: Node -> bool, maxDepth: int, rel: seq<string>, n: Node, t: seq<string>)
    requires ScanFinds(isProject, maxDepth, rel, n, t)
    ensures rel + t in Scan(isProject, maxDepth, rel, n)
    decreases |t|
  {
    if t == [] {
      assert rel + t == rel;
    } else {
      var c := Child(n.children, t[0]).value;
      var i :| 0 <= i < |n.children| && n.children[i].name == t[0] && n.children[i].node == c;
      ScanComplete(isProject, maxDepth, rel + [t[0]], c, t[1..]);
      ShiftHead(rel, t);
      InScanIn(isProject, maxDepth, rel, n.children, i, rel + t);
    }
  }

  /** No directory deeper than max_depth and no name starting with '.' is on the way to
      any project found. */
  lemma {:induction false} ScanBounds(maxDepth: int, rel: seq<string>, n: Node, t: seq<string>)
    requires ScanReaches(maxDepth, rel, n, t)
    ensures |rel| + |t| <= maxDepth
    ensures forall k :: 0 <= k < |t| ==> !DotName(t[k])
    decreases |t|
  {
    if t != [] {
      ScanBounds(maxDepth, rel + [t[0]], Child(n.children, t[0]).value, t[1..]);
      assert forall k :: 1 <= k < |t| ==> t[k] == t[1..][k - 1];
    }
  }

  /** A directory find_projects reports always has a detected type: is_project_directory
      and detect_project_type test the same indicators. */
  lemma FoundHaveType(maxDepth: int, n: Node, r: seq<string>)
    requires Wf(n) && r in Scan(IsPythonProject, maxDepth, [], n)
    ensures Lookup(n, r).Some? && DetectProjectType(PythonTypes, Lookup(n, r).value).Some?
  {
    ScanSound(IsPythonProject, maxDepth, [], n, r);
    assert r[0..] == r;
    assert IsPythonProject(Lookup(n, r).value);
  }
}

=== FILE: pytotals.dfy ===
/** The totals main() in cache_remover.py accumulates from the (items_removed,
    size_removed) pairs its futures return. Python integers are unbounded. */
module PyTotals {
  import opened Wrappers

  datatype Tally = Tally(items: int, size: int)

  /** What one future adds: nothing when process_project raised. */
  function Added(r: Option<Tally>): Tally {
    if r.Some? then r.value else Tally(0, 0)
  }

  function Plus(a: Tally, b: Tally): Tally {
    Tally(a.items + b.items, a.size + b.size)
  }

  /** The sums main accumulates over the results of the futures, taken in order. */
  function Tallied(rs: seq<Option<Tally>>): Tally
    decreases |rs|
  {
    if rs == [] then Tally(0, 0) else Plus(Tallied(rs[..|rs| - 1]), Added(rs[|rs| - 1]))
  }

  lemma {:induction false} TalliedAppend(a: seq<Option<Tally>>, b: seq<Option<Tally>>)
    ensures Tallied(a + b).items == Tallied(a).items + Tallied(b).items
    ensures Tallied(a + b).size == Tallied(a).size + Tallied(b).size
    decreases |b|
  {
    if b == [] {
      assert a + b == a;
    } else {
      var init := b[..|b| - 1];
      assert (a + b)[..|a + b| - 1] == a + init;
      assert (a + b)[|a + b| - 1] == b[|b| - 1];
      TalliedAppend(a, init);
    }
  }

  /** One more result taken in adds what it brings. */
  lemma TalliedSnoc(rs: seq<Option<Tally>>, k: int)
    requires 0 <= k < |rs|
    ensures Tallied(rs[..k + 1]).items == Tallied(rs[..k]).items + Added(rs[k]).items
    ensures Tallied(rs[..k + 1]).size == Tallied(rs[..k]).size + Added(rs[k]).size
  {
    assert rs[..k + 1][..k] == rs[..k];
  }

  lemma MultisetWithout<T>(a: seq<T>, b: seq<T>, j: int)
    requires multiset(a) == multiset(b) && a != [] && 0 <= j < |b| && b[j] == a[|a| - 1]
    ensures multiset(b[..j] + b[j + 1..]) == multiset(a[..|a| - 1])
  {
    var init, x := a[..|a| - 1], a[|a| - 1];
    assert a == init + [x];
    assert b == b[..j] + [x] + b[j + 1..];
    forall y ensures multiset(b[..j] + b[j + 1..])[y] == multiset(init)[y] {
      assert multiset(b)[y] == multiset(b[..j])[y] + multiset([x])[y] + multiset(b[j + 1..])[y];
      assert multiset(a)[y] == multiset(init)[y] + multiset([x])[y];
    }
  }

  lemma TalliedWithoutAt(b: seq<Option<Tally>>, j: int)
    requires 0 <= j < |b|
    ensures Tallied(b).items == Tallied(b[..j] + b[j + 1..]).items + Added(b[j]).items
    ensures Tallied(b).size == Tallied(b[..j] + b[j + 1..]).size + Added(b[j]).size
  {
    SplitAt(b, j + 1);
    TalliedAppend(b[..j + 1], b[j + 1..]);
    TalliedSnoc(b, j);
    TalliedAppend(b[..j], b[j + 1..]);
  }

  lemma SplitAt<T>(s: seq<T>, i: int)
    requires 0 <= i <= |s|
    ensures s[..i] + s[i..] == s
  {
  }

  lemma AnyOrderStep(a: seq<Option<Tally>>, b: seq<Option<Tally>>, j: int)
    requires a != [] && 0 <= j < |b| && b[j] == a[|a| - 1]
    requires Tallied(a[..|a| - 1]) == Tallied(b[..j] + b[j + 1..])
    ensures Tallied(a) == Tallied(b)
  {
    TalliedWithoutAt(b, j);
  }

  /** as_completed hands the results over in any order; the totals are the same for
      every order. */
  lemma {:induction false} TalliedAnyOrder(a: seq<Option<Tally>>, b: seq<Option<Tally>>)
    requires multiset(a) == multiset(b)
    ensures Tallied(a) == Tallied(b)
    decreases |a|
  {
    if a == [] {
      assert |b| == |multiset(b)| == 0;
    } else {
      var x := a[|a| - 1];
      assert x in multiset(b) by {
        assert x in a;
      }
      var j :| 0 <= j < |b| && b[j] == x;
      MultisetWithout(a, b, j);
      TalliedAnyOrder(a[..|a| - 1], b[..j] + b[j + 1..]);
      AnyOrderStep(a, b, j);
    }
  }
}

=== FILE: removal.dfy ===
/** forceRemoveCacheDirectory (main.go): removing one cache item with up to four
    strategies, tried in order until one succeeds. The entry being removed is a tree; the
    outcomes of os.RemoveAll and of `rm -rf` are inputs, while os.Remove, os.Stat and
    os.Chmod act on the tree. */
module Removal {
  import opened Wrappers
  import opened Paths
  import opened FsTree

  // ---------------------------------------------------------------------------
  // os.Stat and os.Remove inside the entry being removed

  /** os.Stat(path) succeeds: the entry exists and, when it is a link, so does its target. */
  predicate Exists(t: Option<Node>) {
    t.Some? && StatOf(t.value) != Missing
  }

  /** What os.Stat reports for the entry reached from n through rel, when each directory
      on the way can be searched. */
  function StatAt(n: Node, rel: seq<string>): Option<Target>
    decreases |rel|
  {
    if rel == [] then Some(StatOf(n))
    else if !n.Dir? || !n.perm.exec then None
    else match Child(n.children, rel[0])
      case None => None
      case Some(c) => StatAt(c, rel[1..])
  }

  /** os.Stat on the entry reached through rel succeeds. */
  predicate ExistsAt(t: Option<Node>, rel: seq<string>) {
    t.Some? && StatAt(t.value, rel).Some? && StatAt(t.value, rel).value != Missing
  }

  function IndexOf(cs: seq<Entry>, name: string): (i: int)
    ensures -1 <= i < |cs|
    ensures i >= 0 ==> cs[i].name == name
    ensures i < 0 ==> forall k :: 0 <= k < |cs| ==> cs[k].name != name
    decreases |cs|
  {
    if cs == [] then -1
    else if cs[0].name == name then 0
    else
      var j := IndexOf(cs[1..], name);
      assert forall k :: 1 <= k < |cs| ==> cs[k] == cs[1..][k - 1];
      if j < 0 then -1 else j + 1
  }

  /** cs with the entry at i given the node o, or without it when o is None. */
  function Put(cs: seq<Entry>, i: int, o: Option<Node>): seq<Entry>
    requires 0 <= i < |cs|
  {
    if o.None? then cs[..i] + cs[i + 1..] else cs[i := Entry(cs[i].name, o.value)]
  }

  /** os.Remove of the entry reached from n through rel: it must be a file, a link or an
      empty directory, every directory on the way must be searchable and the one holding
      it writable; parentOk says whether the directory holding n itself is. None when n
      itself is removed. */
  function RemoveAt(n: Node, rel: seq<string>, parentOk: bool): Option<Node>
    decreases |rel|
  {
    if rel == [] then (if parentOk && (!n.Dir? || n.children == []) then None else Some(n))
    else if !n.Dir? || !n.perm.exec then Some(n)
    else
      var i := IndexOf(n.children, rel[0]);
      if i < 0 then Some(n)
      else Some(Dir(n.perm, Put(n.children, i, RemoveAt(n.children[i].node, rel[1..], n.perm.write))))
  }

  /** One step of the reverse loop: os.Stat, then os.Remove when the entry is there. */
  function RemoveIfExists(t: Option<Node>, rel: seq<string>, parentOk: bool): Option<Node> {
    if ExistsAt(t, rel) then RemoveAt(t.value, rel, parentOk) else t
  }

  /** The reverse loop: the entries of ps from the last to the first. */
  function RemoveDown(t: Option<Node>, ps: seq<seq<string>>, parentOk: bool): Option<Node>
    decreases |ps|
  {
    if ps == [] then t
    else RemoveDown(RemoveIfExists(t, ps[|ps| - 1], parentOk), ps[..|ps| - 1], parentOk)
  }

  /** The reverse loop after one more step: the last of the first i + 1 entries goes first. */
  lemma RemoveDownStep(t: Option<Node>, ps: seq<seq<string>>, i: int, parentOk: bool)
    requires 0 <= i < |ps|
    ensures RemoveDown(t, ps[..i + 1], parentOk) == RemoveDown(RemoveIfExists(t, ps[i], parentOk), ps[..i], parentOk)
  {
    assert ps[..i + 1][..i] == ps[..i];
  }

  // ---------------------------------------------------------------------------
  // forceRemoveRecursive

  /** The first pass of forceRemoveRecursive when os.Chmod succeeds: each directory the
      walk can list gains write and exec permission before its entries are visited, so
      the walk reaches everything below a listable directory. File and link modes are
      not part of the tree. */
  function Fix(n: Node): (r: Node)
    ensures r.Dir? == n.Dir? && (r.Dir? ==> r.perm.read == n.perm.read)
    decreases n, 1
  {
    match n
    case Dir(perm, cs) => if perm.read then Dir(Perm(true, true, true), FixChildren(cs)) else n
    case _ => n
  }

  function FixChildren(cs: seq<Entry>): (r: seq<Entry>)
    ensures |r| == |cs|
    ensures forall k :: 0 <= k < |cs| ==> r[k] == Entry(cs[k].name, Fix(cs[k].node))
    decreases cs, 0
  {
    if cs == [] then [] else [Entry(cs[0].name, Fix(cs[0].node))] + FixChildren(cs[1..])
  }

  /** The walk function of the second pass: the path of every call without an error. */
  function CollectStep(paths: seq<seq<string>>, v: Visit): (seq<seq<string>>, Signal) {
    if Clean(v) then (paths + [v.rel], Continue) else (paths, Continue)
  }

  function CollectFn(): (seq<seq<string>>, Visit) -> (seq<seq<string>>, Signal) {
    (paths: seq<seq<string>>, v: Visit) => CollectStep(paths, v)
  }

  /** The entry after the permission pass. */
  function Fixed(t: Option<Node>, chmodOk: bool): Option<Node> {
    if t.Some? && chmodOk then Some(Fix(t.value)) else t
  }

  /** allPaths: the entries the second walk reaches, identified by the names leading to
      them from the entry being removed. */
  function AllPaths(path: string, t: Option<Node>): seq<seq<string>> {
    Walk(CollectFn(), [], path, t).0
  }

  /** The entry after forceRemoveRecursive. */
  function ManualRemoval(path: string, t: Option<Node>, chmodOk: bool, parentOk: bool): Option<Node> {
    var f := Fixed(t, chmodOk);
    RemoveDown(f, AllPaths(path, f), parentOk)
  }

  /** The entry being removed, as the cleanup sees it: None once it is gone. Whether the
      directory holding it lets it be removed is fixed. */
  class Disk {
    var tree: Option<Node>
    const parentOk: bool

    constructor (tree: Option<Node>, parentOk: bool)
      ensures this.tree == tree && this.parentOk == parentOk
    {
      this.tree := tree;
      this.parentOk := parentOk;
    }

    /** os.Remove(path) for the entry reached through rel. */
    method Remove(rel: seq<string>)
      requires tree.Some?
      modifies this
      ensures tree == RemoveAt(old(tree).value, rel, parentOk)
    {
      tree := RemoveAt(tree.value, rel, parentOk);
    }

    /** The permission pass of forceRemoveRecursive. */
    method MakeAccessible(chmodOk: bool)
      modifies this
      ensures tree == Fixed(old(tree), chmodOk)
    {
      tree := Fixed(tree, chmodOk);
    }

    /** makeWritableRecursive. */
    method MakeWritable(chmodOk: bool)
      modifies this
      ensures tree == AfterWritable(old(tree), chmodOk)
    {
      tree := AfterWritable(tree, chmodOk);
    }

    /** os.RemoveAll or `rm -rf` with a given outcome: the entry is gone when it succeeds
        and left as it was when it fails. */
    method RemoveAllWith(ok: bool)
      modifies this
      ensures tree == if ok then None else old(tree)
    {
      if ok { tree := None; }
    }
  }

  /** forceRemoveRecursive: fix the permissions, collect the paths in walk order, remove
      them from the last to the first, and succeed when os.Stat no longer finds the
      entry. */
  method ForceRemoveRecursive(disk: Disk, path: string, chmodOk: bool) returns (ok: bool)
    modifies disk
    ensures disk.tree == ManualRemoval(path, old(disk.tree), chmodOk, disk.parentOk)
    ensures ok <==> !Exists(disk.tree)
  {
    disk.MakeAccessible(chmodOk);
    var allPaths := AllPaths(path, disk.tree);
    ghost var target := ManualRemoval(path, old(disk.tree), chmodOk, disk.parentOk);
    var i := |allPaths|;
    assert allPaths[..i] == allPaths;
    while i > 0
      invariant 0 <= i <= |allPaths|
      invariant RemoveDown(disk.tree, allPaths[..i], disk.parentOk) == target
    {
      i := i - 1;
      RemoveDownStep(disk.tree, allPaths, i, disk.parentOk);
      if ExistsAt(disk.tree, allPaths[i]) {
        disk.Remove(allPaths[i]);
      }
    }
    ok := !Exists(disk.tree);
  }

  // ---------------------------------------------------------------------------
  // The strategy chain

  /** What the operating system answers: whether os.RemoveAll succeeds the first time and
      after the permission change, whether os.Chmod is allowed, and whether `rm -rf`
      succeeds. */
  datatype Outcomes = Outcomes(removeAll: bool, removeAllAgain: bool, chmodOk: bool, rmRf: bool)

  /** The first walk of makeWritableRecursive: each directory it can list gains write
      permission. */
  function Writable(n: Node): (r: Node)
    decreases n, 1
  {
    match n
    case Dir(perm, cs) =>
      if !perm.read then n else Dir(Perm(perm.read, true, perm.exec), WritableChildren(cs, perm.exec))
    case _ => n
  }

  /** The entries of a directory; they are visited only when it is searchable. */
  function WritableChildren(cs: seq<Entry>, exec: bool): (r: seq<Entry>)
    decreases cs, 0
  {
    if cs == [] || !exec then cs else [Entry(cs[0].name, Writable(cs[0].node))] + WritableChildren(cs[1..], exec)
  }

  /** makeWritableRecursive returns an error when os.Chmod is refused on the first entry
      the walk stats without error; the walk stops there. */
  predicate ChmodFails(t: Option<Node>, chmodOk: bool) {
    !chmodOk && t.Some? && !(t.value.Dir? && !t.value.perm.read)
  }

  /** The entry after makeWritableRecursive. */
  function AfterWritable(t: Option<Node>, chmodOk: bool): Option<Node> {
    if t.Some? && chmodOk then Some(Writable(t.value)) else t
  }

  /** rm -rf is attempted only where the separator is '/'. */
  predicate SystemCommandAvailable(separator: char) {
    separator == '/'
  }

  /** The entry after forceRemoveCacheDirectory, and whether it reports success. */
  function ForceRemoval(path: string, t: Option<Node>, parentOk: bool, separator: char, out: Outcomes): (Option<Node>, bool) {
    if !Exists(t) then (t, true)
    else if out.removeAll then (None, true)
    else
      var w := AfterWritable(t, out.chmodOk);
      if !ChmodFails(t, out.chmodOk) && out.removeAllAgain then (None, true)
      else
        var m := ManualRemoval(path, w, out.chmodOk, parentOk);
        if !Exists(m) then (m, true)
        else if SystemCommandAvailable(separator) && out.rmRf then (None, true)
        else (m, false)
  }

  /** forceRemoveCacheDirectory. */
  method ForceRemoveCacheDirectory(disk: Disk, path: string, separator: char, out: Outcomes) returns (ok: bool)
    modifies disk
    ensures (disk.tree, ok) == ForceRemoval(path, old(disk.tree), disk.parentOk, separator, out)
  {
    if !Exists(disk.tree) {
      return true;
    }
    disk.RemoveAllWith(out.removeAll);
    if out.removeAll {
      return true;
    }
    var chmodFailed := ChmodFails(disk.tree, out.chmodOk);
    disk.MakeWritable(out.chmodOk);
    if !chmodFailed {
      disk.RemoveAllWith(out.removeAllAgain);
      if out.removeAllAgain {
        return true;
      }
    }
    ok := ForceRemoveRecursive(disk, path, out.chmodOk);
    if ok {
      return;
    }
    if SystemCommandAvailable(separator) {
      disk.RemoveAllWith(out.rmRf);
      ok := out.rmRf;
    }
  }

  // ---------------------------------------------------------------------------
  // What the chain promises

  /** forceRemoveCacheDirectory reports success exactly when some strategy succeeds, and
      then os.Stat no longer finds the entry; a failure leaves what the manual removal
      left, which os.Stat still finds. */
  lemma ForceRemovalOutcome(path: string, t: Option<Node>, parentOk: bool, separator: char, out: Outcomes)
    ensures var (after, ok) := ForceRemoval(path, t, parentOk, separator, out);
            var m := ManualRemoval(path, AfterWritable(t, out.chmodOk), out.chmodOk, parentOk);
            (ok <==> !Exists(t) || out.removeAll || (!ChmodFails(t, out.chmodOk) && out.removeAllAgain) ||
                     !Exists(m) || (SystemCommandAvailable(separator) && out.rmRf)) &&
            (ok ==> !Exists(after)) &&
            (!ok ==> after == m && Exists(after))
  {
  }

  /** An entry os.Stat does not find counts as removed and is left alone. */
  lemma AbsentIsRemoved(path: string, t: Option<Node>, parentOk: bool, separator: char, out: Outcomes)
    requires !Exists(t)
    ensures ForceRemoval(path, t, parentOk, separator, out) == (t, true)
  {
  }

  /** The strategies are tried in order and the first success ends the chain: what a
      later strategy would have answered makes no difference. */
  lemma FirstSuccessStops(path: string, t: Option<Node>, parentOk: bool, separator: char, out: Outcomes, out2: Outcomes)
    requires out.removeAll && out2.removeAll
    ensures ForceRemoval(path, t, parentOk, separator, out) == ForceRemoval(path, t, parentOk, separator, out2)
  {
  }

  /** Where the separator is not '/', `rm -rf` is never run. */
  lemma NoSystemCommandElsewhere(path: string, t: Option<Node>, parentOk: bool, separator: char, out: Outcomes)
    requires !SystemCommandAvailable(separator)
    ensures ForceRemoval(path, t, parentOk, separator, out) ==
            ForceRemoval(path, t, parentOk, separator, out.(rmRf := !out.rmRf))
  {
  }

  // ---------------------------------------------------------------------------
  // The manual removal deletes children before their parents

  /** Every directory can be listed. */
  predicate AllListable(n: Node)
    decreases n
  {
    n.Dir? ==> n.perm.read && forall i :: 0 <= i < |n.children| ==> AllListable(n.children[i].node)
  }

  /** Every directory can be listed, searched and written. */
  predicate Unlocked(n: Node)
    decreases n
  {
    n.Dir? ==> n.perm == Perm(true, true, true) && forall i :: 0 <= i < |n.children| ==> Unlocked(n.children[i].node)
  }

  /** No link points at nothing. */
  predicate NoDangling(n: Node)
    decreases n
  {
    match n
    case Link(_, target) => target != Missing
    case File(_) => true
    case Dir(_, cs) => forall i :: 0 <= i < |cs| ==> NoDangling(cs[i].node)
  }

  predicate DistinctNames(cs: seq<Entry>) {
    forall i, j :: 0 <= i < j < |cs| ==> cs[i].name != cs[j].name
  }

  /** pre followed by each of the name lists of X. */
  function Prepend(pre: seq<string>, X: seq<seq<string>>): (r: seq<seq<string>>)
    ensures |r| == |X|
    decreases |X|
  {
    if X == [] then [] else [pre + X[0]] + Prepend(pre, X[1..])
  }

  /** The entries of the tree n in walk order, each named by the names leading to it. */
  function Rels(n: Node): seq<seq<string>>
    decreases n, 1
  {
    [[]] + if n.Dir? then ChildRels(n.children) else []
  }

  function ChildRels(cs: seq<Entry>): seq<seq<string>>
    decreases cs, 0
  {
    if cs == [] then [] else Prepend([cs[0].name], Rels(cs[0].node)) + ChildRels(cs[1..])
  }

  lemma {:induction false} PrependAppend(pre: seq<string>, A: seq<seq<string>>, B: seq<seq<string>>)
    ensures Prepend(pre, A + B) == Prepend(pre, A) + Prepend(pre, B)
    decreases |A|
  {
    if A != [] {
      assert (A + B)[1..] == A[1..] + B;
      PrependAppend(pre, A[1..], B);
    } else {
      assert A + B == B;
    }
  }

  lemma {:induction false} PrependTwice(pre: seq<string>, name: string, X: seq<seq<string>>)
    ensures Prepend(pre, Prepend([name], X)) == Prepend(pre + [name], X)
    decreases |X|
  {
    if X != [] {
      assert pre + ([name] + X[0]) == (pre + [name]) + X[0];
      PrependTwice(pre, name, X[1..]);
    }
  }

  lemma {:induction false} PrependNothing(X: seq<seq<string>>)
    ensures Prepend([], X) == X
    decreases |X|
  {
    if X != [] {
      assert [] + X[0] == X[0];
      PrependNothing(X[1..]);
    }
  }

  lemma FixChildrenNames(cs: seq<Entry>)
    ensures DistinctNames(cs) ==> DistinctNames(FixChildren(cs))
  {
  }

  /** The permission pass opens every listable tree completely. */
  lemma {:induction false} FixUnlocks(n: Node)
    requires Wf(n) && AllListable(n) && NoDangling(n)
    ensures Wf(Fix(n)) && Unlocked(Fix(n)) && NoDangling(Fix(n))
    decreases n
  {
    if n.Dir? {
      var cs := n.children;
      var fc := FixChildren(cs);
      forall i | 0 <= i < |fc|
        ensures ValidName(fc[i].name) && Wf(fc[i].node) && Unlocked(fc[i].node) && NoDangling(fc[i].node)
      {
        FixUnlocks(cs[i].node);
      }
      assert forall i, j :: 0 <= i < j < |fc| ==> fc[i].name != fc[j].name by {
        forall i, j | 0 <= i < j < |fc| ensures fc[i].name != fc[j].name {
          assert fc[i].name == cs[i].name && fc[j].name == cs[j].name;
        }
      }
    }
  }

  /** When fn records the path of every clean call, the walk of an unlocked tree
      records every entry, in walk order. */
  lemma CollectOne(acc: seq<seq<string>>, v: Visit)
    requires Clean(v)
    ensures Fold(CollectFn(), acc, [v]) == acc + [v.rel]
  {
    assert CollectFn()(acc, v).0 == acc + [v.rel];
  }

  lemma {:induction false} CollectVisits(p: string, rel: seq<string>, name: string, n: Node, acc: seq<seq<string>>)
    requires Unlocked(n)
    ensures Fold(CollectFn(), acc, Visits(p, rel, name, n)) == acc + Prepend(rel, Rels(n))
    decreases n, 1
  {
    var v := Seen(p, rel, name, n, false);
    CollectOne(acc, v);
    assert rel + [] == rel;
    if n.Dir? {
      var rest := ChildVisits(p, rel, true, n.children);
      assert Visits(p, rel, name, n) == [v] + rest;
      FoldAppend(CollectFn(), acc, [v], rest);
      CollectChildVisits(p, rel, n.children, acc + [rel]);
      assert Rels(n) == [[]] + ChildRels(n.children);
      PrependAppend(rel, [[]], ChildRels(n.children));
    } else {
      assert Visits(p, rel, name, n) == [v];
    }
  }

  lemma {:induction false} CollectChildVisits(p: string, rel: seq<string>, cs: seq<Entry>, acc: seq<seq<string>>)
    requires forall i :: 0 <= i < |cs| ==> Unlocked(cs[i].node)
    ensures Fold(CollectFn(), acc, ChildVisits(p, rel, true, cs)) == acc + Prepend(rel, ChildRels(cs))
    decreases cs, 0
  {
    if cs != [] {
      var c := cs[0];
      var first := Visits(Join(p, c.name), rel + [c.name], c.name, c.node);
      FoldAppend(CollectFn(), acc, first, ChildVisits(p, rel, true, cs[1..]));
      CollectVisits(Join(p, c.name), rel + [c.name], c.name, c.node, acc);
      var mid := acc + Prepend(rel + [c.name], Rels(c.node));
      CollectChildVisits(p, rel, cs[1..], mid);
      PrependAppend(rel, Prepend([c.name], Rels(c.node)), ChildRels(cs[1..]));
      PrependTwice(rel, c.name, Rels(c.node));
      AppendAssoc(acc, Prepend(rel + [c.name], Rels(c.node)), Prepend(rel, ChildRels(cs[1..])));
    }
  }

  lemma CollectAll(path: string, n: Node)
    requires Unlocked(n)
    ensures AllPaths(path, Some(n)) == Rels(n)
  {
    assert NeverStops(CollectFn());
    WalkAsFold(CollectFn(), [], path, Some(n));
    CollectVisits(path, [], Base(path), n, []);
    PrependNothing(Rels(n));
  }

  lemma {:induction false} RemoveDownAppend(t: Option<Node>, A: seq<seq<string>>, B: seq<seq<string>>, ok: bool)
    ensures RemoveDown(t, A + B, ok) == RemoveDown(RemoveDown(t, B, ok), A, ok)
    decreases |B|
  {
    if B == [] {
      assert A + B == A;
    } else {
      var last := B[|B| - 1];
      assert (A + B)[|A + B| - 1] == last;
      assert (A + B)[..|A + B| - 1] == A + B[..|B| - 1];
      RemoveDownAppend(RemoveIfExists(t, last, ok), A, B[..|B| - 1], ok);
    }
  }

  lemma {:induction false} RemoveDownNone(X: seq<seq<string>>, ok: bool)
    ensures RemoveDown(None, X, ok) == None
    decreases |X|
  {
    if X != [] { RemoveDownNone(X[..|X| - 1], ok); }
  }

  /** One removal below the entry named cs[i] is a removal inside that entry. */
  lemma LiftStep(p: Perm, cs: seq<Entry>, i: int, t: seq<string>, ok: bool)
    requires p.exec && DistinctNames(cs) && 0 <= i < |cs|
    ensures RemoveIfExists(Some(Dir(p, cs)), [cs[i].name] + t, ok) ==
            Some(Dir(p, Put(cs, i, RemoveIfExists(Some(cs[i].node), t, p.write))))
  {
    var rel := [cs[i].name] + t;
    assert rel[0] == cs[i].name && rel[1..] == t;
    assert Child(cs, cs[i].name) == Some(cs[i].node) by {
      var k :| 0 <= k < |cs| && cs[k].name == cs[i].name && cs[k].node == Child(cs, cs[i].name).value;
    }
    assert IndexOf(cs, cs[i].name) == i;
    if !ExistsAt(Some(cs[i].node), t) {
      assert Put(cs, i, Some(cs[i].node)) == cs;
    }
  }

  /** Removals below a name that is not there change nothing. */
  lemma {:induction false} NoChild(p: Perm, cs: seq<Entry>, name: string, X: seq<seq<string>>, ok: bool)
    requires forall k :: 0 <= k < |cs| ==> cs[k].name != name
    ensures RemoveDown(Some(Dir(p, cs)), Prepend([name], X), ok) == Some(Dir(p, cs))
    decreases |X|
  {
    if X != [] {
      var Y, t := X[..|X| - 1], X[|X| - 1];
      assert X == Y + [t];
      PrependAppend([name], Y, [t]);
      var rel := [name] + t;
      assert rel[0] == name;
      assert Child(cs, name) == None;
      assert !ExistsAt(Some(Dir(p, cs)), rel);
      NoChild(p, cs, name, Y, ok);
    }
  }

  /** Removals below the entry named cs[i] act on that entry alone. */
  lemma {:induction false} Lift(p: Perm, cs: seq<Entry>, i: int, X: seq<seq<string>>, ok: bool)
    requires p.exec && DistinctNames(cs) && 0 <= i < |cs|
    ensures RemoveDown(Some(Dir(p, cs)), Prepend([cs[i].name], X), ok) ==
            Some(Dir(p, Put(cs, i, RemoveDown(Some(cs[i].node), X, p.write))))
    decreases |X|
  {
    if X == [] {
      assert Put(cs, i, Some(cs[i].node)) == cs;
    } else {
      var name := cs[i].name;
      var Y, t := X[..|X| - 1], X[|X| - 1];
      LiftUnfold(Some(Dir(p, cs)), name, X, ok);
      LiftStep(p, cs, i, t, ok);
      var o := RemoveIfExists(Some(cs[i].node), t, p.write);
      var cs' := Put(cs, i, o);
      if o.Some? {
        PutSome(cs, i, o, RemoveDown(o, Y, p.write));
        Lift(p, cs', i, Y, ok);
      } else {
        PutNone(cs, i);
        NoChild(p, cs', name, Y, ok);
        RemoveDownNone(Y, p.write);
      }
    }
  }

  /** The last removal below name comes first. */
  lemma LiftUnfold(t: Option<Node>, name: string, X: seq<seq<string>>, ok: bool)
    requires X != []
    ensures RemoveDown(t, Prepend([name], X), ok) ==
            RemoveDown(RemoveIfExists(t, [name] + X[|X| - 1], ok), Prepend([name], X[..|X| - 1]), ok)
  {
    var Y, last := X[..|X| - 1], X[|X| - 1];
    assert X == Y + [last];
    PrependAppend([name], Y, [last]);
    assert Prepend([name], X)[..|X| - 1] == Prepend([name], Y);
  }

  lemma PutSome(cs: seq<Entry>, i: int, o: Option<Node>, x: Option<Node>)
    requires DistinctNames(cs) && 0 <= i < |cs| && o.Some?
    ensures |Put(cs, i, o)| == |cs| && Put(cs, i, o)[i].name == cs[i].name
    ensures DistinctNames(Put(cs, i, o))
    ensures Put(Put(cs, i, o), i, x) == Put(cs, i, x)
  {
  }

  lemma PutNone(cs: seq<Entry>, i: int)
    requires DistinctNames(cs) && 0 <= i < |cs|
    ensures forall k :: 0 <= k < |Put(cs, i, None)| ==> Put(cs, i, None)[k].name != cs[i].name
  {
    var cs' := Put(cs, i, None);
    forall k | 0 <= k < |cs'| ensures cs'[k].name != cs[i].name {
      if k < i { assert cs'[k] == cs[k]; } else { assert cs'[k] == cs[k + 1]; }
    }
  }

  /** The walk-order list of an unlocked tree, removed from the back, removes it. */
  lemma {:induction false} Clears(n: Node, ok: bool)
    requires Wf(n) && Unlocked(n) && NoDangling(n) && ok
    ensures RemoveDown(Some(n), Rels(n), ok) == None
    decreases n, 1
  {
    if n.Dir? {
      UnlockedChildren(n);
      ClearChildren(n.perm, [], n.children, ok);
      RemoveDownAppend(Some(n), [[]], ChildRels(n.children), ok);
    }
  }

  lemma UnlockedChildren(n: Node)
    requires Wf(n) && Unlocked(n) && NoDangling(n) && n.Dir?
    ensures n.perm == Perm(true, true, true) && n == Dir(n.perm, [] + n.children)
    ensures DistinctNames([] + n.children)
    ensures forall i :: 0 <= i < |n.children| ==>
      Wf(n.children[i].node) && Unlocked(n.children[i].node) && NoDangling(n.children[i].node)
  {
    assert [] + n.children == n.children;
  }

  /** The entries cs of an unlocked directory, removed in reverse walk order, go away and
      leave the entries before them. */
  lemma {:induction false} ClearChildren(p: Perm, pre: seq<Entry>, cs: seq<Entry>, ok: bool)
    requires p == Perm(true, true, true) && DistinctNames(pre + cs)
    requires forall i :: 0 <= i < |cs| ==> Wf(cs[i].node) && Unlocked(cs[i].node) && NoDangling(cs[i].node)
    ensures RemoveDown(Some(Dir(p, pre + cs)), ChildRels(cs), ok) == Some(Dir(p, pre))
    decreases cs, 0
  {
    if cs == [] {
      assert pre + cs == pre;
    } else {
      var c := cs[0];
      var pre' := pre + [c];
      assert pre + cs == pre' + cs[1..];
      RemoveDownAppend(Some(Dir(p, pre + cs)), Prepend([c.name], Rels(c.node)), ChildRels(cs[1..]), ok);
      ClearChildren(p, pre', cs[1..], ok);
      assert DistinctNames(pre') by {
        forall i, j | 0 <= i < j < |pre'| ensures pre'[i].name != pre'[j].name {
          assert pre'[i] == (pre + cs)[i] && pre'[j] == (pre + cs)[j];
        }
      }
      assert pre'[|pre|] == c;
      Lift(p, pre', |pre|, Rels(c.node), ok);
      Clears(c.node, true);
      assert pre'[..|pre|] + pre'[|pre| + 1..] == pre;
    }
  }

  /** forceRemoveRecursive removes the whole entry when every directory in it can be
      listed, no link in it is dangling, os.Chmod is allowed and the directory holding it
      is writable: the reverse walk order deletes every entry before its directory. */
  lemma ManualRemovalClears(path: string, n: Node, parentOk: bool)
    requires Wf(n) && AllListable(n) && NoDangling(n) && parentOk
    ensures ManualRemoval(path, Some(n), true, parentOk) == None
  {
    FixUnlocks(n);
    CollectAll(path, Fix(n));
    Clears(Fix(n), parentOk);
  }
}

=== FILE: rules.dfy ===
/** The rule set: project types, the indicator files that identify them and the cache
    entries each one declares, with the lookups main.go performs against it. The rule
    set is a parameter here; the Go code reads it through loadConfig on every call. */
module Rules {
  import opened Wrappers
  import opened FsTree

  datatype CacheConfig = CacheConfig(directories: seq<string>, files: seq<string>, extensions: seq<string>)

  datatype ProjectType = ProjectType(name: string, indicators: seq<string>, cacheConfig: CacheConfig)

  /** Some rule lists name among its cache directories. */
  ghost predicate DeclaresCacheDirectory(types: seq<ProjectType>, name: string) {
    exists i, j :: 0 <= i < |types| && 0 <= j < |types[i].cacheConfig.directories| &&
      types[i].cacheConfig.directories[j] == name
  }

  /** isCacheDirectory: whether name is a cache directory name of any rule. */
  function IsCacheDirectory(types: seq<ProjectType>, name: string): (r: bool)
    ensures r <==> DeclaresCacheDirectory(types, name)
    decreases |types|
  {
    if types == [] then false
    else
      var r := name in types[0].cacheConfig.directories || IsCacheDirectory(types[1..], name);
      assert r ==> DeclaresCacheDirectory(types, name) by {
        if name in types[0].cacheConfig.directories {
          var j :| 0 <= j < |types[0].cacheConfig.directories| && types[0].cacheConfig.directories[j] == name;
        } else if r {
          var i, j :| 0 <= i < |types[1..]| && 0 <= j < |types[1..][i].cacheConfig.directories| &&
            types[1..][i].cacheConfig.directories[j] == name;
          assert types[i + 1] == types[1..][i];
        }
      }
      assert DeclaresCacheDirectory(types, name) ==> r by {
        if DeclaresCacheDirectory(types, name) {
          var i, j :| 0 <= i < |types| && 0 <= j < |types[i].cacheConfig.directories| &&
            types[i].cacheConfig.directories[j] == name;
          if i > 0 {
            assert types[1..][i - 1] == types[i];
          }
        }
      }
      r
  }

  /** os.Stat(filepath.Join(dir, indicator)) succeeds: the entry exists and, when it is a
      symbolic link, its target exists too. */
  predicate IndicatorPresent(dir: Node, indicator: string) {
    match LstatIn(dir, indicator)
    case None => false
    case Some(n) => StatOf(n) != Missing
  }

  /** Some indicator of t is present in dir. */
  function HasIndicator(t: ProjectType, dir: Node): (r: bool)
    ensures r <==> exists j :: 0 <= j < |t.indicators| && IndicatorPresent(dir, t.indicators[j])
  {
    HasAnyOf(t.indicators, dir)
  }

  function HasAnyOf(indicators: seq<string>, dir: Node): (r: bool)
    ensures r <==> exists j :: 0 <= j < |indicators| && IndicatorPresent(dir, indicators[j])
    decreases |indicators|
  {
    if indicators == [] then false
    else if IndicatorPresent(dir, indicators[0]) then true
    else
      var r := HasAnyOf(indicators[1..], dir);
      assert r ==> exists j :: 0 <= j < |indicators| && IndicatorPresent(dir, indicators[j]) by {
        if r {
          var j :| 0 <= j < |indicators[1..]| && IndicatorPresent(dir, indicators[1..][j]);
          assert indicators[j + 1] == indicators[1..][j];
        }
      }
      assert (exists j :: 0 <= j < |indicators| && IndicatorPresent(dir, indicators[j])) ==> r by {
        if exists j :: 0 <= j < |indicators| && IndicatorPresent(dir, indicators[j]) {
          var j :| 0 <= j < |indicators| && IndicatorPresent(dir, indicators[j]);
          assert indicators[1..][j - 1] == indicators[j];
        }
      }
      r
  }

  /** Rule i is the first, in rule-set order, with an indicator present in dir. */
  ghost predicate FirstMatch(types: seq<ProjectType>, dir: Node, i: int) {
    0 <= i < |types| && HasIndicator(types[i], dir) &&
    forall k :: 0 <= k < i ==> !HasIndicator(types[k], dir)
  }

  /** detectProjectType: the first rule, in rule-set order, with an indicator present
      in dir; None when no rule has one. */
  function DetectProjectType(types: seq<ProjectType>, dir: Node): (r: Option<ProjectType>)
    ensures r.None? <==> forall i :: 0 <= i < |types| ==> !HasIndicator(types[i], dir)
    ensures r.Some? ==> exists i :: FirstMatch(types, dir, i) && types[i] == r.value
    decreases |types|
  {
    if types == [] then None
    else if HasIndicator(types[0], dir) then Some(types[0])
    else
      var r := DetectProjectType(types[1..], dir);
      assert r.None? ==> forall i :: 0 <= i < |types| ==> !HasIndicator(types[i], dir) by {
        if r.None? {
          forall i | 0 <= i < |types| ensures !HasIndicator(types[i], dir) {
            if i > 0 { assert types[i] == types[1..][i - 1]; }
          }
        }
      }
      assert r.Some? ==> exists i :: FirstMatch(types, dir, i) && types[i] == r.value by {
        if r.Some? {
          var i :| FirstMatch(types[1..], dir, i) && types[1..][i] == r.value;
          assert types[i + 1] == types[1..][i];
          forall k | 0 <= k < i + 1 ensures !HasIndicator(types[k], dir) {
            if k > 0 { assert types[k] == types[1..][k - 1]; }
          }
          assert FirstMatch(types, dir, i + 1);
        }
      }
      r
  }

  /** isProjectDirectory: some rule has an indicator present in dir, which is exactly
      when detectProjectType finds a type. */
  function IsProjectDirectory(types: seq<ProjectType>, dir: Node): (r: bool)
    ensures r <==> exists i :: 0 <= i < |types| && HasIndicator(types[i], dir)
    ensures r <==> DetectProjectType(types, dir).Some?
    decreases |types|
  {
    if types == [] then false
    else
      var r := HasIndicator(types[0], dir) || IsProjectDirectory(types[1..], dir);
      assert r ==> exists i :: 0 <= i < |types| && HasIndicator(types[i], dir) by {
        if r && !HasIndicator(types[0], dir) {
          var i :| 0 <= i < |types[1..]| && HasIndicator(types[1..][i], dir);
          assert types[i + 1] == types[1..][i];
        }
      }
      assert (exists i :: 0 <= i < |types| && HasIndicator(types[i], dir)) ==> r by {
        if exists i :: 0 <= i < |types| && HasIndicator(types[i], dir) {
          var i :| 0 <= i < |types| && HasIndicator(types[i], dir);
          if i > 0 { assert types[1..][i - 1] == types[i]; }
        }
      }
      r
  }

  /** Indicators are looked up through os.Stat: a dangling symbolic link is not one,
      and nothing is found in a directory without exec permission. */
  lemma IndicatorNeedsTarget(dir: Node, indicator: string)
    ensures IndicatorPresent(dir, indicator) ==> dir.Dir? && dir.perm.exec
    ensures IndicatorPresent(dir, indicator) ==>
      exists i :: 0 <= i < |dir.children| && dir.children[i].name == indicator &&
        !(dir.children[i].node.Link? && dir.children[i].node.target.Missing?)
  {
    if IndicatorPresent(dir, indicator) {
      var n := LstatIn(dir, indicator).value;
      var i :| 0 <= i < |dir.children| && dir.children[i].name == indicator && dir.children[i].node == n;
    }
  }
}

=== FILE: sizes.dfy ===
/** The size estimators of main.go: getDirSize (and its copy getDirSizeFallback), the
    depth-limited getDirectorySizeWithLimit and getOptimizedCacheDirSize. All of them add
    int64 sizes and refuse an addition that would pass 2^63-1. */
module Sizes {
  import opened Wrappers
  import opened FsTree
  import opened Paths
  import Int64

  /** The size os.Lstat reports for an entry that is not a directory. */
  function LstatSize(n: Node): nat
    requires !n.Dir?
  {
    n.size
  }

  /** The overflow guard the Go code writes before each addition. */
  predicate WouldOverflow(total: int, size: int) {
    total > 0 && size > 0 && total > Int64.Max - size
  }

  // ---------------------------------------------------------------------------
  // getDirSize

  /** The walk function of getDirSize: it adds the size of every entry that is not a
      directory and, when the addition would overflow, returns SkipDir instead. */
  function DirSizeStep(size: int, v: Visit): (int, Signal) {
    if !Clean(v) || v.node.Dir? then (size, Continue)
    else if WouldOverflow(size, LstatSize(v.node)) then (size, SkipDir)
    else (size + LstatSize(v.node), Continue)
  }

  /** getDirSize(path) for the entry os.Lstat finds at path. */
  function DirSize(path: string, tree: Option<Node>): int {
    Walk(DirSizeStep, 0, path, tree).0
  }

  /** Everything a full walk would add: the sizes of all entries that are not
      directories, below directories that can be listed and entered. */
  function TotalSize(n: Node): nat
    decreases n, 1
  {
    match n
    case File(size) => size
    case Link(size, _) => size
    case Dir(perm, cs) => if perm.read && perm.exec then TotalSizeOf(cs) else 0
  }

  function TotalSizeOf(cs: seq<Entry>): nat
    decreases cs, 0
  {
    if cs == [] then 0 else TotalSize(cs[0].node) + TotalSizeOf(cs[1..])
  }

  predicate InInt64Range(size: int) {
    0 <= size <= Int64.Max
  }

  /** getDirSize stays within [0, 2^63-1] on every tree. */
  lemma DirSizeInRange(path: string, tree: Option<Node>)
    requires tree.Some? ==> Wf(tree.value)
    ensures InInt64Range(DirSize(path, tree))
  {
    forall s, v | InInt64Range(s) && WfVisit(v) ensures InInt64Range(DirSizeStep(s, v).0) {
    }
    WalkKeeps(DirSizeStep, InInt64Range, 0, path, tree);
  }

  /** Without overflow, getDirSize is the total size of the tree. */
  lemma DirSizeExact(path: string, tree: Option<Node>)
    requires tree.Some? ==> TotalSize(tree.value) <= Int64.Max
    ensures DirSize(path, tree) == if tree.Some? then TotalSize(tree.value) else 0
  {
    if tree.Some? {
      DirSizeNodeExact(0, path, [], Base(path), tree.value);
    }
  }

  lemma {:induction false} DirSizeNodeExact(s: int, path: string, rel: seq<string>, name: string, n: Node)
    requires 0 <= s && s + TotalSize(n) <= Int64.Max
    ensures WalkNode(DirSizeStep, s, path, rel, name, n) == (s + TotalSize(n), Continue)
    decreases n, 1
  {
    if n.Dir? && n.perm.read {
      var s1 := DirSizeStep(s, Seen(path, rel, name, n, false)).0;
      assert s1 == s;
      if n.perm.exec {
        DirSizeChildrenExact(s, path, rel, n.children);
      } else {
        DirSizeUnseenChildren(s, path, rel, n.children);
      }
    }
  }

  lemma {:induction false} DirSizeChildrenExact(s: int, path: string, rel: seq<string>, cs: seq<Entry>)
    requires 0 <= s && s + TotalSizeOf(cs) <= Int64.Max
    ensures WalkChildren(DirSizeStep, s, path, rel, true, cs) == (s + TotalSizeOf(cs), Continue)
    decreases cs, 0
  {
    if cs != [] {
      var c := cs[0];
      DirSizeNodeExact(s, Join(path, c.name), rel + [c.name], c.name, c.node);
      DirSizeChildrenExact(s + TotalSize(c.node), path, rel, cs[1..]);
    }
  }

  lemma {:induction false} DirSizeUnseenChildren(s: int, path: string, rel: seq<string>, cs: seq<Entry>)
    ensures WalkChildren(DirSizeStep, s, path, rel, false, cs) == (s, Continue)
    decreases |cs|
  {
    if cs != [] {
      DirSizeUnseenChildren(s, path, rel, cs[1..]);
    }
  }

  /** SkipDir returned for a file skips only the rest of that file's directory: here c
      would fit but is skipped after b overflows, while d, outside sub, is still added. */
  lemma DirSizeSkipsOnlySiblings()
    ensures var open := Perm(true, true, true);
      var sub := Dir(open, [Entry("a", File(Int64.Max - 3)), Entry("b", File(5)), Entry("c", File(2))]);
      DirSize("x", Some(Dir(open, [Entry("sub", sub), Entry("d", File(1))]))) == Int64.Max - 2
  {
    var open := Perm(true, true, true);
    var sub := Dir(open, [Entry("a", File(Int64.Max - 3)), Entry("b", File(5)), Entry("c", File(2))]);
    var d := Entry("d", File(1));
    var m := Int64.Max - 3;
    SkippedSubdirectory();
    assert [Entry("sub", sub), d][1..] == [d];
    assert Join("x", "sub") == "x/sub" && [] + ["sub"] == ["sub"];
    assert WalkChildren(DirSizeStep, m, "x", [], true, [d]) == (m + 1, Continue);
    assert WalkChildren(DirSizeStep, 0, "x", [], true, [Entry("sub", sub), d]) == (m + 1, Continue);
  }

  /** The subdirectory of the example above: b overflows, so its walk stops after a. */
  lemma SkippedSubdirectory()
    ensures var open := Perm(true, true, true);
      var sub := Dir(open, [Entry("a", File(Int64.Max - 3)), Entry("b", File(5)), Entry("c", File(2))]);
      WalkNode(DirSizeStep, 0, "x/sub", ["sub"], "sub", sub) == (Int64.Max - 3, SkipDir)
  {
    var open := Perm(true, true, true);
    var a, b, c := Entry("a", File(Int64.Max - 3)), Entry("b", File(5)), Entry("c", File(2));
    var m := Int64.Max - 3;
    assert [a, b, c][1..] == [b, c] && [b, c][1..] == [c];
    assert Join("x/sub", "a") == "x/sub/a" && ["sub"] + ["a"] == ["sub", "a"];
    assert Join("x/sub", "b") == "x/sub/b" && ["sub"] + ["b"] == ["sub", "b"];
    assert WalkNode(DirSizeStep, 0, "x/sub/a", ["sub", "a"], "a", a.node) == (m, Continue);
    assert WalkNode(DirSizeStep, m, "x/sub/b", ["sub", "b"], "b", b.node) == (m, SkipDir);
    assert WalkChildren(DirSizeStep, m, "x/sub", ["sub"], true, [b, c]) == (m, SkipDir);
    assert WalkChildren(DirSizeStep, 0, "x/sub", ["sub"], true, [a, b, c]) == (m, SkipDir);
  }

  // ---------------------------------------------------------------------------
  // getDirectorySizeWithLimit

  /** What one entry of a listed directory adds to the depth-limited size when nothing
      overflows: a regular file its size, a subdirectory its own limited size one level
      down while depth is above 1, a symbolic link nothing. Without exec on the directory
      os.Lstat and os.ReadDir fail on its entries, which then add nothing. */
  function Contribution(e: Entry, exec: bool, depth: int): nat
    decreases e, 0
  {
    match e.node
    case File(size) => if exec then size else 0
    case Link(_, _) => 0
    case Dir(_, _) => if depth > 1 && exec then LimitedSum(e.node, depth - 1) else 0
  }

  function LimitedSumOf(cs: seq<Entry>, exec: bool, depth: int): nat
    decreases cs, 1
  {
    if cs == [] then 0 else Contribution(cs[0], exec, depth) + LimitedSumOf(cs[1..], exec, depth)
  }

  /** The unbounded sum getDirectorySizeWithLimit approximates: regular files up to depth
      levels down, symbolic links ignored, nothing for depth <= 0 or a directory that
      cannot be listed. */
  function LimitedSum(n: Node, depth: int): nat
    decreases n, 2
  {
    if depth <= 0 || !Listable(n) then 0 else LimitedSumOf(n.children, n.perm.exec, depth)
  }

  /** getDirectorySizeWithLimit(path, depth) for the directory n at path. */
  function LimitedSize(n: Node, depth: int): int
    decreases n, 2
  {
    if depth <= 0 || !Listable(n) then 0 else LimitedSizeFrom(0, n.children, n.perm.exec, depth)
  }

  /** The loop of getDirectorySizeWithLimit from running total `total` over the
      remaining entries cs. */
  function LimitedSizeFrom(total: int, cs: seq<Entry>, exec: bool, depth: int): int
    decreases cs, 1
  {
    if cs == [] then total
    else
      var e := cs[0];
      match e.node
      case Link(_, _) => LimitedSizeFrom(total, cs[1..], exec, depth)
      case File(size) =>
        if !exec then LimitedSizeFrom(total, cs[1..], exec, depth)
        else if WouldOverflow(total, size) then total
        else LimitedSizeFrom(total + size, cs[1..], exec, depth)
      case Dir(_, _) =>
        if depth <= 1 then LimitedSizeFrom(total, cs[1..], exec, depth)
        else
          var sub := if exec then LimitedSize(e.node, depth - 1) else 0;
          if WouldOverflow(total, sub) then total
          else LimitedSizeFrom(total + sub, cs[1..], exec, depth)
  }

  predicate WfEntries(cs: seq<Entry>) {
    forall i :: 0 <= i < |cs| ==> Wf(cs[i].node)
  }

  /** getDirectorySizeWithLimit stays within [0, 2^63-1], never exceeds the unbounded
      sum, and equals it whenever that sum fits. */
  lemma {:induction false} LimitedSizeBounds(n: Node, depth: int)
    requires Wf(n)
    ensures InInt64Range(LimitedSize(n, depth))
    ensures LimitedSize(n, depth) <= LimitedSum(n, depth)
    ensures LimitedSum(n, depth) <= Int64.Max ==> LimitedSize(n, depth) == LimitedSum(n, depth)
    decreases n, 2
  {
    if depth > 0 && Listable(n) {
      LimitedSizeFromBounds(0, n.children, n.perm.exec, depth);
    }
  }

  lemma {:induction false} LimitedSizeFromBounds(total: int, cs: seq<Entry>, exec: bool, depth: int)
    requires WfEntries(cs) && InInt64Range(total)
    ensures InInt64Range(LimitedSizeFrom(total, cs, exec, depth))
    ensures LimitedSizeFrom(total, cs, exec, depth) <= total + LimitedSumOf(cs, exec, depth)
    ensures total + LimitedSumOf(cs, exec, depth) <= Int64.Max ==>
      LimitedSizeFrom(total, cs, exec, depth) == total + LimitedSumOf(cs, exec, depth)
    decreases cs, 1
  {
    if cs != [] {
      var e := cs[0];
      assert Wf(e.node);
      WfEntriesTail(cs);
      match e.node
      case Link(_, _) =>
        LimitedSizeFromBounds(total, cs[1..], exec, depth);
      case File(size) =>
        if !exec || !WouldOverflow(total, size) {
          LimitedSizeFromBounds(if exec then total + size else total, cs[1..], exec, depth);
        }
      case Dir(_, _) =>
        LimitedSizeFromDirBounds(total, cs, exec, depth);
    }
  }

  /** LimitedSizeFromBounds when the first entry is a subdirectory. */
  lemma {:induction false} LimitedSizeFromDirBounds(total: int, cs: seq<Entry>, exec: bool, depth: int)
    requires WfEntries(cs) && InInt64Range(total) && cs != [] && cs[0].node.Dir?
    ensures InInt64Range(LimitedSizeFrom(total, cs, exec, depth))
    ensures LimitedSizeFrom(total, cs, exec, depth) <= total + LimitedSumOf(cs, exec, depth)
    ensures total + LimitedSumOf(cs, exec, depth) <= Int64.Max ==>
      LimitedSizeFrom(total, cs, exec, depth) == total + LimitedSumOf(cs, exec, depth)
    decreases cs, 0
  {
    var e := cs[0];
    assert Wf(e.node);
    WfEntriesTail(cs);
    if depth <= 1 {
      LimitedSizeFromBounds(total, cs[1..], exec, depth);
    } else {
      var sub := if exec then LimitedSize(e.node, depth - 1) else 0;
      if exec {
        LimitedSizeBounds(e.node, depth - 1);
      }
      if !WouldOverflow(total, sub) {
        LimitedSizeFromBounds(total + sub, cs[1..], exec, depth);
      }
    }
  }

  lemma WfEntriesTail(cs: seq<Entry>)
    requires WfEntries(cs) && cs != []
    ensures WfEntries(cs[1..])
  {
    forall i | 0 <= i < |cs[1..]| ensures Wf(cs[1..][i].node) { assert cs[1..][i] == cs[i + 1]; }
  }

  /** getDirectorySizeWithLimit(path, depth) on the directory n found at path. */
  method SizeWithLimit(n: Node, depth: int) returns (total: int)
    ensures total == LimitedSize(n, depth)
    ensures depth <= 0 || !Listable(n) ==> total == 0
    decreases depth
  {
    if depth <= 0 {
      return 0;
    }
    if !Listable(n) {
      // os.ReadDir fails
      return 0;
    }
    var cs := n.children;
    var exec := n.perm.exec;
    total := 0;
    var i := 0;
    while i < |cs|
      invariant 0 <= i <= |cs|
      invariant LimitedSizeFrom(total, cs[i..], exec, depth) == LimitedSize(n, depth)
    {
      var e := cs[i];
      assert cs[i..][1..] == cs[i + 1..];
      if e.node.Link? {
        // symbolic links are skipped
      } else if !e.node.Dir? {
        if exec {
          if WouldOverflow(total, e.node.size) {
            return;
          }
          total := total + e.node.size;
        }
      } else if depth > 1 {
        var sub := 0;
        if exec {
          sub := SizeWithLimit(e.node, depth - 1);
        }
        if WouldOverflow(total, sub) {
          return;
        }
        total := total + sub;
      }
      i := i + 1;
    }
  }

  /** The directory's own regular files, when it can be listed and entered. */
  function ImmediateFileSizes(cs: seq<Entry>): nat
    decreases |cs|
  {
    if cs == [] then 0 else (if cs[0].node.File? then cs[0].node.size else 0) + ImmediateFileSizes(cs[1..])
  }

  /** At depth 1 only the directory's own regular files count. */
  lemma {:induction false} DepthOneCountsImmediateFiles(cs: seq<Entry>, exec: bool)
    ensures LimitedSumOf(cs, exec, 1) == if exec then ImmediateFileSizes(cs) else 0
    decreases |cs|
  {
    if cs != [] {
      DepthOneCountsImmediateFiles(cs[1..], exec);
    }
  }

  /** The entries of cs that are not symbolic links. */
  function WithoutLinks(cs: seq<Entry>): (r: seq<Entry>)
    ensures forall i :: 0 <= i < |r| ==> !r[i].node.Link?
    decreases |cs|
  {
    if cs == [] then []
    else if cs[0].node.Link? then WithoutLinks(cs[1..])
    else [cs[0]] + WithoutLinks(cs[1..])
  }

  /** Symbolic links never count: dropping them changes nothing. */
  lemma {:induction false} LinksNeverCount(total: int, cs: seq<Entry>, exec: bool, depth: int)
    ensures LimitedSizeFrom(total, cs, exec, depth) == LimitedSizeFrom(total, WithoutLinks(cs), exec, depth)
    decreases |cs|
  {
    if cs != [] {
      var e := cs[0];
      if e.node.Link? {
        LinksNeverCount(total, cs[1..], exec, depth);
      } else {
        var r := [cs[0]] + WithoutLinks(cs[1..]);
        assert r[0] == e && r[1..] == WithoutLinks(cs[1..]);
        match e.node
        case File(size) =>
          LinksNeverCount(if exec then total + size else total, cs[1..], exec, depth);
        case Dir(_, _) =>
          var sub := if exec then LimitedSize(e.node, depth - 1) else 0;
          LinksNeverCount(if depth <= 1 then total else total + sub, cs[1..], exec, depth);
      }
    }
  }

  // ---------------------------------------------------------------------------
  // getOptimizedCacheDirSize

  /** getOptimizedCacheDirSize exactly as written: 0 for a path os.Stat does not find,
      the full walk of getDirSize when os.ReadDir fails, and otherwise a loop over the
      entries that guards the addition of a file's size but not that of a subdirectory's
      depth-3 size, which wraps around as int64 addition does. */
  function OptimizedSizeAsWritten(path: string, tree: Option<Node>): int {
    match tree
    case None => 0
    case Some(n) =>
      if StatOf(n).Missing? then 0
      else if !Listable(n) then DirSize(path, tree)
      else OptimizedFromAsWritten(0, n.children, n.perm.exec)
  }

  function OptimizedFromAsWritten(total: int, cs: seq<Entry>, exec: bool): int
    decreases |cs|
  {
    if cs == [] then total
    else
      var e := cs[0];
      match e.node
      case Link(_, _) => OptimizedFromAsWritten(total, cs[1..], exec)
      case Dir(_, _) =>
        var sub := if exec then LimitedSize(e.node, 3) else 0;
        OptimizedFromAsWritten(Int64.Add(total, sub), cs[1..], exec)
      case File(size) =>
        if !exec then OptimizedFromAsWritten(total, cs[1..], exec)
        else if WouldOverflow(total, size) then total
        else OptimizedFromAsWritten(total + size, cs[1..], exec)
  }

  /** Two subdirectories whose sizes add up past 2^63-1 make the size as written
      negative. */
  lemma OptimizedSizeWraps()
    ensures var open := Perm(true, true, true);
      var big := Dir(open, [Entry("f", File(Int64.Max))]);
      var one := Dir(open, [Entry("g", File(1))]);
      OptimizedSizeAsWritten("cache", Some(Dir(open, [Entry("a", big), Entry("b", one)]))) == Int64.Min
  {
    var open := Perm(true, true, true);
    var big := Dir(open, [Entry("f", File(Int64.Max))]);
    var one := Dir(open, [Entry("g", File(1))]);
    assert [Entry("f", File(Int64.Max))][1..] == [] && [Entry("g", File(1))][1..] == [];
    assert LimitedSizeFrom(0, big.children, true, 3) == Int64.Max;
    assert LimitedSize(big, 3) == Int64.Max;
    assert LimitedSizeFrom(0, one.children, true, 3) == 1;
    assert LimitedSize(one, 3) == 1;
    var cs := [Entry("a", big), Entry("b", one)];
    assert cs[1..] == [Entry("b", one)];
    assert OptimizedFromAsWritten(Int64.Max, cs[1..], true) == Int64.Add(Int64.Max, 1);
  }

  /** getOptimizedCacheDirSize with the subdirectory addition guarded like the file
      addition. It stays within [0, 2^63-1] and, for a directory it can list, equals the
      size of regular files up to four levels down whenever that fits. */
  method OptimizedCacheDirSize(path: string, tree: Option<Node>) returns (total: int)
    requires tree.Some? ==> Wf(tree.value)
    ensures InInt64Range(total)
    ensures tree.None? || StatOf(tree.value).Missing? ==> total == 0
    ensures tree.Some? && !StatOf(tree.value).Missing? && !Listable(tree.value) ==> total == DirSize(path, tree)
    ensures tree.Some? && Listable(tree.value) ==> total <= LimitedSum(tree.value, 4)
    ensures tree.Some? && Listable(tree.value) && LimitedSum(tree.value, 4) <= Int64.Max ==>
      total == LimitedSum(tree.value, 4)
  {
    if tree.None? || StatOf(tree.value).Missing? {
      return 0;
    }
    var n := tree.value;
    if !Listable(n) {
      // os.ReadDir fails: fall back to the full walk
      DirSizeInRange(path, tree);
      return DirSize(path, tree);
    }
    var cs := n.children;
    var exec := n.perm.exec;
    total := 0;
    var i := 0;
    while i < |cs|
      invariant 0 <= i <= |cs|
      invariant InInt64Range(total)
      invariant total <= LimitedSumOf(cs[..i], exec, 4)
      invariant LimitedSumOf(cs[..i], exec, 4) <= Int64.Max ==> total == LimitedSumOf(cs[..i], exec, 4)
    {
      var e := cs[i];
      assert Wf(e.node);
      SumOfSnoc(cs[..i], e, exec, 4);
      assert cs[..i + 1] == cs[..i] + [e];
      SumOfPrefix(cs, i + 1, exec, 4);
      if e.node.Link? {
        // symbolic links are skipped
      } else if e.node.Dir? {
        var sub := 0;
        if exec {
          sub := SizeWithLimit(e.node, 3);
          LimitedSizeBounds(e.node, 3);
        }
        if WouldOverflow(total, sub) {
          return;
        }
        total := total + sub;
      } else if exec {
        if WouldOverflow(total, e.node.size) {
          return;
        }
        total := total + e.node.size;
      }
      i := i + 1;
    }
    assert cs[..i] == cs;
  }

  lemma {:induction false} SumOfSnoc(cs: seq<Entry>, e: Entry, exec: bool, depth: int)
    ensures LimitedSumOf(cs + [e], exec, depth) == LimitedSumOf(cs, exec, depth) + Contribution(e, exec, depth)
    decreases |cs|
  {
    if cs == [] {
      assert [e][1..] == [];
    } else {
      assert (cs + [e])[1..] == cs[1..] + [e];
      SumOfSnoc(cs[1..], e, exec, depth);
    }
  }

  lemma {:induction false} SumOfPrefix(cs: seq<Entry>, i: nat, exec: bool, depth: int)
    requires i <= |cs|
    ensures LimitedSumOf(cs[..i], exec, depth) <= LimitedSumOf(cs, exec, depth)
    decreases |cs| - i
  {
    if i < |cs| {
      SumOfPrefix(cs, i + 1, exec, depth);
      SumOfSnoc(cs[..i], cs[i], exec, depth);
      assert cs[..i + 1] == cs[..i] + [cs[i]];
    } else {
      assert cs[..i] == cs;
    }
  }
}

=== FILE: tui.dfy ===
/** interactive.go: the terminal front-end's project list. loadProjects builds one
    ProjectItem per project found below "." and sorts them by cache size; the model's
    Update handles selection, the confirmation prompt and the cleaning loop. Rendering,
    key bindings, the spinner, the progress bar and the polling of the shared cleanup
    state are not modelled. */
module Interactive {
  import opened Wrappers
  import opened Paths
  import opened FsTree
  import opened Rules
  import opened CacheItems
  import opened Discovery
  import opened Cleanup
  import Int64

  datatype AppState = StateLoading | StateProjectList | StateDetails | StateCleaning | StateResults | StateConfirm

  /** ProjectItem, with its Project's Name, Path and Type inlined. */
  datatype ProjectItem = ProjectItem(name: string, path: string, typeName: string, selected: bool,
                                     cacheItems: seq<CacheItem>, totalSize: int, itemCount: int)

  // ---------------------------------------------------------------------------
  // loadProjects

  /** The item the walk callback builds for a project directory, or None when no project
      type is detected there. */
  function ItemFor(types: seq<ProjectType>, root: string, tree: Option<Node>, path: string): Option<ProjectItem> {
    var project := EntryAtPath(root, tree, path);
    match ProjectTypeAt(types, project)
    case None => None
    case Some(pt) =>
      var items := CacheItemsOf(path, pt.cacheConfig, project);
      Some(ProjectItem(Base(path), path, pt.name, false, items, Int64.Wrap(SizeSum(items)), |items|))
  }

  /** The items built for paths, in order. */
  function ItemsFor(types: seq<ProjectType>, root: string, tree: Option<Node>, paths: seq<string>): seq<ProjectItem>
    decreases |paths|
  {
    if paths == [] then []
    else
      var init := ItemsFor(types, root, tree, paths[..|paths| - 1]);
      match ItemFor(types, root, tree, paths[|paths| - 1])
      case None => init
      case Some(item) => init + [item]
  }

  /** Every built item is unselected, counts its cache items and totals their sizes. */
  lemma {:induction false} ItemsForShape(types: seq<ProjectType>, root: string, tree: Option<Node>, paths: seq<string>)
    ensures |ItemsFor(types, root, tree, paths)| <= |paths|
    ensures forall p :: p in ItemsFor(types, root, tree, paths) ==>
              !p.selected && p.itemCount == |p.cacheItems| && p.totalSize == Int64.Wrap(SizeSum(p.cacheItems)) &&
              p.path in paths && p.name == Base(p.path)
    decreases |paths|
  {
    if paths != [] {
      ItemsForShape(types, root, tree, paths[..|paths| - 1]);
    }
  }

  predicate SortedBySize(ps: seq<ProjectItem>) {
    forall i, j :: 0 <= i < j < |ps| ==> ps[i].totalSize >= ps[j].totalSize
  }

  /** Insert p into a list sorted largest first. */
  function Insert(p: ProjectItem, ps: seq<ProjectItem>): (r: seq<ProjectItem>)
    decreases |ps|
  {
    if ps == [] || p.totalSize >= ps[0].totalSize then [p] + ps
    else [ps[0]] + Insert(p, ps[1..])
  }

  /** sort.Slice with "larger TotalSize first"; the order of equal sizes is not
      specified, so any sorted permutation is a correct result. */
  function SortBySize(ps: seq<ProjectItem>): seq<ProjectItem>
    decreases |ps|
  {
    if ps == [] then [] else Insert(ps[0], SortBySize(ps[1..]))
  }

  lemma {:induction false} InsertPermutes(p: ProjectItem, ps: seq<ProjectItem>)
    ensures multiset(Insert(p, ps)) == multiset(ps) + multiset{p}
    decreases |ps|
  {
    if !(ps == [] || p.totalSize >= ps[0].totalSize) {
      InsertPermutes(p, ps[1..]);
      assert ps == [ps[0]] + ps[1..];
    }
  }

  /** Inserting keeps every element at most a bound the inserted one respects. */
  lemma {:induction false} InsertBounded(p: ProjectItem, ps: seq<ProjectItem>, b: int)
    requires p.totalSize <= b && forall i :: 0 <= i < |ps| ==> ps[i].totalSize <= b
    ensures forall i :: 0 <= i < |Insert(p, ps)| ==> Insert(p, ps)[i].totalSize <= b
    decreases |ps|
  {
    if !(ps == [] || p.totalSize >= ps[0].totalSize) {
      InsertBounded(p, ps[1..], b);
    }
  }

  lemma {:induction false} InsertSorted(p: ProjectItem, ps: seq<ProjectItem>)
    requires SortedBySize(ps)
    ensures SortedBySize(Insert(p, ps))
    decreases |ps|
  {
    if !(ps == [] || p.totalSize >= ps[0].totalSize) {
      InsertSorted(p, ps[1..]);
      InsertBounded(p, ps[1..], ps[0].totalSize);
      var rest := Insert(p, ps[1..]);
      assert Insert(p, ps) == [ps[0]] + rest;
    }
  }

  /** The sort yields the same items, largest first. */
  lemma {:induction false} SortBySizeCorrect(ps: seq<ProjectItem>)
    ensures SortedBySize(SortBySize(ps))
    ensures multiset(SortBySize(ps)) == multiset(ps)
    decreases |ps|
  {
    if ps != [] {
      SortBySizeCorrect(ps[1..]);
      InsertSorted(ps[0], SortBySize(ps[1..]));
      InsertPermutes(ps[0], SortBySize(ps[1..]));
      assert ps == [ps[0]] + ps[1..];
    }
  }

  lemma ItemsForStep(types: seq<ProjectType>, root: string, tree: Option<Node>, paths: seq<string>, i: int)
    requires 0 <= i < |paths|
    ensures var item := ItemFor(types, root, tree, paths[i]);
      ItemsFor(types, root, tree, paths[..i + 1]) ==
        ItemsFor(types, root, tree, paths[..i]) + (if item.Some? then [item.value] else [])
  {
    assert paths[..i + 1][..i] == paths[..i];
  }

  /** loadProjects("."), the only root the front-end loads: discovery with the
      front-end's pruning as written, one item per project directory, then the sort. */
  method LoadProjects(types: seq<ProjectType>, tree: Option<Node>) returns (projects: seq<ProjectItem>)
    ensures SortedBySize(projects)
    ensures multiset(projects) == multiset(ItemsFor(types, ".", tree, LoadProjectPathsAsWritten(types, ".", tree)))
  {
    var paths := LoadProjectPathsAsWritten(types, ".", tree);
    var built: seq<ProjectItem> := [];
    var i := 0;
    while i < |paths|
      invariant 0 <= i <= |paths|
      invariant built == ItemsFor(types, ".", tree, paths[..i])
    {
      ItemsForStep(types, ".", tree, paths, i);
      var item := ItemFor(types, ".", tree, paths[i]);
      if item.Some? {
        built := built + [item.value];
      }
      i := i + 1;
    }
    assert paths[..i] == paths;
    SortBySizeCorrect(built);
    projects := SortBySize(built);
  }

  // ---------------------------------------------------------------------------
  // Selection

  /** The index of the first project with the given path, or |ps|. */
  function FirstWithPath(ps: seq<ProjectItem>, path: string): (k: nat)
    ensures k <= |ps|
    ensures forall j :: 0 <= j < k ==> ps[j].path != path
    ensures k < |ps| ==> ps[k].path == path
    decreases |ps|
  {
    if ps == [] then 0
    else if ps[0].path == path then 0
    else 1 + FirstWithPath(ps[1..], path)
  }

  /** The list after the Select key for the highlighted path. */
  function Toggled(ps: seq<ProjectItem>, path: string): seq<ProjectItem> {
    var k := FirstWithPath(ps, path);
    if k < |ps| then ps[k := ps[k].(selected := !ps[k].selected)] else ps
  }

  /** Toggling changes only the selection flag of the first project with the path, and
      toggling twice restores the list. */
  lemma ToggledOnlyFirst(ps: seq<ProjectItem>, path: string)
    ensures |Toggled(ps, path)| == |ps|
    ensures forall j :: 0 <= j < |ps| && (ps[j].path != path || exists i :: 0 <= i < j && ps[i].path == path) ==>
              Toggled(ps, path)[j] == ps[j]
    ensures forall j :: 0 <= j < |ps| && ps[j].path == path && (forall i :: 0 <= i < j ==> ps[i].path != path) ==>
              Toggled(ps, path)[j] == ps[j].(selected := !ps[j].selected)
    ensures Toggled(Toggled(ps, path), path) == ps
  {
    var k := FirstWithPath(ps, path);
    if k < |ps| {
      var r := Toggled(ps, path);
      assert FirstWithPath(r, path) == k by {
        assert forall j :: 0 <= j < k ==> r[j].path != path;
        FirstWithPathIs(r, path, k);
      }
      assert Toggled(r, path) == ps;
    }
  }

  lemma FirstWithPathIs(ps: seq<ProjectItem>, path: string, k: nat)
    requires k <= |ps| && (forall j :: 0 <= j < k ==> ps[j].path != path) && (k < |ps| ==> ps[k].path == path)
    ensures FirstWithPath(ps, path) == k
  {
  }

  /** SelectAll: every project with cache items becomes selected. */
  function SelectAllOf(ps: seq<ProjectItem>): (r: seq<ProjectItem>)
    ensures |r| == |ps|
    ensures forall i :: 0 <= i < |ps| ==>
      r[i].selected == (ps[i].selected || ps[i].itemCount > 0) && r[i].(selected := ps[i].selected) == ps[i]
  {
    seq(|ps|, i requires 0 <= i < |ps| => if ps[i].itemCount > 0 then ps[i].(selected := true) else ps[i])
  }

  /** DeselectAll: no project stays selected. */
  function DeselectAllOf(ps: seq<ProjectItem>): (r: seq<ProjectItem>)
    ensures |r| == |ps|
    ensures forall i :: 0 <= i < |ps| ==> !r[i].selected && r[i].(selected := ps[i].selected) == ps[i]
  {
    seq(|ps|, i requires 0 <= i < |ps| => ps[i].(selected := false))
  }

  /** The selected projects, in list order. */
  function SelectedOf(ps: seq<ProjectItem>): (r: seq<ProjectItem>)
    ensures |r| <= |ps|
    decreases |ps|
  {
    if ps == [] then []
    else SelectedOf(ps[..|ps| - 1]) + (if ps[|ps| - 1].selected then [ps[|ps| - 1]] else [])
  }

  lemma {:induction false} SelectedOfExactly(ps: seq<ProjectItem>)
    ensures forall p :: p in SelectedOf(ps) <==> p in ps && p.selected
    decreases |ps|
  {
    if ps != [] {
      SelectedOfExactly(ps[..|ps| - 1]);
      assert ps == ps[..|ps| - 1] + [ps[|ps| - 1]];
    }
  }

  /** After SelectAll something is selected exactly when some project has cache items or
      was selected already; after DeselectAll nothing is, so Clean then stays in the
      list. */
  lemma SelectAllThenSelected(ps: seq<ProjectItem>)
    ensures SelectedOf(SelectAllOf(ps)) != [] <==> exists i :: 0 <= i < |ps| && (ps[i].itemCount > 0 || ps[i].selected)
    ensures SelectedOf(DeselectAllOf(ps)) == []
  {
    SelectedOfExactly(SelectAllOf(ps));
    NoneSelected(DeselectAllOf(ps));
    var s := SelectedOf(SelectAllOf(ps));
    if s != [] {
      assert s[0] in SelectAllOf(ps);
    }
    if exists i :: 0 <= i < |ps| && (ps[i].itemCount > 0 || ps[i].selected) {
      var i :| 0 <= i < |ps| && (ps[i].itemCount > 0 || ps[i].selected);
      assert SelectAllOf(ps)[i] in SelectAllOf(ps);
    }
  }

  lemma {:induction false} NoneSelected(ps: seq<ProjectItem>)
    requires forall i :: 0 <= i < |ps| ==> !ps[i].selected
    ensures SelectedOf(ps) == []
    decreases |ps|
  {
    if ps != [] {
      NoneSelected(ps[..|ps| - 1]);
    }
  }

  function SizeTotal(ps: seq<ProjectItem>): int
    decreases |ps|
  {
    if ps == [] then 0 else SizeTotal(ps[..|ps| - 1]) + ps[|ps| - 1].totalSize
  }

  function CountTotal(ps: seq<ProjectItem>): int
    decreases |ps|
  {
    if ps == [] then 0 else CountTotal(ps[..|ps| - 1]) + ps[|ps| - 1].itemCount
  }

  /** One more project looked at by the selection loop of Clean. */
  lemma SelectStep(ps: seq<ProjectItem>, i: int)
    requires 0 <= i < |ps|
    ensures var s, p := SelectedOf(ps[..i]), ps[i];
      SelectedOf(ps[..i + 1]) == (if p.selected then s + [p] else s) &&
      Int64.Wrap(SizeTotal(s + [p])) == Int64.Add(Int64.Wrap(SizeTotal(s)), p.totalSize) &&
      Int64.Wrap(CountTotal(s + [p])) == Int64.Add(Int64.Wrap(CountTotal(s)), p.itemCount)
  {
    var s, p := SelectedOf(ps[..i]), ps[i];
    assert ps[..i + 1][..i] == ps[..i] && ps[..i + 1][i] == p;
    assert (s + [p])[..|s|] == s;
    Int64.WrapOfSum(SizeTotal(s), p.totalSize);
    Int64.WrapOfSum(CountTotal(s), p.itemCount);
  }

  // ---------------------------------------------------------------------------
  // The model and its transitions

  /** The confirm-state key handling. */
  function ConfirmTransition(key: string): Option<AppState> {
    if key == "y" || key == "Y" then Some(StateCleaning)
    else if key == "n" || key == "N" || key == "esc" then Some(StateProjectList)
    else None
  }

  class Model {
    var state: AppState
    var projects: seq<ProjectItem>
    /** The selected projects the confirm action will clean, and the totals the prompt
        shows. */
    var pending: seq<ProjectItem>
    var pendingItems: int
    var pendingSize: int

    constructor ()
      ensures state == StateLoading && projects == [] && pending == []
    {
      state, projects := StateLoading, [];
      pending, pendingItems, pendingSize := [], 0, 0;
    }

    /** The loadProjectsMsg: show the loaded list. */
    method ProjectsLoaded(loaded: seq<ProjectItem>)
      modifies this
      ensures state == StateProjectList && projects == loaded
      ensures pending == old(pending) && pendingItems == old(pendingItems) && pendingSize == old(pendingSize)
    {
      state, projects := StateProjectList, loaded;
    }

    /** The Select key in the list, with the highlighted item's path if there is one. */
    method Select(highlighted: Option<string>)
      modifies this
      ensures projects == if old(state) == StateProjectList && highlighted.Some?
                          then Toggled(old(projects), highlighted.value) else old(projects)
      ensures state == old(state) && pending == old(pending)
      ensures pendingItems == old(pendingItems) && pendingSize == old(pendingSize)
    {
      if state != StateProjectList || highlighted.None? {
        return;
      }
      var path := highlighted.value;
      var i := 0;
      while i < |projects|
        invariant 0 <= i <= |projects|
        invariant projects == old(projects) && state == old(state) && pending == old(pending)
        invariant pendingItems == old(pendingItems) && pendingSize == old(pendingSize)
        invariant forall j :: 0 <= j < i ==> projects[j].path != path
      {
        if projects[i].path == path {
          FirstWithPathIs(projects, path, i);
          projects := projects[i := projects[i].(selected := !projects[i].selected)];
          return;
        }
        i := i + 1;
      }
      FirstWithPathIs(projects, path, i);
    }

    /** The SelectAll key in the list. */
    method SelectAll()
      modifies this
      ensures projects == if old(state) == StateProjectList then SelectAllOf(old(projects)) else old(projects)
      ensures state == old(state) && pending == old(pending)
      ensures pendingItems == old(pendingItems) && pendingSize == old(pendingSize)
    {
      if state != StateProjectList {
        return;
      }
      var i := 0;
      while i < |projects|
        invariant 0 <= i <= |projects| == |old(projects)|
        invariant forall j :: 0 <= j < |projects| ==> projects[j] == if j < i then SelectAllOf(old(projects))[j] else old(projects)[j]
        invariant state == old(state) && pending == old(pending)
        invariant pendingItems == old(pendingItems) && pendingSize == old(pendingSize)
      {
        if projects[i].itemCount > 0 {
          projects := projects[i := projects[i].(selected := true)];
        }
        i := i + 1;
      }
    }

    /** The DeselectAll key in the list. */
    method DeselectAll()
      modifies this
      ensures projects == if old(state) == StateProjectList then DeselectAllOf(old(projects)) else old(projects)
      ensures state == old(state) && pending == old(pending)
      ensures pendingItems == old(pendingItems) && pendingSize == old(pendingSize)
    {
      if state != StateProjectList {
        return;
      }
      var i := 0;
      while i < |projects|
        invariant 0 <= i <= |projects| == |old(projects)|
        invariant forall j :: 0 <= j < |projects| ==> projects[j] == if j < i then DeselectAllOf(old(projects))[j] else old(projects)[j]
        invariant state == old(state) && pending == old(pending)
        invariant pendingItems == old(pendingItems) && pendingSize == old(pendingSize)
      {
        projects := projects[i := projects[i].(selected := false)];
        i := i + 1;
      }
    }

    /** The Clean key in the list: with something selected, prepare the confirmation with
        the selected projects and their int64 size total and int item total. */
    method Clean()
      modifies this
      ensures projects == old(projects)
      ensures var selected := SelectedOf(old(projects));
              if old(state) == StateProjectList && selected != [] then
                state == StateConfirm && pending == selected &&
                pendingSize == Int64.Wrap(SizeTotal(selected)) && pendingItems == Int64.Wrap(CountTotal(selected))
              else
                state == old(state) && pending == old(pending) &&
                pendingItems == old(pendingItems) && pendingSize == old(pendingSize)
    {
      if state != StateProjectList {
        return;
      }
      var selected: seq<ProjectItem> := [];
      var totalSize, totalItems := 0, 0;
      var i := 0;
      while i < |projects|
        invariant 0 <= i <= |projects|
        invariant projects == old(projects) && state == old(state) && pending == old(pending)
        invariant pendingItems == old(pendingItems) && pendingSize == old(pendingSize)
        invariant selected == SelectedOf(projects[..i])
        invariant totalSize == Int64.Wrap(SizeTotal(selected)) && totalItems == Int64.Wrap(CountTotal(selected))
      {
        var p := projects[i];
        SelectStep(projects, i);
        if p.selected {
          selected := selected + [p];
          totalSize := Int64.Add(totalSize, p.totalSize);
          totalItems := Int64.Add(totalItems, p.itemCount);
        }
        i := i + 1;
      }
      assert projects[..i] == projects;
      if |selected| > 0 {
        pending, pendingItems, pendingSize := selected, totalItems, totalSize;
        state := StateConfirm;
      }
    }

    /** A key in the confirm state; on 'y' it returns the projects the confirm action
        hands to cleanSelectedProjects. */
    method ConfirmKey(key: string) returns (toClean: Option<seq<ProjectItem>>)
      modifies this
      ensures state == if old(state) == StateConfirm && ConfirmTransition(key).Some?
                       then ConfirmTransition(key).value else old(state)
      ensures toClean == if old(state) == StateConfirm && state == StateCleaning then Some(pending) else None
      ensures projects == old(projects) && pending == old(pending)
      ensures pendingItems == old(pendingItems) && pendingSize == old(pendingSize)
    {
      toClean := None;
      if state != StateConfirm {
        return;
      }
      if key == "y" || key == "Y" {
        state := StateCleaning;
        toClean := Some(pending);
      } else if key == "n" || key == "N" || key == "esc" {
        state := StateProjectList;
      }
    }
  }

  /** Only 'y'/'Y' start the cleaning, only 'n'/'N'/esc go back to the list, and every
      other key leaves the prompt open. */
  lemma ConfirmKeys(key: string)
    ensures ConfirmTransition(key) == Some(StateCleaning) <==> key in {"y", "Y"}
    ensures ConfirmTransition(key) == Some(StateProjectList) <==> key in {"n", "N", "esc"}
    ensures ConfirmTransition(key).None? <==> key !in {"y", "Y", "n", "N", "esc"}
  {
  }

  // ---------------------------------------------------------------------------
  // cleanSelectedProjects

  /** The results after cleaning projects in order; existed holds the paths os.Stat
      finds before the cleaning starts and fails the cache item paths whose every removal
      strategy fails. */
  function CleaningResults(t: Totals, projects: seq<ProjectItem>, existed: set<string>, fails: set<string>): Totals
    decreases |projects|
  {
    if projects == [] then t
    else
      var before := CleaningResults(t, projects[..|projects| - 1], existed, fails);
      var removed := Removed(projects[|projects| - 1].cacheItems, existed, fails);
      AddTo(before, |removed|, Int64.Wrap(SizeSum(removed))).(projects := Int64.Add(before.projects, 1))
  }

  /** The cleanup loop of cleanSelectedProjects. */
  method CleanSelectedProjects(projects: seq<ProjectItem>, existed: set<string>, fails: set<string>) returns (results: Totals)
    ensures results == CleaningResults(Totals(0, 0, 0), projects, existed, fails)
  {
    results := Totals(0, 0, 0);
    var i := 0;
    while i < |projects|
      invariant 0 <= i <= |projects|
      invariant results == CleaningResults(Totals(0, 0, 0), projects[..i], existed, fails)
    {
      assert projects[..i + 1][..i] == projects[..i];
      var removedItems, removedSize := RemoveCacheItems(projects[i].cacheItems, existed, fails);
      results := results.(items := Int64.Add(results.items, removedItems),
                          size := Int64.Add(results.size, removedSize),
                          projects := Int64.Add(results.projects, 1));
      i := i + 1;
    }
    assert projects[..i] == projects;
  }

  /** The number of items and bytes removed over all projects, before any wrap. */
  function RemovedItems(projects: seq<ProjectItem>, existed: set<string>, fails: set<string>): int
    decreases |projects|
  {
    if projects == [] then 0
    else RemovedItems(projects[..|projects| - 1], existed, fails) + |Removed(projects[|projects| - 1].cacheItems, existed, fails)|
  }

  function RemovedBytes(projects: seq<ProjectItem>, existed: set<string>, fails: set<string>): int
    decreases |projects|
  {
    if projects == [] then 0
    else RemovedBytes(projects[..|projects| - 1], existed, fails) + SizeSum(Removed(projects[|projects| - 1].cacheItems, existed, fails))
  }

  /** Every project handed in is counted whatever its removals do, and the item and byte
      totals are the int64 sums of what removeCacheItems reports. */
  lemma {:induction false} CleaningCounts(projects: seq<ProjectItem>, existed: set<string>, fails: set<string>)
    requires |projects| <= Int64.Max
    ensures CleaningResults(Totals(0, 0, 0), projects, existed, fails).projects == |projects|
    ensures CleaningResults(Totals(0, 0, 0), projects, existed, fails).items == Int64.Wrap(RemovedItems(projects, existed, fails))
    ensures CleaningResults(Totals(0, 0, 0), projects, existed, fails).size == Int64.Wrap(RemovedBytes(projects, existed, fails))
    decreases |projects|
  {
    if projects != [] {
      var init := projects[..|projects| - 1];
      CleaningCounts(init, existed, fails);
      CleaningStep(projects, existed, fails);
      var removed := Removed(projects[|projects| - 1].cacheItems, existed, fails);
      var before, after := CleaningResults(Totals(0, 0, 0), init, existed, fails), CleaningResults(Totals(0, 0, 0), projects, existed, fails);
      Int64.WrapStep(before.items, RemovedItems(init, existed, fails), |removed|, after.items);
      Int64.WrapStepWrapped(before.size, RemovedBytes(init, existed, fails), SizeSum(removed), after.size);
    }
  }

  /** The last project's removals added to the totals of the ones before it. */
  lemma CleaningStep(projects: seq<ProjectItem>, existed: set<string>, fails: set<string>)
    requires projects != []
    ensures var init, removed := projects[..|projects| - 1], Removed(projects[|projects| - 1].cacheItems, existed, fails);
      var before, after := CleaningResults(Totals(0, 0, 0), init, existed, fails), CleaningResults(Totals(0, 0, 0), projects, existed, fails);
      after.projects == Int64.Add(before.projects, 1) &&
      after.items == Int64.Wrap(before.items + |removed|) &&
      after.size == Int64.Wrap(before.size + Int64.Wrap(SizeSum(removed))) &&
      RemovedItems(projects, existed, fails) == RemovedItems(init, existed, fails) + |removed| &&
      RemovedBytes(projects, existed, fails) == RemovedBytes(init, existed, fails) + SizeSum(removed)
  {
  }
}

=== FILE: wrappers.dfy ===
/** The optional value used wherever a lookup can come back empty. */
module Wrappers {
  datatype Option<T> = None | Some(value: T)
}
